=== FILE: README.md ===
# BlackBoxFunctions library core in Dafny

This project models the text-processing heart of the BlackBoxFunctions
IntelliJ plugin. The plugin asks a language model for a Python function
and keeps every generated function in one library file,
`generated_functions.py`. Each function's record in that file is:

- a commented header line:
  `# def f(x): # Prompt: <prompt> # UID: <uid>`;
- a four-line delegating wrapper:
  - `def f(*args, **kwargs):`
  - `    from f import f`
  - `    return f(*args, **kwargs)`
  - a blank line.

The model covers:

- the response parser that cuts the code block out of the model's answer
  between the `# Start` and `# End` comments, in both client variants;
- the function-name extraction (`extractFunctionName`);
- the record writer (`writeToLibrary`) and the three line readers for
  definitions, prompts and uids;
- the delete filter with its blank-line collapse;
- the library sweep `deleteLibraryFiles`;
- the uid lookup `getFunctionUIDs`;
- the tool window's bookkeeping: the map from function name to prompt,
  loading, submitting and deleting;
- the `PYTHONPATH` and SDK-root rules of the path manager;
- the JSON escaper of the prompt logger.

Modules, in dependency order:

- `Base`: the `Option` and `Result` types.
- `JavaStrings`: the `java.lang.String` operations the code relies on. These are `indexOf`, `contains`, `split` with its dropped trailing empties, the `\s+` split, `trim` and `replace`.
- `Library`: the project directory, meaning the library file as a sequence of lines plus the set of compiled `.pyc` modules.
- `FunctionWriter`, `FunctionDeleter`, `FunctionManager`, `ResponseParser`, `PromptLogging`, `PathManager`: one module per source class.
- `Controller`: the decision logic of the BlackBoxFunctions tool window.

The library file is a `seq<string>` of lines, without line terminators. A
Java exception that escapes an operation is modelled as follows:

- as `None` or `Thrown`, when the operation returns a value;
- as a `Crashed` outcome, for the controller;
- as a `crashed` flag, for the sweep.

I/O failures are explicit fault parameters.

## Model

| member | source | states |
|---|---|---|
| `FunctionWriter.ExtractFunctionName` | src/main/java/org/intellij/sdk/PyTutor/FunctionWriter.java:48-54 | A returned name never contains whitespace or '('. |
| `FunctionWriter.NameOfToken` | src/main/java/org/intellij/sdk/PyTutor/FunctionWriter.java:51 | The name is a prefix of the token after `def` and has no '('. The result is `None` exactly when the token's split on '(' is empty, which is the ArrayIndexOutOfBounds case. |
| `FunctionWriter.ExtractCrashes` | src/main/java/org/intellij/sdk/PyTutor/FunctionWriter.java:49-51 | Extraction throws if and only if the first token is `def` and the second token consists of '(' characters only. |
| `FunctionWriter.ExtractRequiresDefToken` | src/main/java/org/intellij/sdk/PyTutor/FunctionWriter.java:49-53 | The result is "" unless there are at least two tokens and the first is exactly `def`. A definition with leading whitespace therefore gives "". |
| `FunctionWriter.ExtractWellFormed` | src/main/java/org/intellij/sdk/PyTutor/FunctionWriter.java:48-52 | `def n(args` gives back `n` for every non-empty name without whitespace or '('. |
| `FunctionWriter.ExtractKeepsOut` | src/main/java/org/intellij/sdk/PyTutor/FunctionWriter.java:49-51 | A character missing from the definition is missing from the extracted name. |
| `FunctionWriter.StripPrompt` | src/main/java/org/intellij/sdk/PyTutor/FunctionWriter.java:28 | The stored prompt has no line feed and no carriage return, is no longer than the prompt, and equals the prompt when it had neither. |
| `FunctionWriter.WriteToLibrary` | src/main/java/org/intellij/sdk/PyTutor/FunctionWriter.java:19-38 | A throwing name extraction or a failed compile-script extraction changes nothing. When the compile step does not clobber the library, the old lines stay as a prefix. When it does clobber it (a function named `generated_functions` with an SDK present), at most five lines remain, and the file is gone exactly when the header append fails. Either way at most five lines are added, no `.pyc` appears without an SDK, and only the extracted name can gain one. |
| `FunctionWriter.AppendedLines` | src/main/java/org/intellij/sdk/PyTutor/FunctionWriter.java:28-34 | Without a header fault, the file becomes the kept lines, then the header, then the four wrapper lines. The kept lines are all the old ones, or none when the compile step clobbered the library. The wrapper is missing when its append fails. |
| `FunctionWriter.HeaderShape` | src/main/java/org/intellij/sdk/PyTutor/FunctionWriter.java:30 | The header line is `# ` and the definition, then both the `# Prompt:` and the `# UID:` markers, 21 characters longer than its three fields together. |
| `FunctionWriter.WrapperShape` | src/main/java/org/intellij/sdk/PyTutor/FunctionWriter.java:31 | The wrapper is four lines, the last one blank and the first opening `def n(`, and none of them reads as a `# def ` header. |
| `FunctionWriter.DefinitionOfLine` | src/main/java/org/intellij/sdk/PyTutor/FunctionWriter.java:61-62 | A line yields a definition if and only if it starts with `# def `. The definition starts with `def ` and contains no '#'. |
| `FunctionWriter.PromptOfLine` | src/main/java/org/intellij/sdk/PyTutor/FunctionWriter.java:76-88 | The prompt text is shorter than the line by at least the marker length. `None` when `# UID:` starts before the prompt text, which is the StringIndexOutOfBounds case. |
| `FunctionWriter.UidOfLine` | src/main/java/org/intellij/sdk/PyTutor/FunctionWriter.java:104-110 | The uid is shorter than the line by at least the marker length. |
| `FunctionWriter.DefinitionsOf` | src/main/java/org/intellij/sdk/PyTutor/FunctionWriter.java:61-63 | The definition reader over lines: every entry starts with `def ` and holds no '#', and there are no more entries than lines. |
| `FunctionWriter.PromptsOf` | src/main/java/org/intellij/sdk/PyTutor/FunctionWriter.java:76-89 | The prompt reader over lines: at most one prompt per line, or a throw. |
| `FunctionWriter.UidsOf` | src/main/java/org/intellij/sdk/PyTutor/FunctionWriter.java:104-111 | The uid reader over lines: at most one uid per line. |
| `FunctionWriter.ReadDefinitions` | src/main/java/org/intellij/sdk/PyTutor/FunctionWriter.java:56-69 | A missing file, or one that cannot be opened, gives the empty list. |
| `FunctionWriter.ReadPrompts` | src/main/java/org/intellij/sdk/PyTutor/FunctionWriter.java:71-97 | A missing file, or one that cannot be opened, gives the empty list. |
| `FunctionWriter.ReadUids` | src/main/java/org/intellij/sdk/PyTutor/FunctionWriter.java:99-119 | A missing file, or one that cannot be opened, gives the empty list. |
| `FunctionWriter.HeaderLayout` | src/main/java/org/intellij/sdk/PyTutor/FunctionWriter.java:30 | In a header for a '#'-free definition, the first `# Prompt:` and the first `# UID:` are the ones the writer put there, and so is the first '#' after index 2. |
| `FunctionWriter.HeaderRoundTrip` | src/main/java/org/intellij/sdk/PyTutor/FunctionWriter.java:61-107 | From the header, the readers return the definition plus " ", the trimmed stored prompt and the trimmed uid. |
| `FunctionWriter.DefinitionsOfConcat` | src/main/java/org/intellij/sdk/PyTutor/FunctionWriter.java:61-63 | The definition reader distributes over concatenation of line lists. |
| `FunctionWriter.UidsOfConcat` | src/main/java/org/intellij/sdk/PyTutor/FunctionWriter.java:104-111 | The uid reader distributes over concatenation. |
| `FunctionWriter.PromptsOfConcat` | src/main/java/org/intellij/sdk/PyTutor/FunctionWriter.java:76-89 | The prompt reader distributes over concatenation, with a throw in either part giving a throw. |
| `FunctionWriter.WriteClobbersLibrary` | src/main/java/org/intellij/sdk/PyTutor/FunctionWriter.java:127-154 | Writing a function named `generated_functions` with an SDK present makes the compile step overwrite and then delete the library. Every earlier definition is lost, so the definition reader does not return its old list plus the new entry. |
| `FunctionWriter.WriteToLibraryIntended` | src/main/java/org/intellij/sdk/PyTutor/FunctionWriter.java:152-154 | With the compile step's temporary file outside the project directory, the old lines always stay as a prefix. Aborts change nothing, and the `.pyc` outcome is that of the as-written write. |
| `FunctionWriter.IntendedWriteKeepsRecords` | src/main/java/org/intellij/sdk/PyTutor/FunctionWriter.java:28-107 | Under the intended write, each reader returns its old list plus exactly the new record's field, whatever the function's name. |
| `FunctionWriter.WriteRoundTrip` | src/main/java/org/intellij/sdk/PyTutor/FunctionWriter.java:28-107 | After a write, each reader returns its old list plus exactly the new record's field. When the compile step clobbered the library, each reader returns the new record's field alone. A failed header append leaves the kept lines. |
| `FunctionWriter.RecordRead` | src/main/java/org/intellij/sdk/PyTutor/FunctionWriter.java:30-107 | One header, with or without its wrapper, reads back as one definition, one prompt and one uid. |
| `FunctionWriter.AlignedReaders` | src/main/java/org/intellij/sdk/PyTutor/FunctionWriter.java:61-104 | When every header carries both markers and no other line carries any, the three readers return lists of equal length, and entry i of each is read from the same line, the i-th header, as `getFunctionUIDs` assumes when it pairs a definition with the uid at its index. |
| `FunctionWriter.StrayPromptMisaligns` | src/main/java/org/intellij/sdk/PyTutor/FunctionWriter.java:61-76 | A `# Prompt:` line that is not a header adds a prompt but no definition. |
| `FunctionWriter.HeaderWithoutUidMisaligns` | src/main/java/org/intellij/sdk/PyTutor/FunctionWriter.java:61-104 | A header without `# UID:` adds a definition but no uid. |
| `FunctionWriter.WriteKeepsAligned` | src/main/java/org/intellij/sdk/PyTutor/FunctionWriter.java:28-34 | Writing a '#'-free definition with a stored prompt free of `# UID:` keeps an aligned library aligned, whatever the faults. |
| `FunctionDeleter.FilterLines` | src/main/java/org/intellij/sdk/PyTutor/FunctionDeleter.java:28-33 | No kept line contains `# Prompt:`, `def n(`, `from n import n` or `return n(*args, **kwargs)`. |
| `FunctionDeleter.FilterKeepsSurvivors` | src/main/java/org/intellij/sdk/PyTutor/FunctionDeleter.java:28-33 | Lines that pass all four filters are kept unchanged and in order. |
| `FunctionDeleter.FilterDrops` | src/main/java/org/intellij/sdk/PyTutor/FunctionDeleter.java:28-33 | A line that fails a filter makes the output strictly shorter. |
| `FunctionDeleter.CollapseBlanks` | src/main/java/org/intellij/sdk/PyTutor/FunctionDeleter.java:36-48 | The output has no two neighbouring blank lines. After a blank line, the output does not start with a blank. |
| `FunctionDeleter.CollapseKeepsText` | src/main/java/org/intellij/sdk/PyTutor/FunctionDeleter.java:38-47 | The non-blank lines are exactly those of the input, in order. |
| `FunctionDeleter.CollapseFixed` | src/main/java/org/intellij/sdk/PyTutor/FunctionDeleter.java:38-47 | A line list without a blank run is returned unchanged. |
| `FunctionDeleter.CleanLines` | src/main/java/org/intellij/sdk/PyTutor/FunctionDeleter.java:36-48 | The loop with its `isPreviousLineEmpty` flag computes the collapse, and its output has no blank run. |
| `FunctionDeleter.DeleteLines` | src/main/java/org/intellij/sdk/PyTutor/FunctionDeleter.java:28-48 | Every remaining line passes the four filters, and no two neighbouring lines are blank. |
| `FunctionDeleter.DeleteIdempotent` | src/main/java/org/intellij/sdk/PyTutor/FunctionDeleter.java:28-48 | Deleting a name twice gives the same lines as deleting it once. |
| `FunctionDeleter.DeleteKeepsText` | src/main/java/org/intellij/sdk/PyTutor/FunctionDeleter.java:28-48 | The non-blank lines after the delete are exactly the non-blank lines the filters keep. |
| `FunctionDeleter.DeleteNotNoOp` | src/main/java/org/intellij/sdk/PyTutor/FunctionDeleter.java:29 | Any file holding a `# Prompt:` line changes on every delete, even of a name it does not contain. |
| `FunctionDeleter.DeleteWipesRecords` | src/main/java/org/intellij/sdk/PyTutor/FunctionDeleter.java:29 | After deleting any name from an aligned library, all three readers return nothing. |
| `FunctionDeleter.OtherWrapperSurvives` | src/main/java/org/intellij/sdk/PyTutor/FunctionDeleter.java:30-32 | The wrapper lines of a different well-formed name pass all four filters, so `foo` never matches the wrapper of `foo2`. |
| `FunctionDeleter.OwnWrapperFails` | src/main/java/org/intellij/sdk/PyTutor/FunctionDeleter.java:30-32 | The three text lines of the deleted name's own wrapper are filtered out. |
| `FunctionDeleter.OwnRecordFiltered` | src/main/java/org/intellij/sdk/PyTutor/FunctionDeleter.java:28-33 | A name's own record filters down to its blank separator line. |
| `FunctionDeleter.DeleteFunction` | src/main/java/org/intellij/sdk/PyTutor/FunctionDeleter.java:16-65 | A failing `.pyc` delete changes nothing. Otherwise the `.pyc` is gone. Without a fault an existing library is rewritten to its filtered and collapsed lines; a failed rewrite leaves it as it was. An absent file stays absent. |
| `FunctionDeleter.DeleteFunctionIdempotent` | src/main/java/org/intellij/sdk/PyTutor/FunctionDeleter.java:16-65 | A second successful delete of the same name changes nothing. |
| `FunctionDeleter.DeleteFunctionWipesReads` | src/main/java/org/intellij/sdk/PyTutor/FunctionDeleter.java:27-52 | After a successful delete from an aligned library, all three readers return nothing. |
| `FunctionDeleter.NameOfLine` | src/main/java/org/intellij/sdk/PyTutor/FunctionDeleter.java:72-74 | Only lines starting with `# def ` produce a name or a throw. A produced name has no whitespace. |
| `FunctionDeleter.NameOfHeaderHead` | src/main/java/org/intellij/sdk/PyTutor/FunctionDeleter.java:73-74 | For a header, the name is the second `\s+` token of the text before the first '('. It throws when there is no such token. |
| `FunctionDeleter.NameOfHeader` | src/main/java/org/intellij/sdk/PyTutor/FunctionDeleter.java:72-74 | The sweep derives the same name from a well-formed header as `extractFunctionName` does. |
| `FunctionDeleter.NameOfHeaderThrows` | src/main/java/org/intellij/sdk/PyTutor/FunctionDeleter.java:74 | A header for `def (…` makes the sweep throw. |
| `FunctionDeleter.FirstThrow` | src/main/java/org/intellij/sdk/PyTutor/FunctionDeleter.java:72-75 | The sweep stops at the first throwing line: no earlier line throws. |
| `FunctionDeleter.SweepCompiled` | src/main/java/org/intellij/sdk/PyTutor/FunctionDeleter.java:71-85 | The loop visits each name before the first throw exactly once, and reports a crash exactly when some line throws. |
| `FunctionDeleter.DeleteLibraryFiles` | src/main/java/org/intellij/sdk/PyTutor/FunctionDeleter.java:67-98 | Each swept name loses its `.pyc` unless that delete fails. The library file is removed unless the sweep crashed or the removal failed. |
| `FunctionDeleter.SweepOfRecord` | src/main/java/org/intellij/sdk/PyTutor/FunctionDeleter.java:72-76 | A library of one well-formed record sweeps exactly its name, without a crash. |
| `FunctionDeleter.RecordAligned` | src/main/java/org/intellij/sdk/PyTutor/FunctionWriter.java:30-31 | A record written for a well-formed definition is aligned. |
| `FunctionDeleter.DeleteRecordLines` | src/main/java/org/intellij/sdk/PyTutor/FunctionDeleter.java:28-48 | Corrected delete: every kept line passes the header-by-name test and the wrapper patterns, and the output has no blank run. |
| `FunctionDeleter.RecordFilterDropsOwn` | src/main/java/org/intellij/sdk/PyTutor/FunctionDeleter.java:28-33 | The corrected filter reduces a name's own record to its blank line. |
| `FunctionDeleter.RecordFilterKeepsOther` | src/main/java/org/intellij/sdk/PyTutor/FunctionDeleter.java:28-33 | The corrected filter keeps another name's record intact. |
| `FunctionDeleter.SeparatedRecordCollapsed` | src/main/java/org/intellij/sdk/PyTutor/FunctionDeleter.java:36-48 | A blank line followed by a record is not changed by the collapse. |
| `FunctionDeleter.DeleteRecordOfPair` | src/main/java/org/intellij/sdk/PyTutor/FunctionDeleter.java:28-48 | With the corrected delete, deleting the first of two records leaves a blank line and the second record. |
| `FunctionDeleter.DeleteRecordIsolates` | src/main/java/org/intellij/sdk/PyTutor/FunctionDeleter.java:28-48 | With the corrected delete, the other record's definition, prompt and uid still read back. |
| `FunctionDeleter.DeleteLinesLosesOther` | src/main/java/org/intellij/sdk/PyTutor/FunctionDeleter.java:29 | As written, deleting `n` from a library that also holds `m`'s record makes all three readers return nothing, so `m` is lost. |
| `FunctionManager.NamesOf` | src/main/java/org/intellij/sdk/BlackBoxFunctions/FunctionManager.java:27-29 | `returnFunctionName` is `extractFunctionName`, applied index by index. |
| `FunctionManager.UidSearch` | src/main/java/org/intellij/sdk/BlackBoxFunctions/FunctionManager.java:51-59 | The first matching definition selects the uid at its index. An unchecked index past the uid list throws, and so does a throwing name met first. With no match the result is "". |
| `FunctionManager.GetFunctionUid` | src/main/java/org/intellij/sdk/BlackBoxFunctions/FunctionManager.java:47-60 | Gives "" when no definition's name is the query. |
| `FunctionManager.EarliestWins` | src/main/java/org/intellij/sdk/BlackBoxFunctions/FunctionManager.java:51-56 | With duplicate names the earliest record supplies the uid. |
| `FunctionManager.UidFromMatchingRecord` | src/main/java/org/intellij/sdk/BlackBoxFunctions/FunctionManager.java:51-59 | A non-empty answer always comes from a record whose name equals the query. |
| `FunctionManager.LookupAfterWrite` | src/main/java/org/intellij/sdk/BlackBoxFunctions/FunctionManager.java:47-56 | A library holding one written record gives back its trimmed uid. |
| `ResponseParser.GetFunctionFromGPT` | src/main/java/org/intellij/sdk/BlackBoxFunctions/OpenAIClient.java:94-117 | The uid is passed through. The definition is empty exactly when the code is. A failure carries one of the two messages, and a success carries the raw text. Text without `# Start` gives the no-function result. |
| `ResponseParser.GetFunctionFromGPTPlain` | src/main/java/org/intellij/sdk/PyTutor/OpenAIClient.java:75-98 | The uid-less variant gives the same outcomes. |
| `ResponseParser.PlainAgreesWithTracked` | src/main/java/org/intellij/sdk/PyTutor/OpenAIClient.java:75-98 | Both parsers agree on every text, once the uid is dropped. |
| `ResponseParser.ProcessResponse` | src/main/java/org/intellij/sdk/BlackBoxFunctions/OpenAIClient.java:50-61 | An `InvalidPrompt:` text is returned unparsed with empty fields. A found function keeps the raw text. |
| `ResponseParser.ParseMatchesCodeBlock` | src/main/java/org/intellij/sdk/BlackBoxFunctions/OpenAIClient.java:95-116 | The parser finds a function exactly when the indexOf-based reference finds a code block with a `def` line. It then returns that block and the trimmed first such line. |
| `ResponseParser.CodeContentMatchesBlock` | src/main/java/org/intellij/sdk/BlackBoxFunctions/OpenAIClient.java:95-104 | The split-based code content agrees with the reference cut between the first `# Start` and the next `# Start` or `# End`. |
| `ResponseParser.DefinitionInMatchesLine` | src/main/java/org/intellij/sdk/BlackBoxFunctions/OpenAIClient.java:105-115 | The split-based definition search agrees with the reference "first line containing `def`". |
| `ResponseParser.MarkerAtEnd` | src/main/java/org/intellij/sdk/BlackBoxFunctions/OpenAIClient.java:95-98 | A `# Start` with nothing after it gives the no-function result. |
| `ResponseParser.DelimitedCodeBlock` | src/main/java/org/intellij/sdk/BlackBoxFunctions/OpenAIClient.java:99-104 | The code is the trimmed text between the first `# Start` and the `# End` after it. |
| `ResponseParser.NoEndMarker` | src/main/java/org/intellij/sdk/BlackBoxFunctions/OpenAIClient.java:100-104 | A missing `# End` is no error: the code runs to the end of the text. |
| `ResponseParser.MultiplyExample` | src/main/java/org/intellij/sdk/BlackBoxFunctions/OpenAIClient.java:94-117 | The `def mul(a,b):` answer surrounded by noise parses to its definition line and its two-line code. |
| `ResponseParser.GenerateInstructions` | src/main/java/org/intellij/sdk/BlackBoxFunctions/OpenAIClient.java:119-128 | For a one-line text, splitting the instructions on line feeds gives back the five fixed lines, the second being "- " + text. |
| `PromptLogging.EscapeJson` | src/main/java/org/intellij/sdk/PyTutor/PromptLogging.java:149-155 | The output has no raw line feed. Text without a backslash, quote or line feed, including text with `\r`, is returned unchanged. |
| `PromptLogging.EscapeMatchesReference` | src/main/java/org/intellij/sdk/PyTutor/PromptLogging.java:151-153 | The three chained replaces equal one left-to-right pass that escapes each character by itself. |
| `PromptLogging.EscapeLength` | src/main/java/org/intellij/sdk/PyTutor/PromptLogging.java:151-153 | The escaped length is the input length plus the number of backslashes, quotes and line feeds. |
| `PromptLogging.UnescapeInvertsEscape` | src/main/java/org/intellij/sdk/PyTutor/PromptLogging.java:151-153 | A left-to-right decoder recovers the input from its escape. |
| `PromptLogging.EscapeInjective` | src/main/java/org/intellij/sdk/PyTutor/PromptLogging.java:151-153 | Two inputs with the same escape are equal. |
| `PathManager.JoinPath` | src/main/java/org/intellij/sdk/BlackBoxFunctions/PathManager.java:25 | The result ends with the name after exactly one separator, or directly after an empty base. |
| `PathManager.PluginDirPath` | src/main/java/org/intellij/sdk/BlackBoxFunctions/PathManager.java:22-29 | Throws if and only if there is no base path. Otherwise the result starts with the base path and contains `.blackbox_functions`. |
| `PathManager.UpdatePythonPath` | src/main/java/org/intellij/sdk/BlackBoxFunctions/PathManager.java:62-70 | Other run configurations pass through. The plugin path ends up contained, and every other variable keeps its presence and its value. A value that already contains the path is left alone; otherwise it becomes the old value ("" when absent), the path separator and the path. |
| `PathManager.UpdateIdempotent` | src/main/java/org/intellij/sdk/BlackBoxFunctions/PathManager.java:66-67 | Updating twice equals updating once. |
| `PathManager.AbsentPathLeadingSeparator` | src/main/java/org/intellij/sdk/BlackBoxFunctions/PathManager.java:65-67 | Without a `PYTHONPATH` entry, the new value is the separator followed by the plugin path. |
| `PathManager.UpdateAppends` | src/main/java/org/intellij/sdk/BlackBoxFunctions/PathManager.java:66-67 | A value that does not contain the plugin path gets the separator and the path appended, and nothing else in the configuration changes. |
| `PathManager.UpdateKeepsExistingValue` | src/main/java/org/intellij/sdk/BlackBoxFunctions/PathManager.java:65-67 | The old value stays as a prefix of the new one. |
| `PathManager.FindRoot` | src/main/java/org/intellij/sdk/BlackBoxFunctions/PathManager.java:40-46 | The search loop reports a root equal to the path if and only if one exists. |
| `PathManager.AddRoot` | src/main/java/org/intellij/sdk/BlackBoxFunctions/PathManager.java:40-50 | The path is present afterwards, the old roots stay as a prefix, at most one root is added, and distinct roots stay distinct. |
| `PathManager.AddPluginDirToSdk` | src/main/java/org/intellij/sdk/BlackBoxFunctions/PathManager.java:31-60 | Without an SDK nothing happens, and without a base path it throws. Otherwise an unresolved directory leaves the roots as they were, and a resolved one is added by `AddRoot`: the old roots are kept and stay distinct, and no root but the resolved directory is added. |
| `PathManager.RegisterTwiceSameRoots` | src/main/java/org/intellij/sdk/BlackBoxFunctions/PathManager.java:40-50 | Registering the directory a second time changes nothing. |
| `Controller.LoadFirst` | src/main/java/org/intellij/sdk/BlackBoxFunctions/PyTutorWindowFactory.java:86-93 | The load loop throws exactly when some name extraction throws. |
| `Controller.LoadPrompts` | src/main/java/org/intellij/sdk/BlackBoxFunctions/PyTutorWindowFactory.java:82-93 | The constructor's load throws exactly when the prompt reader throws or some definition's name extraction throws; otherwise its keys are exactly the extracted names. |
| `Controller.LoadKeys` | src/main/java/org/intellij/sdk/BlackBoxFunctions/PyTutorWindowFactory.java:86-93 | The keys are exactly the names of the definitions. |
| `Controller.LoadLastWins` | src/main/java/org/intellij/sdk/BlackBoxFunctions/PyTutorWindowFactory.java:89-92 | A name maps to the prompt at the index of its last definition, or to "" past the prompt list. |
| `Controller.LoadAfterWrite` | src/main/java/org/intellij/sdk/BlackBoxFunctions/PyTutorWindowFactory.java:82-93 | Loading a library of one written record gives the map from its name to its trimmed stored prompt. |
| `Controller.DeleteFunctionCtl` | src/main/java/org/intellij/sdk/BlackBoxFunctions/PyTutorWindowFactory.java:236-256 | With every file fault a caught `IOException`: the delete aborts exactly when the uid lookup throws, and otherwise exactly the name leaves the map and the library delete runs. |
| `Controller.DeleteKeepsOtherEntries` | src/main/java/org/intellij/sdk/BlackBoxFunctions/PyTutorWindowFactory.java:252 | Every other key keeps its presence and its prompt. |
| `Controller.HandleChoice` | src/main/java/org/intellij/sdk/BlackBoxFunctions/PyTutorWindowFactory.java:194-224 | An `InvalidPrompt:` response is `Rejected`; otherwise an empty definition with empty code is `EmptyResponse`; otherwise a throwing name extraction is `Crashed` and a known name `Duplicate`. Every outcome but `Added` leaves the session unchanged. `Added` puts a fresh name, the one extracted from the definition, with its prompt, and the disk is the library write of that response. |
| `Controller.SendPrompt` | src/main/java/org/intellij/sdk/BlackBoxFunctions/PyTutorWindowFactory.java:178-225 | Unless it crashes, a submission clears the edit marker. Without an edit in progress, only `Added` changes the session. An `InvalidPrompt:` response is never added. While editing, a submission that neither crashes nor adds leaves the edited name out of the map and the disk as the delete of it left it; one that adds leaves the edited name out unless it is the name just added. |
| `Controller.SendKeepsExistingPrompts` | src/main/java/org/intellij/sdk/BlackBoxFunctions/PyTutorWindowFactory.java:209-218 | Without an edit in progress, a submission never replaces or removes an existing key's prompt, so names stay unique. |
| `Controller.EditedEntryGoes` | src/main/java/org/intellij/sdk/BlackBoxFunctions/PyTutorWindowFactory.java:181-200 | The edited function is deleted even when the response is then rejected. |
| `Controller.ParsedResponseAdded` | src/main/java/org/intellij/sdk/BlackBoxFunctions/PyTutorWindowFactory.java:209-218 | A parsed response with a fresh well-formed name is added under that name. |
| `Controller.AddedAppendsOneRecord` | src/main/java/org/intellij/sdk/BlackBoxFunctions/PyTutorWindowFactory.java:216-218 | The map gains exactly one key. The library gains exactly one record on top of its old lines, unless the compile step clobbered it, in which case the record is all that is left. When the compile script cannot be extracted, the pooled write aborts and the disk stays as it was. |
| `Controller.EditThenRefused` | src/main/java/org/intellij/sdk/BlackBoxFunctions/PyTutorWindowFactory.java:182-215 | While editing, a rejected, empty or duplicate response leaves exactly the post-delete session with the edit marker cleared. |
| `JavaStrings.SplitSpaces` | src/main/java/org/intellij/sdk/PyTutor/FunctionWriter.java:49 | `split("\\s+")`: with no whitespace the result is the input alone. Otherwise it is the pieces between whitespace runs with the trailing empty ones dropped: a prefix of all the pieces that ends in a non-empty one, every piece after it empty, and no piece containing whitespace. |
| `JavaStrings.TrimStart` | src/main/java/org/intellij/sdk/PyTutor/FunctionWriter.java:82 | The leading half of `trim()`: the result is a suffix of the input. Every character removed is at most ' ', and the result starts with one above ' '. |
| `JavaStrings.TrimEnd` | src/main/java/org/intellij/sdk/PyTutor/FunctionWriter.java:107 | The trailing half of `trim()`: the result is a prefix. Every character removed is at most ' ', and the result ends with one above ' '. |

## Left out

- Swing, the status label, timers and the submitted-text panels are not modelled. This includes the loop in `deleteFunction` that removes a panel whose text contains the name, because it touches only widgets.
- The OpenAI chat request, the API-key loading and the `UUID` generation are left out. The parsed response and the uid are parameters of the controller.
- The prompt logger's HTTP requests, timestamps and local log file are not modelled; only `escapeJson` is.
- The compile subprocess (`compilePyFile`, `extractCompileScript`) is reduced to the `CompileStep` parameter: `NoSdk`, `Compiled(producedPyc)` or `ScriptExtractionFails`. Its effect on the library is modelled; its effect on any other file is not. In particular, a project file `<name>.py` that is not the library is overwritten and then deleted by the compile step, and the model has no such file. The deletion of the temporary `.py` is assumed to succeed. A name that reaches the library's path only through path components or a case-insensitive filesystem is not treated as clobbering.
- The pooled thread, `invokeLater` and `reloadProject` are scheduling and IDE refresh, so they are not modelled. Writes are sequential.
- The real filesystem is abstracted:
  - the temporary file and the `Files.move` of the delete are left out;
  - line terminators are left out, and a '\r' inside a line is kept as a character;
  - faults that Java reports as `IOException` are the `AppendFault` and `DeleteFault` parameters, and `stuck` and `libraryDeleteFails` for the sweep.
- PathManager.JoinPath: models `Paths.get` with the Unix separator only and does not normalise repeated or trailing separators of the base path.
- PathManager.AddPluginDirToSdk: the VFS lookup of the directory is the `resolve` parameter, and the SDK modificator's commit is not modelled.
- The PyTutor variants of `FunctionManager`, `PathManager` and the tool window are left out, as are `logging/app.py` and the build script.
- The BlackBoxFunctions package has its own `FunctionWriter` and `FunctionDeleter`, which its `FunctionManager` constructs. The model takes them to behave as the PyTutor classes of the same name and models only the PyTutor ones.
- The second loop of the tool window's constructor only creates text boxes, so it is not modelled.
- FunctionWriter.HeaderRoundTrip: assumes the definition and the uid hold no line feed or carriage return; with one, `Files.lines` would split the written header into several lines that do not read back. The stored prompt is stripped of both by the writer.
- FunctionWriter.WriteRoundTrip: the same assumption on the definition and the uid as `HeaderRoundTrip`, left implicit because lines carry no terminators in the model.
- Controller.LoadFirst: the uid list the constructor reads is printed, joined with "," and sent to the session logger (`logSession`). It does not affect the map, so it is not part of the load, and the logger's HTTP request is left out with the rest of the logging I/O.
- FunctionWriter.ReadDefinitions: only a failure to open the file is the caught `IOException` that gives the empty list. A read or decoding error while the `Files.lines` stream is consumed is an `UncheckedIOException` that escapes the reader and aborts its caller. The model has no such mid-stream failure; the same holds for `FunctionWriter.ReadPrompts` and `FunctionWriter.ReadUids`.
- FunctionWriter.ReadPrompts: see `FunctionWriter.ReadDefinitions` for the mid-stream read failure that is not modelled.
- FunctionWriter.ReadUids: see `FunctionWriter.ReadDefinitions` for the mid-stream read failure that is not modelled.
- FunctionDeleter.DeleteFunction: a read or decoding error in the middle of the library's lines (the `collect` of the `Files.lines` stream) is an `UncheckedIOException` that the `IOException` handler does not catch. It escapes after the `.pyc` was deleted and leaves the library as it was. The `DeleteFault` parameter covers only the caught faults, so this escape is not modelled.
- FunctionDeleter.DeleteLibraryFiles: the same mid-stream read error escapes the `forEach` of the sweep, so the library delete after it never runs and the caller is aborted. The model has no such failure.
- Controller.DeleteFunctionCtl: when the library delete escapes with that unchecked exception, the window's delete is aborted after the `.pyc` is gone, and the name stays in the map. The model has no such abort, so its contract holds only when every file fault is a caught `IOException`.
- A project without a base directory makes `Objects.requireNonNull(project.getBasePath())` throw a `NullPointerException` in every reader, writer and deleter. The model's `Disk` is the state of an existing project directory, so this case is outside it. Only the `PathManager` operations model a missing base path.
- FunctionWriter.WriteToLibrary: the wrapper append without `CREATE` is modelled as succeeding or failing through `AppendFault`. A library file deleted between the two appends is not modelled.

Where the code behaves differently from what one might assume, the model follows the code:

- Deleting one function removes every header line that contains `# Prompt:`, whatever its name (`FunctionDeleter.DeleteNotNoOp`, `FunctionDeleter.DeleteWipesRecords`).
- Deleting a name that is not in the file is therefore not a no-op.
- Deleting `foo` keeps the wrapper of `foo2` (`FunctionDeleter.OtherWrapperSurvives`) but loses its header (`FunctionDeleter.DeleteLinesLosesOther`).
- The `.pyc` is removed before the library is rewritten, so a failed rewrite still loses the compiled module (`FunctionDeleter.DeleteFunction`).
- A parse missing its `# End` is not an error.
- The definition line is the first line containing the substring `def`, not one starting with it.

The controller uses the delete and the write as written.

## Findings

| source | as written | input that shows it | evidently intended | confidence | as-written member | corrected member |
|---|---|---|---|---|---|---|
| src/main/java/org/intellij/sdk/PyTutor/FunctionDeleter.java:29 | `.filter(line -> !line.contains("# Prompt:"))` drops the header of every record | a library holding the records of `n` and `m`, then deleting `n`: no definition, prompt or uid of `m` reads back | drop only the header whose derived name is `n`, so the other records still read back | not executed | `FunctionDeleter.DeleteLinesLosesOther` | `FunctionDeleter.DeleteRecordIsolates` |
| src/main/java/org/intellij/sdk/PyTutor/FunctionWriter.java:127 | `compilePyFile` writes the code to `<name>.py` in the project directory and deletes that file in its `finally` block | a library holding records, an SDK present, then writing `def generated_functions(x):`: the compile step overwrites and deletes the library, so only the new record remains | a temporary `.py` outside the project directory, so that the library and every other project file survive the compile step | not executed | `FunctionWriter.WriteClobbersLibrary` | `FunctionWriter.IntendedWriteKeepsRecords` |

=== FILE: base.dfy ===
/** Failure-carrying values shared by every module of the model. */
module Base {

  /** A value that may be absent: a missing file, an empty Java reference,
      or a computation that ended in a runtime exception. */
  datatype Option<T> = None | Some(value: T)

  /** Either a value or the message of the exception the Java code throws. */
  datatype Result<T> = Ok(value: T) | Thrown(message: string)
}

=== FILE: controller.dfy ===
/** The decision logic of the `BlackBoxFunctions` tool window: the map from
    function name to prompt that guards name uniqueness, loading it from
    the library, submitting a prompt and deleting a function. The Swing
    widgets, status texts and logging calls are not part of the state. */
module Controller {
  import opened Base
  import opened JavaStrings
  import opened Library
  import opened FunctionWriter
  import opened FunctionDeleter
  import opened FunctionManager
  import opened ResponseParser

  /** The project directory, `functionPrompts` and `currentlyEditingFunctionName`. */
  datatype Session = Session(disk: Disk, prompts: map<string, string>, editing: Option<string>)

  /** The prompt recorded for the i-th definition, "" past the prompt list. */
  function PromptAt(prompts: seq<string>, i: nat): string {
    if i < |prompts| then prompts[i] else ""
  }

  /** The first loop of the constructor over the first `count` definitions:
      each name is put with the prompt at the same index, a later duplicate
      overwriting an earlier one. `None` when a name extraction throws. */
  function LoadFirst(names: seq<Option<string>>, prompts: seq<string>, count: nat): (r: Option<map<string, string>>)
    requires count <= |names|
    ensures r.None? <==> exists i :: 0 <= i < count && names[i].None?
    decreases count
  {
    if count == 0 then Some(map[])
    else
      match LoadFirst(names, prompts, count - 1)
      case None => None
      case Some(m) =>
        match names[count - 1]
        case None => None
        case Some(n) => Some(m[n := PromptAt(prompts, count - 1)])
  }

  /** The map the constructor builds from the library. `None` is an
      exception: the prompt reader failing on a malformed header, or
      `returnFunctionName` throwing. */
  function LoadPrompts(disk: Disk): (r: Option<map<string, string>>)
    ensures r.None? <==> ReadPrompts(disk).None? ||
                         exists i :: 0 <= i < |ReadDefinitions(disk)| && NamesOf(ReadDefinitions(disk))[i].None?
    ensures r.Some? ==> forall n :: n in r.value <==>
                          exists i :: 0 <= i < |ReadDefinitions(disk)| && NamesOf(ReadDefinitions(disk))[i] == Some(n)
  {
    match ReadPrompts(disk)
    case None => None
    case Some(prompts) =>
      var names := NamesOf(ReadDefinitions(disk));
      var r := LoadFirst(names, prompts, |names|);
      if r.Some? then LoadKeys(names, prompts, |names|); r else r
  }

  /** The keys are exactly the names of the definitions. */
  lemma {:induction false} LoadKeys(names: seq<Option<string>>, prompts: seq<string>, count: nat)
    requires count <= |names| && LoadFirst(names, prompts, count).Some?
    ensures forall n :: n in LoadFirst(names, prompts, count).value <==> exists i :: 0 <= i < count && names[i] == Some(n)
    decreases count
  {
    if count > 0 {
      LoadKeys(names, prompts, count - 1);
    }
  }

  /** The last definition with a name decides its prompt. */
  lemma {:induction false} LoadLastWins(names: seq<Option<string>>, prompts: seq<string>, count: nat, i: nat)
    requires i < count <= |names| && LoadFirst(names, prompts, count).Some?
    requires names[i].Some?
    requires forall j :: i < j < count ==> names[j] != names[i]
    ensures names[i].value in LoadFirst(names, prompts, count).value
    ensures LoadFirst(names, prompts, count).value[names[i].value] == PromptAt(prompts, i)
    decreases count
  {
    if i < count - 1 {
      LoadLastWins(names, prompts, count - 1, i);
    }
  }

  /** Loading the library right after writing one record restores its
      name with the prompt as stored. */
  lemma LoadAfterWrite(name: string, args: string, sp: string, uid: string)
    requires WellFormedRecord(name, args, sp)
    ensures var disk := Disk(Some(Record(DefinitionText(name, args), sp, uid, name)), {});
            LoadPrompts(disk) == Some(map[name := Trim(sp)])
  {
    var lines := Record(DefinitionText(name, args), sp, uid, name);
    var def := DefinitionText(name, args);
    WellFormedDefinition(name, args);
    var added := RecordRead(def, sp, uid, name, true);
    assert def + " " == "def " + name + "(" + (args + " ");
    ExtractWellFormed(name, args + " ");
    var names := NamesOf(DefinitionsOf(lines));
    assert names == [Some(name)];
    assert LoadFirst(names, [Trim(sp)], 0) == Some(map[]);
  }

  /** `deleteFunction(functionName)` of the window: the uid lookup (which
      may throw and abort everything), the library delete, then the map
      entry is removed. */
  function DeleteFunctionCtl(s: Session, name: string, fault: DeleteFault): (r: Option<Session>)
    ensures r.Some? ==> r.value.prompts == s.prompts - {name} && r.value.editing == s.editing
    ensures r.Some? ==> r.value.disk == DeleteFunction(s.disk, name, fault)
    ensures r.None? <==> GetFunctionUid(ReadDefinitions(s.disk), ReadUids(s.disk), name).None?
  {
    match GetFunctionUid(ReadDefinitions(s.disk), ReadUids(s.disk), name)
    case None => None
    case Some(_) => Some(Session(DeleteFunction(s.disk, name, fault), s.prompts - {name}, s.editing))
  }

  /** Deleting a name leaves every other entry of the map as it was. */
  lemma DeleteKeepsOtherEntries(s: Session, name: string, fault: DeleteFault, other: string)
    requires DeleteFunctionCtl(s, name, fault).Some? && other != name
    ensures var p := DeleteFunctionCtl(s, name, fault).value.prompts;
            (other in p <==> other in s.prompts) && (other in p ==> p[other] == s.prompts[other])
  {
  }

  /** How a submission ends. */
  datatype Outcome =
    | Rejected        // the response starts with `InvalidPrompt:`
    | EmptyResponse   // both the definition and the code are empty
    | Duplicate       // the name is already a key of the map
    | Added           // a record was written and the map gained the name
    | Crashed         // an exception escaped the handler

  /** What the submission does once the response is in. */
  function HandleChoice(s: Session, prompt: string, choice: ProcessedChoice,
                        compile: CompileStep, fault: AppendFault): (r: (Session, Outcome))
    ensures r.1 != Added ==> r.0 == s
    ensures r.1 == Added ==> exists n :: n !in s.prompts && r.0.prompts == s.prompts[n := prompt] &&
                                         Some(n) == ExtractFunctionName(choice.def)
    ensures r.0.editing == s.editing
    ensures StartsWith(choice.raw, InvalidPromptPrefix) ==> r == (s, Rejected)
    ensures !StartsWith(choice.raw, InvalidPromptPrefix) && choice.def == "" && choice.code == "" ==> r == (s, EmptyResponse)
    ensures r.1 == Added ==> r.0.disk == WriteToLibrary(s.disk, choice.def, prompt, choice.uid, compile, fault)
    ensures r.1 == Duplicate <==> !StartsWith(choice.raw, InvalidPromptPrefix) && (choice.def != "" || choice.code != "") &&
                                  ExtractFunctionName(choice.def).Some? && ExtractFunctionName(choice.def).value in s.prompts
    ensures r.1 == Crashed <==> !StartsWith(choice.raw, InvalidPromptPrefix) && (choice.def != "" || choice.code != "") &&
                                ExtractFunctionName(choice.def).None?
  {
    if StartsWith(choice.raw, InvalidPromptPrefix) then (s, Rejected)
    else if choice.def == "" && choice.code == "" then (s, EmptyResponse)
    else
      match ExtractFunctionName(choice.def)
      case None => (s, Crashed)
      case Some(name) =>
        if name in s.prompts then (s, Duplicate)
        else
          var disk := WriteToLibrary(s.disk, choice.def, prompt, choice.uid, compile, fault);
          (Session(disk, s.prompts[name := prompt], s.editing), Added)
  }

  /** `sendPromptToOpenAI(prompt)`: a function being edited is deleted and
      the edit marker cleared first, whatever the response; the response
      itself is a parameter. */
  function SendPrompt(s: Session, prompt: string, choice: ProcessedChoice, deleteFault: DeleteFault,
                      compile: CompileStep, fault: AppendFault): (r: (Session, Outcome))
    ensures r.1 != Crashed ==> r.0.editing.None?
    ensures s.editing.None? && r.1 != Added ==> r.0 == s
    ensures s.editing.Some? && r.1 !in {Crashed, Added} ==> s.editing.value !in r.0.prompts
    ensures s.editing.Some? && r.1 == Added ==> s.editing.value !in r.0.prompts || Some(s.editing.value) == ExtractFunctionName(choice.def)
    ensures StartsWith(choice.raw, InvalidPromptPrefix) ==> r.1 in {Rejected, Crashed}
    ensures s.editing.Some? && r.1 !in {Crashed, Added} ==> r.0.disk == DeleteFunction(s.disk, s.editing.value, deleteFault)
  {
    match s.editing
    case None => HandleChoice(s, prompt, choice, compile, fault)
    case Some(e) =>
      match DeleteFunctionCtl(s, e, deleteFault)
      case None => (s, Crashed)
      case Some(t) => HandleChoice(t.(editing := None), prompt, choice, compile, fault)
  }

  /** The keys of the map name distinct functions, and a submission never
      replaces the prompt of an existing key: every key that survives keeps
      its prompt. */
  lemma SendKeepsExistingPrompts(s: Session, prompt: string, choice: ProcessedChoice, deleteFault: DeleteFault,
                                 compile: CompileStep, fault: AppendFault, key: string)
    requires s.editing.None? && key in s.prompts
    ensures var r := SendPrompt(s, prompt, choice, deleteFault, compile, fault);
            key in r.0.prompts && r.0.prompts[key] == s.prompts[key]
  {
  }

  /** Submitting while editing `e` removes `e` from the map even when the
      response is then rejected. */
  lemma EditedEntryGoes(s: Session, prompt: string, choice: ProcessedChoice, deleteFault: DeleteFault,
                        compile: CompileStep, fault: AppendFault)
    requires s.editing.Some? && StartsWith(choice.raw, InvalidPromptPrefix)
    requires DeleteFunctionCtl(s, s.editing.value, deleteFault).Some?
    ensures var r := SendPrompt(s, prompt, choice, deleteFault, compile, fault);
            r.1 == Rejected && s.editing.value !in r.0.prompts && r.0.editing.None?
  {
  }

  /** A response the parser accepted with a fresh, well-formed name is
      written and recorded under that name. */
  lemma ParsedResponseAdded(s: Session, prompt: string, rawResponse: string, uid: string,
                            compile: CompileStep, fault: AppendFault, name: string, args: string)
    requires s.editing.None? && !StartsWith(rawResponse, InvalidPromptPrefix)
    requires ProcessResponse(rawResponse, uid).def == "def " + name + "(" + args
    requires name != "" && NoSpace(name) && '(' !in name && name !in s.prompts
    ensures var r := SendPrompt(s, prompt, ProcessResponse(rawResponse, uid), NoDeleteFault, compile, fault);
            r.1 == Added && r.0.prompts == s.prompts[name := prompt]
  {
    ExtractWellFormed(name, args);
  }

  /** An added function appends exactly one record, header then wrapper, to
      the library as it was, and the map gains exactly one key. The library
      as it was is lost when the function is named after the library module
      and an SDK is present; and when the compile script cannot be
      extracted the pooled write aborts, so the map gains the key while the
      disk stays as it was. */
  lemma AddedAppendsOneRecord(s: Session, prompt: string, choice: ProcessedChoice,
                              compile: CompileStep, fault: AppendFault)
    requires s.editing.None? && fault.NoAppendFault?
    requires SendPrompt(s, prompt, choice, NoDeleteFault, compile, fault).1 == Added
    ensures var r := SendPrompt(s, prompt, choice, NoDeleteFault, compile, fault).0;
            |r.prompts.Keys| == |s.prompts.Keys| + 1
    ensures var r := SendPrompt(s, prompt, choice, NoDeleteFault, compile, fault).0;
            compile.ScriptExtractionFails? ==> r.disk == s.disk
    ensures var r := SendPrompt(s, prompt, choice, NoDeleteFault, compile, fault).0;
            var name := ExtractFunctionName(choice.def).value;
            !compile.ScriptExtractionFails? && !Clobbers(choice.def, compile) ==>
              Lines(r.disk) == Lines(s.disk) + Record(choice.def, StripPrompt(prompt), choice.uid, name)
    ensures var r := SendPrompt(s, prompt, choice, NoDeleteFault, compile, fault).0;
            var name := ExtractFunctionName(choice.def).value;
            Clobbers(choice.def, compile) ==>
              Lines(r.disk) == Record(choice.def, StripPrompt(prompt), choice.uid, name)
  {
    var r := HandleChoice(s, prompt, choice, compile, fault).0;
    var name := ExtractFunctionName(choice.def).value;
    assert r.disk == WriteToLibrary(s.disk, choice.def, prompt, choice.uid, compile, fault);
    if !compile.ScriptExtractionFails? {
      AppendedLines(s.disk, choice.def, prompt, choice.uid, compile, fault);
    }
    assert r.prompts == s.prompts[name := prompt];
    NewKeyCount(s.prompts, name, prompt);
  }

  /** Putting a fresh key grows the key set by one. */
  lemma NewKeyCount(m: map<string, string>, k: string, v: string)
    requires k !in m
    ensures |m[k := v].Keys| == |m.Keys| + 1
  {
    assert m[k := v].Keys == m.Keys + {k};
  }

  /** While editing, a rejected, empty or duplicate response leaves the
      session exactly as the edit-delete made it, with the marker cleared. */
  lemma EditThenRefused(s: Session, prompt: string, choice: ProcessedChoice, deleteFault: DeleteFault,
                        compile: CompileStep, fault: AppendFault)
    requires s.editing.Some? && DeleteFunctionCtl(s, s.editing.value, deleteFault).Some?
    requires SendPrompt(s, prompt, choice, deleteFault, compile, fault).1 in {Rejected, EmptyResponse, Duplicate}
    ensures SendPrompt(s, prompt, choice, deleteFault, compile, fault).0 ==
            DeleteFunctionCtl(s, s.editing.value, deleteFault).value.(editing := None)
  {
  }
}

=== FILE: function_deleter.dfy ===
/** `PyTutor.FunctionDeleter`: removing one function's record from the
    generated functions library as a line filter followed by a collapse of
    blank runs, and removing every compiled module plus the library. */
module FunctionDeleter {
  import opened Base
  import opened JavaStrings
  import opened Library
  import opened FunctionWriter

  // ---------------------------------------------------------------------
  // The line filter
  // ---------------------------------------------------------------------

  function DefPattern(n: string): string {
    "def " + n + "("
  }

  function ImportPattern(n: string): string {
    "from " + n + " import " + n
  }

  function ReturnPattern(n: string): string {
    "return " + n + "(*args, **kwargs)"
  }

  /** A line passes the four filters of `deleteFunction(project, n)`. */
  predicate Survives(line: string, n: string) {
    && !Contains(line, PromptMarker)
    && !Contains(line, DefPattern(n))
    && !Contains(line, ImportPattern(n))
    && !Contains(line, ReturnPattern(n))
  }

  /** The filtered lines, in their original order. */
  function FilterLines(lines: seq<string>, n: string): (r: seq<string>)
    ensures |r| <= |lines|
    ensures forall k :: 0 <= k < |r| ==> Survives(r[k], n)
    decreases |lines|
  {
    if lines == [] then []
    else if Survives(lines[0], n) then [lines[0]] + FilterLines(lines[1..], n)
    else FilterLines(lines[1..], n)
  }

  /** The filter works line by line: it distributes over concatenation. */
  lemma {:induction false} FilterConcat(a: seq<string>, b: seq<string>, n: string)
    ensures FilterLines(a + b, n) == FilterLines(a, n) + FilterLines(b, n)
    decreases |a|
  {
    if a == [] {
      assert a + b == b;
    } else {
      assert (a + b)[0] == a[0];
      assert (a + b)[1..] == a[1..] + b;
      FilterConcat(a[1..], b, n);
    }
  }

  /** A line is kept exactly when it survives the four filters. */
  lemma FilterSingle(line: string, n: string)
    ensures FilterLines([line], n) == if Survives(line, n) then [line] else []
  {
    assert [line][1..] == [];
  }

  /** Lines that all survive pass the filter unchanged. */
  lemma {:induction false} FilterKeepsSurvivors(lines: seq<string>, n: string)
    requires forall k :: 0 <= k < |lines| ==> Survives(lines[k], n)
    ensures FilterLines(lines, n) == lines
    decreases |lines|
  {
    if lines != [] {
      FilterKeepsSurvivors(lines[1..], n);
      assert lines == [lines[0]] + lines[1..];
    }
  }

  // ---------------------------------------------------------------------
  // Collapsing blank runs
  // ---------------------------------------------------------------------

  /** `line.trim().isEmpty()`. */
  predicate IsBlank(line: string) {
    Trim(line) == ""
  }

  /** No two neighbouring lines are both blank. */
  predicate NoBlankRun(lines: seq<string>) {
    forall k :: 0 <= k < |lines| - 1 ==> !(IsBlank(lines[k]) && IsBlank(lines[k + 1]))
  }

  /** The cleaning loop of `deleteFunction` as a function of the remaining
      lines and the `isPreviousLineEmpty` flag: the first blank line of a
      run is kept, the others are dropped. */
  function CollapseBlanks(lines: seq<string>, previousEmpty: bool): (r: seq<string>)
    ensures |r| <= |lines|
    ensures NoBlankRun(r)
    ensures previousEmpty && |r| > 0 ==> !IsBlank(r[0])
    decreases |lines|
  {
    if lines == [] then []
    else if IsBlank(lines[0]) then
      if previousEmpty then CollapseBlanks(lines[1..], true)
      else
        var rest := CollapseBlanks(lines[1..], true);
        ConsNoBlankRun(lines[0], rest);
        [lines[0]] + rest
    else
      var rest := CollapseBlanks(lines[1..], false);
      ConsNoBlankRun(lines[0], rest);
      [lines[0]] + rest
  }

  /** A line in front of a run-free list keeps it run-free unless both it
      and the list's first line are blank. */
  lemma ConsNoBlankRun(line: string, rest: seq<string>)
    requires NoBlankRun(rest) && (IsBlank(line) && |rest| > 0 ==> !IsBlank(rest[0]))
    ensures NoBlankRun([line] + rest)
  {
    var r := [line] + rest;
    forall k | 0 <= k < |r| - 1 ensures !(IsBlank(r[k]) && IsBlank(r[k + 1])) {
      if k > 0 {
        assert r[k] == rest[k - 1] && r[k + 1] == rest[k];
      }
    }
  }

  /** The lines that are not blank, in order. */
  function NonBlank(lines: seq<string>): seq<string>
    decreases |lines|
  {
    if lines == [] then []
    else if IsBlank(lines[0]) then NonBlank(lines[1..])
    else [lines[0]] + NonBlank(lines[1..])
  }

  /** Collapsing drops blank lines only: every other line stays, in order. */
  lemma {:induction false} CollapseKeepsText(lines: seq<string>, previousEmpty: bool)
    ensures NonBlank(CollapseBlanks(lines, previousEmpty)) == NonBlank(lines)
    decreases |lines|
  {
    if lines != [] {
      var rest := lines[1..];
      CollapseKeepsText(rest, IsBlank(lines[0]));
      var r := CollapseBlanks(rest, IsBlank(lines[0]));
      assert ([lines[0]] + r)[1..] == r;
    }
  }

  /** Collapsing keeps any property every line has. */
  lemma {:induction false} CollapseKeeps(lines: seq<string>, previousEmpty: bool, p: string -> bool)
    requires forall k :: 0 <= k < |lines| ==> p(lines[k])
    ensures forall k :: 0 <= k < |CollapseBlanks(lines, previousEmpty)| ==> p(CollapseBlanks(lines, previousEmpty)[k])
    decreases |lines|
  {
    if lines != [] {
      CollapseKeeps(lines[1..], IsBlank(lines[0]), p);
    }
  }

  /** Already collapsed lines are left as they are. */
  lemma {:induction false} CollapseFixed(lines: seq<string>, previousEmpty: bool)
    requires NoBlankRun(lines)
    requires previousEmpty && |lines| > 0 ==> !IsBlank(lines[0])
    ensures CollapseBlanks(lines, previousEmpty) == lines
    decreases |lines|
  {
    if lines != [] {
      var rest := lines[1..];
      assert NoBlankRun(rest) by {
        forall k | 0 <= k < |rest| - 1 ensures !(IsBlank(rest[k]) && IsBlank(rest[k + 1])) {
          assert rest[k] == lines[k + 1] && rest[k + 1] == lines[k + 2];
        }
      }
      if |rest| > 0 {
        assert rest[0] == lines[1];
      }
      CollapseFixed(rest, IsBlank(lines[0]));
      assert lines == [lines[0]] + rest;
    }
  }

  /** One step of the cleaning loop: what line `i` contributes and the flag it leaves. */
  lemma CollapseStep(lines: seq<string>, i: nat, previousEmpty: bool)
    requires i < |lines|
    ensures CollapseBlanks(lines[i..], previousEmpty) ==
            (if IsBlank(lines[i]) && previousEmpty then [] else [lines[i]]) + CollapseBlanks(lines[i + 1..], IsBlank(lines[i]))
  {
    assert lines[i..][1..] == lines[i + 1..];
    assert lines[i..][0] == lines[i];
  }

  /** The `for` loop itself, with the flag it keeps. */
  method CleanLines(filtered: seq<string>) returns (cleaned: seq<string>)
    ensures cleaned == CollapseBlanks(filtered, false)
    ensures NoBlankRun(cleaned)
  {
    cleaned := [];
    var isPreviousLineEmpty := false;
    var i := 0;
    assert filtered[0..] == filtered;
    while i < |filtered|
      invariant 0 <= i <= |filtered|
      invariant cleaned + CollapseBlanks(filtered[i..], isPreviousLineEmpty) == CollapseBlanks(filtered, false)
    {
      var line := filtered[i];
      CollapseStep(filtered, i, isPreviousLineEmpty);
      var tail := CollapseBlanks(filtered[i + 1..], IsBlank(line));
      if IsBlank(line) {
        if !isPreviousLineEmpty {
          assert cleaned + ([line] + tail) == (cleaned + [line]) + tail;
          cleaned := cleaned + [line];
          isPreviousLineEmpty := true;
        } else {
          assert [] + tail == tail;
        }
      } else {
        assert cleaned + ([line] + tail) == (cleaned + [line]) + tail;
        cleaned := cleaned + [line];
        isPreviousLineEmpty := false;
      }
      i := i + 1;
    }
    assert filtered[i..] == [];
    assert cleaned + [] == cleaned;
  }

  /** The pure part of `deleteFunction(project, n)`: filter, then collapse. */
  function DeleteLines(lines: seq<string>, n: string): (r: seq<string>)
    ensures |r| <= |lines|
    ensures forall k :: 0 <= k < |r| ==> Survives(r[k], n)
    ensures NoBlankRun(r)
  {
    var filtered := FilterLines(lines, n);
    CollapseKeeps(filtered, false, line => Survives(line, n));
    CollapseBlanks(filtered, false)
  }

  // ---------------------------------------------------------------------
  // Another function's wrapper survives
  // ---------------------------------------------------------------------

  /** Where spaces and '(' sit in the first wrapper line of a name without either. */
  lemma DefLineLayout(m: string)
    requires ' ' !in m && '(' !in m
    ensures var l := WrapperLines(m)[0];
            && |l| == |m| + 22 && l[0] == 'd' && l[4..4 + |m|] == m
            && (forall q :: 0 <= q < |l| && l[q] == ' ' ==> q == 3 || q == |m| + 11)
            && (forall q :: 0 <= q < |l| && l[q] == '(' ==> q == |m| + 4)
  {
    var l := WrapperLines(m)[0];
    assert l == "def" + " " + m + "(" + "*args," + " " + "**kwargs):";
    DefLineSpaces(m, l);
    DefLineParen(m, l);
  }

  lemma DefLineSpaces(m: string, l: string)
    requires ' ' !in m && l == "def" + " " + m + "(" + "*args," + " " + "**kwargs):"
    ensures forall q :: 0 <= q < |l| && l[q] == ' ' ==> q == 3 || q == |m| + 11
  {
    forall q | 0 <= q < |l| ensures l[q] == ' ' ==> q == 3 || q == |m| + 11 {
      if q < 3 {
        assert l[q] == "def"[q];
      } else if 4 <= q < 4 + |m| {
        assert l[q] == m[q - 4];
      } else if 5 + |m| <= q < 11 + |m| {
        assert l[q] == "*args,"[q - 5 - |m|];
      } else if 12 + |m| <= q {
        assert l[q] == "**kwargs):"[q - 12 - |m|];
      }
    }
  }

  lemma DefLineParen(m: string, l: string)
    requires '(' !in m && l == "def" + " " + m + "(" + "*args," + " " + "**kwargs):"
    ensures forall q :: 0 <= q < |l| && l[q] == '(' ==> q == |m| + 4
  {
    forall q | 0 <= q < |l| ensures l[q] == '(' ==> q == |m| + 4 {
      if q < 3 {
        assert l[q] == "def"[q];
      } else if 4 <= q < 4 + |m| {
        assert l[q] == m[q - 4];
      } else if 5 + |m| <= q < 11 + |m| {
        assert l[q] == "*args,"[q - 5 - |m|];
      } else if 12 + |m| <= q {
        assert l[q] == "**kwargs):"[q - 12 - |m|];
      }
    }
  }

  /** Where spaces sit in the second wrapper line of a name without them; it has no '('. */
  lemma ImportLineLayout(m: string)
    requires ' ' !in m && '(' !in m
    ensures var l := WrapperLines(m)[1];
            && |l| == 2 * |m| + 17 && l[9..9 + |m|] == m && '(' !in l
            && (forall q :: 4 <= q < |l| && l[q] == ' ' ==> q == 8 || q == |m| + 9 || q == |m| + 16)
  {
    var l := WrapperLines(m)[1];
    assert l == "    " + "from" + " " + m + " " + "import" + " " + m;
    forall q | 4 <= q < |l| ensures l[q] == ' ' ==> q == 8 || q == |m| + 9 || q == |m| + 16 {
      if q < 8 {
        assert l[q] == "from"[q - 4];
      } else if 9 <= q < 9 + |m| {
        assert l[q] == m[q - 9];
      } else if 10 + |m| <= q < 16 + |m| {
        assert l[q] == "import"[q - 10 - |m|];
      } else if 17 + |m| <= q {
        assert l[q] == m[q - 17 - |m|];
      }
    }
  }

  /** Where spaces and '(' sit in the third wrapper line of a name without either. */
  lemma ReturnLineLayout(m: string)
    requires ' ' !in m && '(' !in m
    ensures var l := WrapperLines(m)[2];
            && |l| == |m| + 28 && l[11..11 + |m|] == m
            && (forall q :: 0 <= q < 4 ==> l[q] == ' ') && l[7] == 'u'
            && (forall q :: 4 <= q < |l| && l[q] == ' ' ==> q == 10 || q == |m| + 18)
            && (forall q :: 0 <= q < |l| && l[q] == '(' ==> q == |m| + 11)
  {
    var l := WrapperLines(m)[2];
    assert l == "    " + "return" + " " + m + "(" + "*args," + " " + "**kwargs)";
    ReturnLineSpaces(m, l);
    ReturnLineParen(m, l);
  }

  lemma ReturnLineSpaces(m: string, l: string)
    requires ' ' !in m && l == "    " + "return" + " " + m + "(" + "*args," + " " + "**kwargs)"
    ensures forall q :: 4 <= q < |l| && l[q] == ' ' ==> q == 10 || q == |m| + 18
  {
    forall q | 4 <= q < |l| ensures l[q] == ' ' ==> q == 10 || q == |m| + 18 {
      if 4 <= q < 10 {
        assert l[q] == "return"[q - 4];
      } else if 11 <= q < 11 + |m| {
        assert l[q] == m[q - 11];
      } else if 12 + |m| <= q < 18 + |m| {
        assert l[q] == "*args,"[q - 12 - |m|];
      } else if 19 + |m| <= q {
        assert l[q] == "**kwargs)"[q - 19 - |m|];
      }
    }
  }

  lemma ReturnLineParen(m: string, l: string)
    requires '(' !in m && l == "    " + "return" + " " + m + "(" + "*args," + " " + "**kwargs)"
    ensures forall q :: 0 <= q < |l| && l[q] == '(' ==> q == |m| + 11
  {
    forall q | 0 <= q < |l| ensures l[q] == '(' ==> q == |m| + 11 {
      if q < 4 {
        assert l[q] == "    "[q];
      } else if 4 <= q < 10 {
        assert l[q] == "return"[q - 4];
      } else if 11 <= q < 11 + |m| {
        assert l[q] == m[q - 11];
      } else if 12 + |m| <= q < 18 + |m| {
        assert l[q] == "*args,"[q - 12 - |m|];
      } else if 19 + |m| <= q {
        assert l[q] == "**kwargs)"[q - 19 - |m|];
      }
    }
  }

  lemma DefLineHasNoDef(m: string, n: string)
    requires ' ' !in m && '(' !in m && m != n
    ensures !Contains(WrapperLines(m)[0], DefPattern(n))
  {
    DefLineLayout(m);
    var l := WrapperLines(m)[0];
    var p := DefPattern(n);
    assert p[3] == ' ' && p[4 + |n|] == '(' && p[4..4 + |n|] == n;
    forall j ensures !OccursAt(l, p, j) {
      if 0 <= j && j + |p| <= |l| {
        var w := l[j..j + |p|];
        if j + 4 + |n| != |m| + 4 {
          assert w[4 + |n|] == l[j + 4 + |n|];
        } else if j != 0 {
          assert w[3] == l[j + 3];
        } else {
          assert w[4..4 + |n|] == m;
        }
      }
    }
    ContainsIff(l, p);
  }

  lemma DefLineHasNoImport(m: string, n: string)
    requires ' ' !in m && '(' !in m
    ensures !Contains(WrapperLines(m)[0], ImportPattern(n))
  {
    DefLineLayout(m);
    var l := WrapperLines(m)[0];
    var p := ImportPattern(n);
    assert p[4] == ' ' && p[5 + |n|] == ' ';
    forall j ensures !OccursAt(l, p, j) {
      if 0 <= j && j + |p| <= |l| {
        var w := l[j..j + |p|];
        if j + 4 != |m| + 11 {
          assert w[4] == l[j + 4];
        } else {
          assert w[5 + |n|] == l[j + 5 + |n|];
        }
      }
    }
    ContainsIff(l, p);
  }

  lemma DefLineHasNoReturn(m: string, n: string)
    requires ' ' !in m && '(' !in m
    ensures !Contains(WrapperLines(m)[0], ReturnPattern(n))
  {
    DefLineLayout(m);
    var l := WrapperLines(m)[0];
    var p := ReturnPattern(n);
    assert p[6] == ' ';
    forall j ensures !OccursAt(l, p, j) {
      if 0 <= j && j + |p| <= |l| {
        var w := l[j..j + |p|];
        assert w[6] == l[j + 6];
      }
    }
    ContainsIff(l, p);
  }

  lemma ImportLineHasNoPattern(m: string, n: string)
    requires ' ' !in m && '(' !in m && m != n
    ensures var l := WrapperLines(m)[1];
            !Contains(l, DefPattern(n)) && !Contains(l, ImportPattern(n)) && !Contains(l, ReturnPattern(n))
  {
    ImportLineHasNoCall(m, n);
    ImportLineHasNoImport(m, n);
  }

  /** The import line has no '(', so neither call pattern fits in it. */
  lemma ImportLineHasNoCall(m: string, n: string)
    requires ' ' !in m && '(' !in m
    ensures var l := WrapperLines(m)[1];
            !Contains(l, DefPattern(n)) && !Contains(l, ReturnPattern(n))
  {
    ImportLineLayout(m);
    var l := WrapperLines(m)[1];
    assert DefPattern(n)[4 + |n|] == '(';
    MissingCharNoContains(l, DefPattern(n), 4 + |n|);
    assert ReturnPattern(n)[7 + |n|] == '(';
    MissingCharNoContains(l, ReturnPattern(n), 7 + |n|);
  }

  lemma ImportLineHasNoImport(m: string, n: string)
    requires ' ' !in m && '(' !in m && m != n
    ensures !Contains(WrapperLines(m)[1], ImportPattern(n))
  {
    ImportLineLayout(m);
    var l := WrapperLines(m)[1];
    var p := ImportPattern(n);
    assert p[4] == ' ' && p[5 + |n|] == ' ' && p[12 + |n|] == ' ' && p[5..5 + |n|] == n;
    forall j ensures !OccursAt(l, p, j) {
      if 0 <= j && j + |p| <= |l| {
        var w := l[j..j + |p|];
        if j + 4 != 8 && j + 4 != |m| + 9 && j + 4 != |m| + 16 {
          assert w[4] == l[j + 4];
        } else if j + 4 == |m| + 16 {
          assert w[5 + |n|] == l[j + 5 + |n|];
        } else if j + 4 == |m| + 9 {
          assert w[12 + |n|] == l[j + 12 + |n|];
        } else if |n| != |m| {
          assert w[5 + |n|] == l[j + 5 + |n|];
        } else {
          assert w[5..5 + |n|] == m;
        }
      }
    }
    ContainsIff(l, p);
  }

  lemma ReturnLineHasNoDef(m: string, n: string)
    requires ' ' !in m && '(' !in m
    ensures !Contains(WrapperLines(m)[2], DefPattern(n))
  {
    ReturnLineLayout(m);
    var l := WrapperLines(m)[2];
    var p := DefPattern(n);
    assert p[3] == ' ' && p[4 + |n|] == '(' && p[0] == 'd';
    forall j ensures !OccursAt(l, p, j) {
      if 0 <= j && j + |p| <= |l| {
        var w := l[j..j + |p|];
        if j + 4 + |n| != |m| + 11 {
          assert w[4 + |n|] == l[j + 4 + |n|];
        } else if l[j + 3] != ' ' {
          assert w[3] == l[j + 3];
        } else {
          assert w[0] == l[j];
        }
      }
    }
    ContainsIff(l, p);
  }

  lemma ReturnLineHasNoImport(m: string, n: string)
    requires ' ' !in m && '(' !in m
    ensures !Contains(WrapperLines(m)[2], ImportPattern(n))
  {
    ReturnLineLayout(m);
    var l := WrapperLines(m)[2];
    var p := ImportPattern(n);
    assert p[4] == ' ' && p[5 + |n|] == ' ';
    forall j ensures !OccursAt(l, p, j) {
      if 0 <= j && j + |p| <= |l| {
        var w := l[j..j + |p|];
        if j + 4 != 10 && j + 4 != |m| + 18 {
          assert w[4] == l[j + 4];
        } else {
          assert w[5 + |n|] == l[j + 5 + |n|];
        }
      }
    }
    ContainsIff(l, p);
  }

  lemma ReturnLineHasNoReturn(m: string, n: string)
    requires ' ' !in m && '(' !in m && m != n
    ensures !Contains(WrapperLines(m)[2], ReturnPattern(n))
  {
    ReturnLineLayout(m);
    var l := WrapperLines(m)[2];
    var p := ReturnPattern(n);
    assert p[0] == 'r' && p[6] == ' ' && p[7 + |n|] == '(' && p[7..7 + |n|] == n;
    forall j ensures !OccursAt(l, p, j) {
      if 0 <= j && j + |p| <= |l| {
        var w := l[j..j + |p|];
        if j + 7 + |n| != |m| + 11 {
          assert w[7 + |n|] == l[j + 7 + |n|];
        } else if j < 4 {
          assert w[0] == l[j];
        } else if j > 4 {
          assert w[6] == l[j + 6];
        } else {
          assert w[7..7 + |n|] == m;
        }
      }
    }
    ContainsIff(l, p);
  }

  /** Deleting `n` keeps every wrapper line of a different function `m`:
      the patterns are anchored by the spaces and the '(' around the name,
      so `foo` never matches the wrapper of `foo2`. */
  lemma OtherWrapperSurvives(m: string, n: string)
    requires NoSpace(m) && '(' !in m && '#' !in m && m != n
    ensures forall k :: 0 <= k < 4 ==> Survives(WrapperLines(m)[k], n)
    ensures FilterLines(WrapperLines(m), n) == WrapperLines(m)
  {
    assert ' ' !in m by {
      assert forall q :: 0 <= q < |m| ==> !IsRegexSpace(m[q]);
    }
    var w := WrapperLines(m);
    WrapperUnmarked(m);
    DefLineSurvives(m, n);
    ImportLineSurvives(m, n);
    ReturnLineSurvives(m, n);
    BlankLineSurvives(w[3], n);
    forall k | 0 <= k < 4 ensures Survives(w[k], n) {
      if k == 3 {
        assert w[k] == "";
      }
    }
    FilterKeepsSurvivors(w, n);
  }

  lemma DefLineSurvives(m: string, n: string)
    requires ' ' !in m && '(' !in m && '#' !in m && m != n
    ensures Survives(WrapperLines(m)[0], n)
  {
    WrapperUnmarked(m);
    DefLineHasNoDef(m, n);
    DefLineHasNoImport(m, n);
    DefLineHasNoReturn(m, n);
  }

  lemma ImportLineSurvives(m: string, n: string)
    requires ' ' !in m && '(' !in m && '#' !in m && m != n
    ensures Survives(WrapperLines(m)[1], n)
  {
    WrapperUnmarked(m);
    ImportLineHasNoPattern(m, n);
  }

  lemma ReturnLineSurvives(m: string, n: string)
    requires ' ' !in m && '(' !in m && '#' !in m && m != n
    ensures Survives(WrapperLines(m)[2], n)
  {
    WrapperUnmarked(m);
    ReturnLineHasNoDef(m, n);
    ReturnLineHasNoImport(m, n);
    ReturnLineHasNoReturn(m, n);
  }

  /** The blank line holds no pattern. */
  lemma BlankLineSurvives(blank: string, n: string)
    requires blank == ""
    ensures Survives(blank, n)
  {
    NoFirstCharNoContains(blank, PromptMarker);
    NoFirstCharNoContains(blank, DefPattern(n));
    NoFirstCharNoContains(blank, ImportPattern(n));
    NoFirstCharNoContains(blank, ReturnPattern(n));
  }

  // ---------------------------------------------------------------------
  // Properties of the line rewrite
  // ---------------------------------------------------------------------

  /** The filter keeps any property every line has. */
  lemma {:induction false} FilterKeeps(lines: seq<string>, n: string, p: string -> bool)
    requires forall k :: 0 <= k < |lines| ==> p(lines[k])
    ensures forall k :: 0 <= k < |FilterLines(lines, n)| ==> p(FilterLines(lines, n)[k])
    decreases |lines|
  {
    if lines != [] {
      FilterKeeps(lines[1..], n, p);
    }
  }

  /** A line that fails a filter makes the result strictly shorter. */
  lemma {:induction false} FilterDrops(lines: seq<string>, n: string, k: nat)
    requires k < |lines| && !Survives(lines[k], n)
    ensures |FilterLines(lines, n)| < |lines|
    decreases |lines|
  {
    if k > 0 {
      FilterDrops(lines[1..], n, k - 1);
    }
  }

  /** Deleting is idempotent: a second delete of the same name changes nothing. */
  lemma DeleteIdempotent(lines: seq<string>, n: string)
    ensures DeleteLines(DeleteLines(lines, n), n) == DeleteLines(lines, n)
  {
    var once := DeleteLines(lines, n);
    FilterKeepsSurvivors(once, n);
    CollapseFixed(once, false);
  }

  /** Deleting drops no text other than the filtered lines: the non-blank
      lines that remain are exactly the non-blank lines that pass the filter. */
  lemma DeleteKeepsText(lines: seq<string>, n: string)
    ensures NonBlank(DeleteLines(lines, n)) == NonBlank(FilterLines(lines, n))
  {
    CollapseKeepsText(FilterLines(lines, n), false);
  }

  /** Deleting a name is never a no-op on a library holding any header:
      every `# Prompt:` line goes, whichever function it describes. */
  lemma DeleteNotNoOp(lines: seq<string>, n: string, k: nat)
    requires k < |lines| && Contains(lines[k], PromptMarker)
    ensures DeleteLines(lines, n) != lines
  {
    FilterDrops(lines, n, k);
  }

  /** On an aligned library a delete of any name leaves every reader empty:
      all records are gone, not only the one for `n`. */
  lemma DeleteWipesRecords(lines: seq<string>, n: string)
    requires Aligned(lines)
    ensures var r := DeleteLines(lines, n);
            DefinitionsOf(r) == [] && UidsOf(r) == [] && PromptsOf(r) == Some([])
  {
    var filtered := FilterLines(lines, n);
    FilterKeeps(lines, n, line => FullHeader(line) || Unmarked(line));
    CollapseKeeps(filtered, false, line => Unmarked(line));
    UnmarkedInvisible(DeleteLines(lines, n));
  }

  /** The three code lines of `n`'s own wrapper each fail a filter. */
  lemma OwnWrapperFails(n: string)
    ensures forall k :: 0 <= k < 3 ==> !Survives(WrapperLines(n)[k], n)
  {
    OwnWrapperContains(n);
  }

  lemma OwnWrapperContains(n: string)
    ensures Contains(WrapperLines(n)[0], DefPattern(n))
    ensures Contains(WrapperLines(n)[1], ImportPattern(n))
    ensures Contains(WrapperLines(n)[2], ReturnPattern(n))
  {
    DefLineContains(n);
    ImportLineContains(n);
    ReturnLineContains(n);
  }

  lemma DefLineContains(n: string)
    ensures Contains(WrapperLines(n)[0], DefPattern(n))
  {
    assert WrapperLines(n)[0] == "" + DefPattern(n) + "*args, **kwargs):";
    ContainsInMiddle("", DefPattern(n), "*args, **kwargs):");
  }

  lemma ImportLineContains(n: string)
    ensures Contains(WrapperLines(n)[1], ImportPattern(n))
  {
    assert WrapperLines(n)[1] == "    " + ImportPattern(n) + "";
    ContainsInMiddle("    ", ImportPattern(n), "");
  }

  lemma ReturnLineContains(n: string)
    ensures Contains(WrapperLines(n)[2], ReturnPattern(n))
  {
    assert WrapperLines(n)[2] == "    " + ReturnPattern(n) + "";
    ContainsInMiddle("    ", ReturnPattern(n), "");
  }

  /** A record as `writeToLibrary` appends it: header line, then wrapper. */
  function Record(def: string, sp: string, uid: string, name: string): (r: seq<string>)
    ensures |r| == 5 && r[0] == HeaderLine(def, sp, uid) && r[1..] == WrapperLines(name)
  {
    [HeaderLine(def, sp, uid)] + WrapperLines(name)
  }

  /** A full record filters down to its blank separator line. */
  lemma OwnRecordFiltered(def: string, sp: string, uid: string, n: string)
    requires StartsWith(def, "def ") && '#' !in def && !Contains(sp, UidMarker)
    ensures FilterLines(Record(def, sp, uid, n), n) == [""]
  {
    var h := HeaderLine(def, sp, uid);
    var w := WrapperLines(n);
    PromptFieldRead(def, sp, uid);
    FilterConcat([h], w, n);
    FilterSingle(h, n);
    OwnWrapperFiltered(n);
  }

  /** The own wrapper filters down to its blank line. */
  lemma OwnWrapperFiltered(n: string)
    ensures FilterLines(WrapperLines(n), n) == [""]
  {
    var w := WrapperLines(n);
    OwnWrapperFails(n);
    assert w == w[..3] + [""];
    FilterConcat(w[..3], [""], n);
    FilterDropsAll(w[..3], n);
    NoFirstCharNoContains("", PromptMarker);
    NoFirstCharNoContains("", DefPattern(n));
    NoFirstCharNoContains("", ImportPattern(n));
    NoFirstCharNoContains("", ReturnPattern(n));
    FilterSingle("", n);
  }

  /** Lines that all fail the filter are all dropped. */
  lemma {:induction false} FilterDropsAll(lines: seq<string>, n: string)
    requires forall k :: 0 <= k < |lines| ==> !Survives(lines[k], n)
    ensures FilterLines(lines, n) == []
    decreases |lines|
  {
    if lines != [] {
      FilterDropsAll(lines[1..], n);
    }
  }

  // ---------------------------------------------------------------------
  // deleteFunction on the project directory
  // ---------------------------------------------------------------------

  /** Where `deleteFunction` meets an `IOException` that its handler
      catches: deleting the `.pyc` (nothing has changed yet), or opening the
      library, writing the temporary file or moving it over the library (the
      `.pyc` is gone but the library is untouched). A missing library fails
      in the same place as the second kind. A read error in the middle of
      the library's lines is unchecked, escapes the handler and is not a
      fault here. */
  datatype DeleteFault = NoDeleteFault | PycDeleteFails | RewriteFails

  /** `deleteFunction(project, n)`. The temporary file and the reload of the
      project are not modelled. */
  function DeleteFunction(disk: Disk, n: string, fault: DeleteFault): (r: Disk)
    ensures fault.PycDeleteFails? ==> r == disk
    ensures !fault.PycDeleteFails? ==> r.compiled == disk.compiled - {n}
    ensures r.library.Some? <==> disk.library.Some?
    ensures r.library != disk.library ==> fault.NoDeleteFault? && r.library == Some(DeleteLines(Lines(disk), n))
    ensures fault.NoDeleteFault? && disk.library.Some? ==> r.library == Some(DeleteLines(disk.library.value, n))
    ensures fault.RewriteFails? ==> r.library == disk.library
  {
    match fault
    case PycDeleteFails => disk
    case RewriteFails => Disk(disk.library, disk.compiled - {n})
    case NoDeleteFault =>
      var library := match disk.library
        case None => None
        case Some(lines) => Some(DeleteLines(lines, n));
      Disk(library, disk.compiled - {n})
  }

  /** Two successful deletes of the same name leave the project as one does. */
  lemma DeleteFunctionIdempotent(disk: Disk, n: string)
    ensures var once := DeleteFunction(disk, n, NoDeleteFault);
            DeleteFunction(once, n, NoDeleteFault) == once
  {
    if disk.library.Some? {
      DeleteIdempotent(disk.library.value, n);
    }
  }

  /** A successful delete on an aligned library leaves nothing for the
      readers, so a restarted plugin lists no functions at all. */
  lemma DeleteFunctionWipesReads(disk: Disk, n: string)
    requires Aligned(Lines(disk))
    ensures var r := DeleteFunction(disk, n, NoDeleteFault);
            ReadDefinitions(r) == [] && ReadUids(r) == [] && ReadPrompts(r) == Some([])
  {
    if disk.library.Some? {
      DeleteWipesRecords(disk.library.value, n);
    }
  }

  // ---------------------------------------------------------------------
  // deleteLibraryFiles
  // ---------------------------------------------------------------------

  /** What the stream pipeline of `deleteLibraryFiles` makes of one line. */
  datatype LineName = NotDef | Name(name: string) | Throws

  /** Lines starting with `# def ` are cut at index 2, split on '(' and the
      first piece split on whitespace; element 1 is the name. When there is
      no element 1 the `ArrayIndexOutOfBoundsException` escapes the
      `IOException` handler. The split on '(' always has an element 0,
      since the text starts with `def`. */
  function NameOfLine(line: string): (r: LineName)
    ensures r.NotDef? <==> !StartsWith(line, DefPrefix)
    ensures r.Name? ==> NoSpace(r.name)
  {
    if !StartsWith(line, DefPrefix) then NotDef
    else
      assert line[2..][0] == 'd';
      NameOfDefinition(line[2..])
  }

  /** The name derivation on the text after `# `. */
  function NameOfDefinition(d: string): (r: LineName)
    requires |d| > 0 && d[0] == 'd'
    ensures !r.NotDef?
    ensures r.Name? ==> NoSpace(r.name)
  {
    SplitToNothing(d, '(');
    var words := SplitSpaces(Split(d, "(")[0]);
    if |words| < 2 then Throws else Name(words[1])
  }

  /** For a header whose definition is `head` + '(' + `args`, the name is
      element 1 of the whitespace split of `head`. */
  lemma NameOfHeaderHead(head: string, args: string, sp: string, uid: string)
    requires StartsWith(head, "def ") && '(' !in head
    ensures var words := SplitSpaces(head);
            NameOfLine(HeaderLine(head + "(" + args, sp, uid)) == if |words| < 2 then Throws else Name(words[1])
  {
    var rest := args + " " + (("# Prompt: " + sp + " ") + ("# UID: " + uid));
    assert HeaderLine(head + "(" + args, sp, uid) == "# " + (head + ("(" + rest));
    NameOfHeadLine(head, rest);
  }

  /** A `# def ` line whose first '(' follows `head` is named by `head`'s words. */
  lemma NameOfHeadLine(head: string, rest: string)
    requires StartsWith(head, "def ") && '(' !in head
    ensures var words := SplitSpaces(head);
            NameOfLine("# " + (head + ("(" + rest))) == if |words| < 2 then Throws else Name(words[1])
  {
    var line := "# " + (head + ("(" + rest));
    assert line[2..] == head + ("(" + rest);
    assert line[..6] == "# " + head[..4];
    assert StartsWith(line, DefPrefix);
    ContainsChar(head, '(');
    IndexOfConcat(head, "(" + rest, "(");
    SplitFirst(head + ("(" + rest), "(");
  }

  /** The header `writeToLibrary` produces for a well-formed definition
      yields that definition's name. */
  lemma NameOfHeader(name: string, args: string, sp: string, uid: string)
    requires name != "" && NoSpace(name) && '(' !in name
    ensures NameOfLine(HeaderLine("def " + name + "(" + args, sp, uid)) == Name(name)
  {
    var head := "def " + name;
    NameOfHeaderHead(head, args, sp, uid);
    assert head == "def" + " " + name;
    var parts := DefTokens(name);
    assert FirstSpaceFrom(name, 0).None?;
  }

  lemma SplitSpacesOfDef()
    ensures SplitSpaces("def ") == ["def"]
  {
    assert FirstSpaceFrom("def ", 0) == Some(3) by {
      FirstSpaceSkips("def ", 0, 3);
    }
    assert SpaceRunEnd("def ", 3) == 4;
    assert "def "[..3] == "def" && "def "[4..] == "";
    assert SpaceSegments("") == [""];
    assert SpaceSegments("def ") == ["def", ""];
  }

  /** A header whose definition has '(' right after `def ` throws. */
  lemma NameOfHeaderThrows(args: string, sp: string, uid: string)
    ensures NameOfLine(HeaderLine("def " + "(" + args, sp, uid)) == Throws
  {
    NameOfHeaderHead("def ", args, sp, uid);
    SplitSpacesOfDef();
  }

  /** The name derivation applied to every line. */
  function LineNames(lines: seq<string>): (r: seq<LineName>)
    ensures |r| == |lines|
    ensures forall k :: 0 <= k < |lines| ==> r[k] == NameOfLine(lines[k])
  {
    seq(|lines|, k requires 0 <= k < |lines| => NameOfLine(lines[k]))
  }

  /** The index of the first throwing line, or the number of lines. */
  function FirstThrow(names: seq<LineName>): (r: nat)
    ensures r <= |names|
    ensures forall k :: 0 <= k < r ==> !names[k].Throws?
    ensures r < |names| ==> names[r].Throws?
    decreases |names|
  {
    if names == [] then 0
    else if names[0].Throws? then 0
    else 1 + FirstThrow(names[1..])
  }

  /** The names on the first `i` lines. */
  function Seen(names: seq<LineName>, i: nat): set<string>
    requires i <= |names|
  {
    set k | 0 <= k < i && names[k].Name? :: names[k].name
  }

  /** The names whose `.pyc` the lazy stream reaches before any exception. */
  function SweptNames(lines: seq<string>): set<string> {
    var names := LineNames(lines);
    Seen(names, FirstThrow(names))
  }

  lemma SeenStep(names: seq<LineName>, i: nat)
    requires i < |names|
    ensures Seen(names, i + 1) ==
            Seen(names, i) + (match names[i] case Name(n) => {n} case _ => {})
  {
    var extra := match names[i] case Name(n) => {n} case _ => {};
    forall x ensures x in Seen(names, i + 1) <==> x in Seen(names, i) + extra {
      if x in Seen(names, i + 1) {
        var k :| 0 <= k < i + 1 && names[k].Name? && names[k].name == x;
        if k < i {
          assert x in Seen(names, i);
        }
      }
      if x in extra {
        assert names[i].Name?;
      }
    }
  }

  /** The stream of `deleteLibraryFiles` as a loop: each distinct name, in
      order of first appearance, until a line throws. */
  method SweepCompiled(lines: seq<string>) returns (visited: seq<string>, crashed: bool)
    ensures crashed <==> FirstThrow(LineNames(lines)) < |lines|
    ensures DistinctNames(visited)
    ensures forall x :: x in visited <==> x in SweptNames(lines)
  {
    var names := LineNames(lines);
    visited := [];
    var i := 0;
    while i < |names| && !names[i].Throws?
      invariant i <= FirstThrow(names)
      invariant DistinctNames(visited)
      invariant forall x :: x in visited <==> x in Seen(names, i)
    {
      VisitStep(names, i, visited);
      if names[i].Name? && names[i].name !in visited {
        visited := visited + [names[i].name];
      }
      i := i + 1;
    }
    crashed := i < |names|;
    assert FirstThrow(names) == i;
  }

  /** One step of the sweep keeps the visited names distinct and equal to
      the names seen so far. */
  lemma VisitStep(names: seq<LineName>, i: nat, visited: seq<string>)
    requires i < |names| && DistinctNames(visited)
    requires forall x :: x in visited <==> x in Seen(names, i)
    ensures var next := if names[i].Name? && names[i].name !in visited then visited + [names[i].name] else visited;
            DistinctNames(next) && forall x :: x in next <==> x in Seen(names, i + 1)
  {
    SeenStep(names, i);
    if names[i].Name? && names[i].name !in visited {
      AppendDistinct(visited, names[i].name);
    }
  }

  /** No name occurs twice. */
  predicate DistinctNames(names: seq<string>) {
    forall a, b :: 0 <= a < b < |names| ==> names[a] != names[b]
  }

  lemma AppendDistinct(names: seq<string>, n: string)
    requires DistinctNames(names) && n !in names
    ensures DistinctNames(names + [n])
  {
  }

  /** `deleteLibraryFiles(project)`: the `.pyc` of every swept name is
      deleted unless that deletion fails (`stuck`); then the library is
      deleted unless the stream threw, which skips the rest of the method,
      or its own deletion fails. `crashed` is the escaping exception. */
  method DeleteLibraryFiles(disk: Disk, stuck: set<string>, libraryDeleteFails: bool) returns (r: Disk, crashed: bool)
    ensures crashed <==> FirstThrow(LineNames(Lines(disk))) < |Lines(disk)|
    ensures r.compiled == disk.compiled - (SweptNames(Lines(disk)) - stuck)
    ensures r.library == if crashed || libraryDeleteFails then disk.library else None
  {
    var visited;
    visited, crashed := SweepCompiled(Lines(disk));
    var compiled := disk.compiled;
    var i := 0;
    while i < |visited|
      invariant i <= |visited|
      invariant compiled == disk.compiled - (set k | 0 <= k < i && visited[k] !in stuck :: visited[k])
    {
      if visited[i] !in stuck {
        compiled := compiled - {visited[i]};
      }
      i := i + 1;
    }
    RemovedNames(visited, stuck, SweptNames(Lines(disk)));
    var library := if crashed || libraryDeleteFails then disk.library else None;
    r := Disk(library, compiled);
  }

  /** The names the removal loop takes out are the swept ones not stuck. */
  lemma RemovedNames(visited: seq<string>, stuck: set<string>, swept: set<string>)
    requires forall x :: x in visited <==> x in swept
    ensures (set k | 0 <= k < |visited| && visited[k] !in stuck :: visited[k]) == swept - stuck
  {
  }

  /** The wrapper lines never start with `# def `. */
  lemma WrapperNotDef(n: string)
    ensures forall k :: 0 <= k < 4 ==> NameOfLine(WrapperLines(n)[k]) == NotDef
  {
    var w := WrapperLines(n);
    assert w[0][0] == 'd' && w[1][0] == ' ' && w[2][0] == ' ' && |w[3]| == 0;
    UnmarkedNotDef(w[0]);
    UnmarkedNotDef(w[1]);
    UnmarkedNotDef(w[2]);
    UnmarkedNotDef(w[3]);
  }

  /** A line that does not start with '#' is no header. */
  lemma UnmarkedNotDef(line: string)
    requires |line| == 0 || line[0] != '#'
    ensures NameOfLine(line) == NotDef
  {
    if |DefPrefix| <= |line| {
      assert line[..|DefPrefix|][0] == line[0];
    }
  }

  /** Sweeping a library of one well-formed record visits exactly its name. */
  lemma SweepOfRecord(name: string, args: string, sp: string, uid: string)
    requires name != "" && NoSpace(name) && '(' !in name
    ensures var lines := Record("def " + name + "(" + args, sp, uid, name);
            FirstThrow(LineNames(lines)) == |lines| && SweptNames(lines) == {name}
  {
    var lines := Record("def " + name + "(" + args, sp, uid, name);
    var names := LineNames(lines);
    NameOfHeader(name, args, sp, uid);
    WrapperNotDef(name);
    forall k | 1 <= k < 5 ensures names[k] == NotDef {
      assert lines[k] == WrapperLines(name)[k - 1];
    }
    OneNameSwept(names, name);
  }

  /** A named line followed by lines that are no headers: nothing throws
      and only that name is seen. */
  lemma OneNameSwept(names: seq<LineName>, name: string)
    requires |names| == 5 && names[0] == Name(name)
    requires forall k :: 1 <= k < 5 ==> names[k] == NotDef
    ensures FirstThrow(names) == 5 && Seen(names, 5) == {name}
  {
    assert FirstThrow(names[4..]) == 1;
    assert FirstThrow(names[3..]) == 2;
    assert FirstThrow(names[2..]) == 3;
    assert FirstThrow(names[1..]) == 4;
    assert name in Seen(names, 5);
  }

  // ---------------------------------------------------------------------
  // Deleting one record only
  // ---------------------------------------------------------------------

  /** A name as `extractFunctionName` returns it for a well-formed
      definition, that also keeps '#' out of the header. */
  predicate PlainName(m: string) {
    m != "" && NoSpace(m) && '(' !in m && '#' !in m
  }

  /** The definition line of a function `m` with parameter text `args`. */
  function DefinitionText(m: string, args: string): (r: string)
    ensures StartsWith(r, "def ")
  {
    "def " + m + "(" + args
  }

  /** The record `writeToLibrary` appends for `m`, with the definition
      well-formed and the prompt free of `# UID:`. */
  predicate WellFormedRecord(m: string, args: string, sp: string) {
    PlainName(m) && '#' !in args && !Contains(sp, UidMarker)
  }

  /** A well-formed definition has no '#' and gives its name back. */
  lemma WellFormedDefinition(m: string, args: string)
    requires PlainName(m) && '#' !in args
    ensures '#' !in DefinitionText(m, args)
    ensures ExtractFunctionName(DefinitionText(m, args)) == Some(m)
    ensures ' ' !in m
  {
    ExtractWellFormed(m, args);
    DefinitionHashFree(m, args);
    SpaceFreeName(m);
  }

  lemma DefinitionHashFree(m: string, args: string)
    requires '#' !in m && '#' !in args
    ensures '#' !in DefinitionText(m, args)
  {
    assert DefinitionText(m, args) == "def " + m + "(" + args;
  }

  lemma SpaceFreeName(m: string)
    requires NoSpace(m)
    ensures ' ' !in m
  {
    forall q | 0 <= q < |m| ensures m[q] != ' ' {
      assert !IsRegexSpace(m[q]);
    }
  }

  /** Each record is aligned: a full header, then lines no reader sees. */
  lemma RecordAligned(m: string, args: string, sp: string, uid: string)
    requires WellFormedRecord(m, args, sp)
    ensures Aligned(Record(DefinitionText(m, args), sp, uid, m))
  {
    WellFormedDefinition(m, args);
    AddedAligned(DefinitionText(m, args), sp, uid, m, true);
  }

  /** What deleting `n` evidently should keep: a `# def ` header unless
      its derived name is `n`; any other line unless it holds one of the
      three wrapper patterns of `n`. */
  predicate KeepsRecordLine(line: string, n: string) {
    if StartsWith(line, DefPrefix) then NameOfLine(line) != Name(n)
    else !Contains(line, DefPattern(n)) && !Contains(line, ImportPattern(n)) && !Contains(line, ReturnPattern(n))
  }

  /** The lines satisfying `keep`, in their original order. */
  function KeepIf(lines: seq<string>, keep: string -> bool): (r: seq<string>)
    ensures |r| <= |lines|
    ensures forall k :: 0 <= k < |r| ==> keep(r[k])
    decreases |lines|
  {
    if lines == [] then []
    else if keep(lines[0]) then [lines[0]] + KeepIf(lines[1..], keep)
    else KeepIf(lines[1..], keep)
  }

  function RecordKeeper(n: string): string -> bool {
    line => KeepsRecordLine(line, n)
  }

  function FilterRecordLines(lines: seq<string>, n: string): (r: seq<string>)
    ensures |r| <= |lines|
    ensures forall k :: 0 <= k < |r| ==> KeepsRecordLine(r[k], n)
  {
    KeepIf(lines, RecordKeeper(n))
  }

  /** The corrected delete: the record filter, then the same collapse. */
  function DeleteRecordLines(lines: seq<string>, n: string): (r: seq<string>)
    ensures |r| <= |lines|
    ensures forall k :: 0 <= k < |r| ==> KeepsRecordLine(r[k], n)
    ensures NoBlankRun(r)
  {
    var filtered := FilterRecordLines(lines, n);
    CollapseKeeps(filtered, false, RecordKeeper(n));
    CollapseBlanks(filtered, false)
  }

  lemma {:induction false} KeepIfConcat(a: seq<string>, b: seq<string>, keep: string -> bool)
    ensures KeepIf(a + b, keep) == KeepIf(a, keep) + KeepIf(b, keep)
    decreases |a|
  {
    if a == [] {
      assert a + b == b;
    } else {
      assert (a + b)[0] == a[0];
      assert (a + b)[1..] == a[1..] + b;
      KeepIfConcat(a[1..], b, keep);
    }
  }

  lemma {:induction false} KeepIfAll(lines: seq<string>, keep: string -> bool)
    requires forall k :: 0 <= k < |lines| ==> keep(lines[k])
    ensures KeepIf(lines, keep) == lines
    decreases |lines|
  {
    if lines != [] {
      KeepIfAll(lines[1..], keep);
      assert lines == [lines[0]] + lines[1..];
    }
  }

  lemma {:induction false} KeepIfNone(lines: seq<string>, keep: string -> bool)
    requires forall k :: 0 <= k < |lines| ==> !keep(lines[k])
    ensures KeepIf(lines, keep) == []
    decreases |lines|
  {
    if lines != [] {
      KeepIfNone(lines[1..], keep);
    }
  }

  /** The corrected filter reduces `n`'s own record to its blank line. */
  lemma RecordFilterDropsOwn(n: string, args: string, sp: string, uid: string)
    requires WellFormedRecord(n, args, sp)
    ensures FilterRecordLines(Record(DefinitionText(n, args), sp, uid, n), n) == [""]
  {
    var r := Record(DefinitionText(n, args), sp, uid, n);
    OwnHeaderDropped(n, args, sp, uid);
    OwnWrapperDropped(n);
    assert r[1..] == WrapperLines(n);
    KeepOnlyLast(r, RecordKeeper(n));
  }

  /** Five lines of which only the last is kept filter down to that line. */
  lemma KeepOnlyLast(r: seq<string>, keep: string -> bool)
    requires |r| == 5 && !keep(r[0]) && !keep(r[1]) && !keep(r[2]) && !keep(r[3]) && keep(r[4])
    ensures KeepIf(r, keep) == [r[4]]
  {
    var front := r[..4];
    assert forall k :: 0 <= k < 4 ==> !keep(front[k]);
    KeepIfNone(front, keep);
    KeepIfAll([r[4]], keep);
    assert r == front + [r[4]];
    KeepIfConcat(front, [r[4]], keep);
  }

  lemma OwnHeaderDropped(n: string, args: string, sp: string, uid: string)
    requires PlainName(n)
    ensures !KeepsRecordLine(HeaderLine(DefinitionText(n, args), sp, uid), n)
  {
    NameOfHeader(n, args, sp, uid);
  }

  lemma OwnWrapperDropped(n: string)
    ensures forall k :: 0 <= k < 3 ==> !KeepsRecordLine(WrapperLines(n)[k], n)
    ensures KeepsRecordLine(WrapperLines(n)[3], n)
  {
    WrapperNotDef(n);
    OwnWrapperContains(n);
    NoFirstCharNoContains("", DefPattern(n));
    NoFirstCharNoContains("", ImportPattern(n));
    NoFirstCharNoContains("", ReturnPattern(n));
  }

  /** The corrected filter keeps every line of another function's record. */
  lemma RecordFilterKeepsOther(m: string, args: string, sp: string, uid: string, n: string)
    requires WellFormedRecord(m, args, sp) && m != n
    ensures FilterRecordLines(Record(DefinitionText(m, args), sp, uid, m), n) == Record(DefinitionText(m, args), sp, uid, m)
  {
    var r := Record(DefinitionText(m, args), sp, uid, m);
    var keep := RecordKeeper(n);
    WellFormedDefinition(m, args);
    NameOfHeader(m, args, sp, uid);
    WrapperNotDef(m);
    OtherWrapperSurvives(m, n);
    forall k | 0 <= k < 5 ensures keep(r[k]) {
      if k > 0 {
        assert r[k] == WrapperLines(m)[k - 1];
      }
    }
    KeepIfAll(r, keep);
  }

  /** The header and the three code lines of a record are not blank. */
  lemma RecordVisible(def: string, sp: string, uid: string, m: string)
    ensures var r := Record(def, sp, uid, m);
            !IsBlank(r[0]) && !IsBlank(r[1]) && !IsBlank(r[2]) && !IsBlank(r[3]) && IsBlank(r[4])
  {
    var h := HeaderLine(def, sp, uid);
    assert h[0] == '#';
    TrimKeepsVisible(h, 0);
    WrapperVisible(m);
  }

  /** The three wrapper lines hold text; the fourth is the blank separator. */
  lemma WrapperVisible(m: string)
    ensures var w := WrapperLines(m);
            !IsBlank(w[0]) && !IsBlank(w[1]) && !IsBlank(w[2]) && IsBlank(w[3])
  {
    var w := WrapperLines(m);
    assert w[0][0] == 'd';
    TrimKeepsVisible(w[0], 0);
    assert w[1][4] == 'f';
    TrimKeepsVisible(w[1], 4);
    assert w[2][4] == 'r';
    TrimKeepsVisible(w[2], 4);
    assert w[3] == "";
  }

  /** Five lines blank only at the end, with a blank line in front, are
      left alone by the collapse. */
  lemma SeparatedRecordCollapsed(r: seq<string>)
    requires |r| == 5 && !IsBlank(r[0]) && !IsBlank(r[1]) && !IsBlank(r[2]) && !IsBlank(r[3])
    ensures CollapseBlanks([""] + r, false) == [""] + r
  {
    var lines := [""] + r;
    assert NoBlankRun(lines) by {
      forall k | 0 <= k < |lines| - 1 ensures !(IsBlank(lines[k]) && IsBlank(lines[k + 1])) {
        if k == 0 {
          assert lines[1] == r[0];
        } else {
          assert lines[k] == r[k - 1];
        }
      }
    }
    CollapseFixed(lines, false);
  }

  /** The corrected delete of `n` on records for `n` then `m` leaves a
      blank line and `m`'s record. */
  lemma DeleteRecordOfPair(n: string, nArgs: string, nSp: string, nUid: string,
                           m: string, mArgs: string, mSp: string, mUid: string)
    requires WellFormedRecord(n, nArgs, nSp) && WellFormedRecord(m, mArgs, mSp) && m != n
    ensures var rn := Record(DefinitionText(n, nArgs), nSp, nUid, n);
            var rm := Record(DefinitionText(m, mArgs), mSp, mUid, m);
            DeleteRecordLines(rn + rm, n) == [""] + rm
  {
    var rn := Record(DefinitionText(n, nArgs), nSp, nUid, n);
    var rm := Record(DefinitionText(m, mArgs), mSp, mUid, m);
    KeepIfConcat(rn, rm, RecordKeeper(n));
    RecordFilterDropsOwn(n, nArgs, nSp, nUid);
    RecordFilterKeepsOther(m, mArgs, mSp, mUid, n);
    RecordVisible(DefinitionText(m, mArgs), mSp, mUid, m);
    SeparatedRecordCollapsed(rm);
  }

  /** A blank line in front changes no reader. */
  lemma LeadingBlankInvisible(lines: seq<string>)
    ensures DefinitionsOf([""] + lines) == DefinitionsOf(lines)
    ensures UidsOf([""] + lines) == UidsOf(lines)
    ensures PromptsOf([""] + lines) == PromptsOf(lines)
  {
    assert ([""] + lines)[1..] == lines;
    assert !StartsWith("", DefPrefix);
    NoFirstCharNoContains("", PromptMarker);
    NoFirstCharNoContains("", UidMarker);
    assert PromptEntry("") == Some([]);
    var rest := PromptsOf(lines);
    if rest.Some? {
      assert [] + rest.value == rest.value;
    }
  }

  /** Prefix isolation, as the corrected delete gives it: with records for
      `n` and then `m` in the library, deleting `n` leaves `m`'s record
      for every reader. Names such as `foo` and `foo2` are covered. */
  lemma DeleteRecordIsolates(n: string, nArgs: string, nSp: string, nUid: string,
                             m: string, mArgs: string, mSp: string, mUid: string)
    requires WellFormedRecord(n, nArgs, nSp) && WellFormedRecord(m, mArgs, mSp) && m != n
    ensures var lines := Record(DefinitionText(n, nArgs), nSp, nUid, n) + Record(DefinitionText(m, mArgs), mSp, mUid, m);
            var r := DeleteRecordLines(lines, n);
            && DefinitionsOf(r) == [DefinitionText(m, mArgs) + " "]
            && UidsOf(r) == [Trim(mUid)]
            && PromptsOf(r) == Some([Trim(mSp)])
  {
    var rm := Record(DefinitionText(m, mArgs), mSp, mUid, m);
    DeleteRecordOfPair(n, nArgs, nSp, nUid, m, mArgs, mSp, mUid);
    LeadingBlankInvisible(rm);
    WellFormedDefinition(m, mArgs);
    var added := RecordRead(DefinitionText(m, mArgs), mSp, mUid, m, true);
    assert added == rm;
  }

  /** The same library under the delete as written: every reader comes
      back empty, so `m`'s record is lost along with `n`'s. */
  lemma DeleteLinesLosesOther(n: string, nArgs: string, nSp: string, nUid: string,
                              m: string, mArgs: string, mSp: string, mUid: string)
    requires WellFormedRecord(n, nArgs, nSp) && WellFormedRecord(m, mArgs, mSp) && m != n
    ensures var lines := Record(DefinitionText(n, nArgs), nSp, nUid, n) + Record(DefinitionText(m, mArgs), mSp, mUid, m);
            var r := DeleteLines(lines, n);
            && DefinitionsOf(lines) == [DefinitionText(n, nArgs) + " ", DefinitionText(m, mArgs) + " "]
            && DefinitionsOf(r) == [] && UidsOf(r) == [] && PromptsOf(r) == Some([])
  {
    var rn := Record(DefinitionText(n, nArgs), nSp, nUid, n);
    var rm := Record(DefinitionText(m, mArgs), mSp, mUid, m);
    RecordAligned(n, nArgs, nSp, nUid);
    RecordAligned(m, mArgs, mSp, mUid);
    AlignedConcat(rn, rm);
    DeleteWipesRecords(rn + rm, n);
    WellFormedDefinition(n, nArgs);
    WellFormedDefinition(m, mArgs);
    var an := RecordRead(DefinitionText(n, nArgs), nSp, nUid, n, true);
    var am := RecordRead(DefinitionText(m, mArgs), mSp, mUid, m, true);
    assert an == rn && am == rm;
    DefinitionsOfConcat(rn, rm);
  }
}

=== FILE: function_manager.dfy ===
/** `BlackBoxFunctions.FunctionManager`: the facade over the writer and the
    deleter. Apart from delegation its only logic is `getFunctionUIDs`,
    the uid of a function looked up by name through the definitions and
    uids the readers return, which rely on being index-aligned. */
module FunctionManager {
  import opened Base
  import opened JavaStrings
  import opened FunctionWriter
  import opened FunctionDeleter

  /** `returnFunctionName` applied to each definition, `None` where it throws. */
  function NamesOf(defs: seq<string>): (r: seq<Option<string>>)
    ensures |r| == |defs|
    ensures forall i :: 0 <= i < |defs| ==> r[i] == ExtractFunctionName(defs[i])
  {
    seq(|defs|, i requires 0 <= i < |defs| => ExtractFunctionName(defs[i]))
  }

  /** No name in `names[from..upTo]` is a throw or equals `name`. */
  predicate NoMatchBetween(names: seq<Option<string>>, name: string, from: nat, upTo: nat)
    requires from <= upTo <= |names|
  {
    forall j :: from <= j < upTo ==> names[j].Some? && names[j].value != name
  }

  /** The loop of `getFunctionUIDs` from index `from`: the first definition
      whose name is `name` selects the uid at the same index. `None` is an
      exception: `extractFunctionName` throwing on a definition met first,
      or `functionUIDs.get(i)` past the end of the uid list. */
  function UidSearch(names: seq<Option<string>>, uids: seq<string>, name: string, from: nat): (r: Option<string>)
    requires from <= |names|
    ensures forall i :: from <= i < |names| && NoMatchBetween(names, name, from, i) && names[i] == Some(name) ==>
              r == (if i < |uids| then Some(uids[i]) else None)
    ensures forall i :: from <= i < |names| && NoMatchBetween(names, name, from, i) && names[i].None? ==>
              r == None
    ensures NoMatchBetween(names, name, from, |names|) ==> r == Some("")
    decreases |names| - from
  {
    if from == |names| then Some("")
    else
      match names[from]
      case None => None
      case Some(current) =>
        if current == name then (if from < |uids| then Some(uids[from]) else None)
        else UidSearch(names, uids, name, from + 1)
  }

  /** `getFunctionUIDs(project, functionName)` on the two reader results. */
  function GetFunctionUid(defs: seq<string>, uids: seq<string>, name: string): (r: Option<string>)
    ensures NoMatchBetween(NamesOf(defs), name, 0, |defs|) ==> r == Some("")
  {
    UidSearch(NamesOf(defs), uids, name, 0)
  }

  /** With duplicate names the earliest record wins: a later record with
      the same name never supplies the uid. */
  lemma EarliestWins(defs: seq<string>, uids: seq<string>, name: string, i: nat, j: nat)
    requires i < j < |defs| && j < |uids|
    requires NoMatchBetween(NamesOf(defs), name, 0, i) && ExtractFunctionName(defs[i]) == Some(name)
    requires ExtractFunctionName(defs[j]) == Some(name)
    ensures GetFunctionUid(defs, uids, name) == Some(uids[i])
  {
  }

  /** The answer is never taken from a record whose name differs. */
  lemma {:induction false} UidFromMatchingRecord(names: seq<Option<string>>, uids: seq<string>, name: string, from: nat)
    requires from <= |names|
    ensures var r := UidSearch(names, uids, name, from);
            r.Some? ==> (r == Some("") && NoMatchBetween(names, name, from, |names|)) ||
                        (exists i :: from <= i < |names| && i < |uids| && names[i] == Some(name) && r.value == uids[i])
    decreases |names| - from
  {
    if from < |names| {
      match names[from]
      case None =>
      case Some(current) =>
        if current != name {
          UidFromMatchingRecord(names, uids, name, from + 1);
        }
    }
  }

  /** A library holding only the record written for `name` gives back the
      trimmed uid written with it. */
  lemma LookupAfterWrite(name: string, args: string, sp: string, uid: string)
    requires WellFormedRecord(name, args, sp)
    ensures var lines := Record(DefinitionText(name, args), sp, uid, name);
            GetFunctionUid(DefinitionsOf(lines), UidsOf(lines), name) == Some(Trim(uid))
  {
    var def := DefinitionText(name, args);
    WellFormedDefinition(name, args);
    var added := RecordRead(def, sp, uid, name, true);
    assert def + " " == "def " + name + "(" + (args + " ");
    ExtractWellFormed(name, args + " ");
  }
}

=== FILE: function_writer.dfy ===
/** `PyTutor.FunctionWriter`: the record key derived from a definition, the
    record appended to the generated functions library, and the three
    readers that re-derive the fields line by line. */
module FunctionWriter {
  import opened Base
  import opened JavaStrings
  import opened Library

  const DefPrefix: string := "# def "
  const PromptMarker: string := "# Prompt:"
  const UidMarker: string := "# UID:"

  lemma WriterMarkers()
    ensures FirstUnique(PromptMarker) && FirstUnique(UidMarker)
    ensures PromptMarker[0] == '#' && UidMarker[0] == '#'
  {
  }

  // ---------------------------------------------------------------------
  // extractFunctionName
  // ---------------------------------------------------------------------

  /** `extractFunctionName(functionDefinition)`. The whitespace tokens must
      start with exactly `def` followed by a second token, otherwise the
      name is "". */
  function ExtractFunctionName(d: string): (r: Option<string>)
    ensures r.Some? ==> NoSpace(r.value) && '(' !in r.value
  {
    var parts := SplitSpaces(d);
    if |parts| >= 2 && parts[0] == "def" then NameOfToken(parts[1]) else Some("")
  }

  /** The token after `def` up to its first '('. `None` is the
      `ArrayIndexOutOfBoundsException` thrown when the token is nothing but
      '(' characters, so that its split on '(' has no element. */
  function NameOfToken(token: string): (r: Option<string>)
    requires NoSpace(token)
    ensures r.Some? ==> NoSpace(r.value) && '(' !in r.value
    ensures r.Some? ==> |r.value| <= |token| && r.value == token[..|r.value|]
  {
    var pieces := Split(token, "(");
    if |pieces| == 0 then None
    else
      assert pieces[0] == Before(token, "(");
      BeforeIsPrefix(token, "(");
      ContainsChar(pieces[0], '(');
      Some(pieces[0])
  }

  lemma BeforeIsPrefix(s: string, sep: string)
    ensures |Before(s, sep)| <= |s| && Before(s, sep) == s[..|Before(s, sep)|]
  {
  }

  /** The only throwing case: after a leading `def` token the second token
      consists of '(' characters only. */
  lemma ExtractCrashes(d: string)
    ensures var parts := SplitSpaces(d);
            ExtractFunctionName(d).None? <==>
              |parts| >= 2 && parts[0] == "def" && parts[1] != "" &&
              forall k :: 0 <= k < |parts[1]| ==> parts[1][k] == '('
  {
    var parts := SplitSpaces(d);
    if |parts| >= 2 && parts[0] == "def" {
      SplitToNothing(parts[1], '(');
    }
  }

  /** Unless the first whitespace token is exactly `def` and a second one
      follows, the name is empty; in particular after leading whitespace. */
  lemma ExtractRequiresDefToken(d: string)
    ensures var parts := SplitSpaces(d);
            !(|parts| >= 2 && parts[0] == "def") ==> ExtractFunctionName(d) == Some("")
    ensures |d| > 0 && IsRegexSpace(d[0]) ==> ExtractFunctionName(d) == Some("")
  {
    if |d| > 0 && IsRegexSpace(d[0]) {
      assert FirstSpaceFrom(d, 0) == Some(0);
      var parts := SplitSpaces(d);
      assert |parts| > 0 ==> parts[0] == SpaceSegments(d)[0] == "";
    }
  }

  /** A well-formed definition gives its name back: `def`, one space, a
      non-empty name free of whitespace and '(', then the parameter list. */
  lemma ExtractWellFormed(n: string, args: string)
    requires n != "" && NoSpace(n) && '(' !in n
    ensures ExtractFunctionName("def " + n + "(" + args) == Some(n)
  {
    var tail := n + "(" + args;
    DefinitionRegrouped(n, args);
    ExtractAfterDef(tail);
    var token := NameToken(n, args);
    var rest := token[|n| + 1..];
    TokenRegrouped(token, n, rest);
    NameOfWellFormedToken(n, rest);
  }

  lemma DefinitionRegrouped(n: string, args: string)
    ensures "def " + n + "(" + args == "def" + " " + (n + "(" + args)
  {
  }

  lemma TokenRegrouped(token: string, n: string, rest: string)
    requires |token| > |n| && token[..|n| + 1] == n + "(" && rest == token[|n| + 1..]
    ensures token == n + "(" + rest
  {
    assert token == token[..|n| + 1] + token[|n| + 1..];
  }

  /** After `def` and one space the name comes from the first piece of the rest. */
  lemma ExtractAfterDef(tail: string)
    requires |tail| > 0 && !IsRegexSpace(tail[0])
    ensures ExtractFunctionName("def" + " " + tail) == NameOfToken(SpaceSegments(tail)[0])
  {
    var parts := DefTokens(tail);
  }

  lemma NameOfWellFormedToken(n: string, rest: string)
    requires n != "" && '(' !in n && NoSpace(n + "(" + rest)
    ensures NameOfToken(n + "(" + rest) == Some(n)
  {
    var token := n + "(" + rest;
    ContainsChar(n, '(');
    assert token == n + ("(" + rest);
    IndexOfConcat(n, "(" + rest, "(");
    assert Before(token, "(") == n;
    SplitFirst(token, "(");
  }

  /** `def`, a space and a visible start: the tokens are `def` and the first token of the rest. */
  lemma DefTokens(tail: string) returns (parts: seq<string>)
    requires |tail| > 0 && !IsRegexSpace(tail[0])
    ensures parts == SplitSpaces("def" + " " + tail)
    ensures |parts| >= 2 && parts[0] == "def" && parts[1] == SpaceSegments(tail)[0]
  {
    assert NoSpace("def");
    SpaceSegmentsAfterWord("def", tail);
    var segs := SpaceSegments("def" + " " + tail);
    parts := SplitSpaces("def" + " " + tail);
    assert FirstSpaceFrom("def" + " " + tail, 0).Some? by {
      assert ("def" + " " + tail)[3] == ' ';
    }
    var first := SpaceSegments(tail)[0];
    assert first != "" by {
      assert FirstSpaceFrom(tail, 0) != Some(0);
    }
    assert segs[1] == first;
  }

  /** The token after `def` in a well-formed definition: the name, '(' and more. */
  lemma NameToken(n: string, args: string) returns (token: string)
    requires n != "" && NoSpace(n)
    ensures token == SpaceSegments(n + "(" + args)[0]
    ensures |token| > |n| && token[..|n| + 1] == n + "("
  {
    var tail := n + "(" + args;
    token := SpaceSegments(tail)[0];
    assert tail[..|n| + 1] == n + "(";
    assert NoSpace(n + "(") by {
      assert forall k :: 0 <= k < |n| ==> (n + "(")[k] == n[k];
    }
    FirstPieceKeepsPrefix(tail, n + "(");
  }

  /** Every character of the name comes from the definition: a character
      that does not occur in the definition does not occur in the name. */
  lemma ExtractKeepsOut(d: string, c: char)
    requires c !in d && ExtractFunctionName(d).Some?
    ensures c !in ExtractFunctionName(d).value
  {
    var parts := SplitSpaces(d);
    if |parts| >= 2 && parts[0] == "def" {
      SpaceSegmentsChars(d);
      assert parts[1] == SpaceSegments(d)[1];
      assert c !in parts[1];
      BeforeIsPrefix(parts[1], "(");
      var n := ExtractFunctionName(d).value;
      assert n == Before(parts[1], "(");
      forall k | 0 <= k < |n| ensures n[k] != c {
        assert n[k] == parts[1][k];
      }
    }
  }

  // ---------------------------------------------------------------------
  // The record written by writeToLibrary
  // ---------------------------------------------------------------------

  /** The prompt as stored: line feeds become spaces, carriage returns vanish. */
  function StripPrompt(prompt: string): (r: string)
    ensures '\n' !in r && '\r' !in r
    ensures '\n' !in prompt && '\r' !in prompt ==> r == prompt
    ensures |r| <= |prompt|
  {
    var spaced := ReplaceChar(prompt, '\n', " ");
    ReplaceCharKeepsOut(spaced, '\r', "", '\n');
    ReplaceCharLength(prompt, '\n', " ");
    ReplaceCharLength(spaced, '\r', "");
    ReplaceChar(spaced, '\r', "")
  }

  /** The commented header line, without its line feed. */
  function HeaderLine(def: string, strippedPrompt: string, uid: string): string {
    ("# " + def + " ") + ("# Prompt: " + strippedPrompt + " ") + ("# UID: " + uid)
  }

  /** The header carries the definition behind `# `, then both markers. */
  lemma HeaderShape(def: string, strippedPrompt: string, uid: string)
    ensures var r := HeaderLine(def, strippedPrompt, uid);
            && |r| == |def| + |strippedPrompt| + |uid| + 21
            && r[..|def| + 2] == "# " + def
            && Contains(r, PromptMarker) && Contains(r, UidMarker)
  {
    var a := "# " + def + " ";
    var b := " " + strippedPrompt + " ";
    var c := "# UID: " + uid;
    var r := HeaderLine(def, strippedPrompt, uid);
    assert r == a + PromptMarker + (b + c);
    ContainsInMiddle(a, PromptMarker, b + c);
    assert r == (a + PromptMarker + b) + UidMarker + (" " + uid);
    ContainsInMiddle(a + PromptMarker + b, UidMarker, " " + uid);
    assert r[..|def| + 2] == "# " + def;
  }

  /** The four lines of the delegating wrapper for name `n`, the last one blank. */
  function WrapperLines(n: string): seq<string> {
    [ "def " + n + "(*args, **kwargs):",
      "    from " + n + " import " + n,
      "    return " + n + "(*args, **kwargs)",
      "" ]
  }

  /** Four wrapper lines, the last blank, the first opening `def n(`; none
      of them reads as a `# def ` header. */
  lemma WrapperShape(n: string)
    ensures var r := WrapperLines(n);
            && |r| == 4 && r[3] == ""
            && StartsWith(r[0], "def " + n + "(")
            && forall k :: 0 <= k < |r| ==> !StartsWith(r[k], DefPrefix)
  {
    var r := WrapperLines(n);
    assert r[0][..|"def " + n + "("|] == "def " + n + "(";
    forall k | 0 <= k < |r| ensures !StartsWith(r[k], DefPrefix) {
      assert |r[k]| == 0 || r[k][0] != '#';
      if |DefPrefix| <= |r[k]| {
        assert r[k][..|DefPrefix|][0] == r[k][0];
      }
    }
  }

  /** How far `compilePyFile` gets. Without a Python SDK it writes nothing.
      With one, the compile script is extracted first (a failure throws and
      aborts the whole write); then the code is written to `<name>.py` in
      the project directory, compiled by the external compiler (which may or
      may not produce the `.pyc`), and that `.py` is deleted again. */
  datatype CompileStep = NoSdk | Compiled(producedPyc: bool) | ScriptExtractionFails

  /** Which of the two appends fails with an `IOException`, if any. */
  datatype AppendFault = NoAppendFault | HeaderAppendFails | WrapperAppendFails

  /** The library file is `generated_functions.py` in the project directory. */
  const LibraryModule: string := "generated_functions"

  /** The compile step's temporary `<name>.py` is the library itself: the
      code overwrites it and the clean-up deletes it. */
  predicate Clobbers(def: string, compile: CompileStep) {
    compile.Compiled? && ExtractFunctionName(def) == Some(LibraryModule)
  }

  /** The library as the appends find it: deleted by the compile step when
      that step clobbers it, otherwise as it was. */
  function LibraryBeforeAppends(disk: Disk, def: string, compile: CompileStep): (r: Option<seq<string>>)
    ensures Clobbers(def, compile) ==> r.None?
    ensures !Clobbers(def, compile) ==> r == disk.library
  {
    if Clobbers(def, compile) then None else disk.library
  }

  /** `writeToLibrary(project, functionDefinition, functionCode, prompt, uid)`
      on the pooled thread. The name is extracted first (throwing aborts
      everything), then compiled, then the header and the wrapper are
      appended, each append creating the file if needed. */
  function WriteToLibrary(disk: Disk, def: string, prompt: string, uid: string,
                          compile: CompileStep, fault: AppendFault): (r: Disk)
    ensures ExtractFunctionName(def).None? || compile.ScriptExtractionFails? ==> r == disk
    ensures !Clobbers(def, compile) ==> |Lines(disk)| <= |Lines(r)| && Lines(r)[..|Lines(disk)|] == Lines(disk)
    ensures Clobbers(def, compile) ==> |Lines(r)| <= 5 && (fault.HeaderAppendFails? <==> r.library.None?)
    ensures |Lines(r)| <= |Lines(disk)| + 5
    ensures disk.compiled <= r.compiled
    ensures !compile.Compiled? ==> r.compiled == disk.compiled
    ensures forall n :: n in r.compiled && n !in disk.compiled ==> Some(n) == ExtractFunctionName(def)
  {
    var start := LibraryBeforeAppends(disk, def, compile);
    var r := WriteFrom(disk, def, prompt, uid, compile, fault, start);
    if ExtractFunctionName(def).Some? && !compile.ScriptExtractionFails? && !fault.HeaderAppendFails? then
      KeepsPrefix(Present(start), AddedLines(def, prompt, uid, fault));
      r
    else r
  }

  lemma KeepsPrefix(a: seq<string>, b: seq<string>)
    ensures |a| <= |a + b| && (a + b)[..|a|] == a
  {
  }

  /** The write once the compile step has left the library as `start`. */
  function WriteFrom(disk: Disk, def: string, prompt: string, uid: string,
                     compile: CompileStep, fault: AppendFault, start: Option<seq<string>>): (r: Disk)
    ensures ExtractFunctionName(def).None? || compile.ScriptExtractionFails? ==> r == disk
    ensures ExtractFunctionName(def).Some? && !compile.ScriptExtractionFails? ==>
              r.library == (if fault.HeaderAppendFails? then start
                            else Some(Present(start) + AddedLines(def, prompt, uid, fault)))
    ensures disk.compiled <= r.compiled
    ensures !compile.Compiled? ==> r.compiled == disk.compiled
    ensures forall n :: n in r.compiled && n !in disk.compiled ==> Some(n) == ExtractFunctionName(def)
  {
    match ExtractFunctionName(def)
    case None => disk
    case Some(name) =>
      match compile
      case ScriptExtractionFails => disk
      case _ =>
        var compiled := match compile case Compiled(true) => disk.compiled + {name} case _ => disk.compiled;
        var library := if fault.HeaderAppendFails? then start else Some(Present(start) + AddedLines(def, prompt, uid, fault));
        Disk(library, compiled)
  }

  /** What a write whose header append succeeds adds: the header, then the
      wrapper unless its append fails. */
  function AddedLines(def: string, prompt: string, uid: string, fault: AppendFault): (r: seq<string>)
    requires ExtractFunctionName(def).Some?
    ensures 1 <= |r| <= 5
  {
    [HeaderLine(def, StripPrompt(prompt), uid)] +
    (if fault.NoAppendFault? then WrapperLines(ExtractFunctionName(def).value) else [])
  }

  /** The write as its clean-up comment intends it: the code goes to a
      temporary `.py` outside the project directory, so the compile step
      never touches the library whatever the function's name. */
  function WriteToLibraryIntended(disk: Disk, def: string, prompt: string, uid: string,
                                  compile: CompileStep, fault: AppendFault): (r: Disk)
    ensures ExtractFunctionName(def).None? || compile.ScriptExtractionFails? ==> r == disk
    ensures |Lines(disk)| <= |Lines(r)| && Lines(r)[..|Lines(disk)|] == Lines(disk)
    ensures r.compiled == WriteToLibrary(disk, def, prompt, uid, compile, fault).compiled
  {
    WriteFrom(disk, def, prompt, uid, compile, fault, disk.library)
  }

  /** The library lines a write keeps: none when the compile step clobbers
      the library, all of them otherwise. */
  function KeptLines(disk: Disk, def: string, compile: CompileStep): (r: seq<string>)
    ensures Clobbers(def, compile) ==> r == []
    ensures !Clobbers(def, compile) ==> r == Lines(disk)
  {
    Present(LibraryBeforeAppends(disk, def, compile))
  }

  // ---------------------------------------------------------------------
  // The readers
  // ---------------------------------------------------------------------

  /** `readFunctionDefinitions` on one line: a line starting with `# def `
      yields the text from index 2 up to the next '#' (or the end). */
  function DefinitionOfLine(line: string): (r: Option<string>)
    ensures r.Some? <==> StartsWith(line, DefPrefix)
    ensures r.Some? ==> StartsWith(r.value, "def ") && '#' !in r.value
  {
    if StartsWith(line, DefPrefix) then
      var stop := match CharIndexFrom(line, '#', 2) case Some(i) => i case None => |line|;
      var d := line[2..stop];
      assert line[2..6] == "def ";
      assert stop >= 6;
      assert d[..4] == line[2..6];
      assert forall k :: 0 <= k < |d| ==> d[k] == line[k + 2];
      Some(d)
    else None
  }

  /** `readFunctionPrompts` on one line containing `# Prompt:`: the trimmed
      text after the first `# Prompt:`, cut at the first `# UID:` if there is
      one. `None` is the `StringIndexOutOfBoundsException` of a `# UID:` that
      starts before the prompt text does. */
  function PromptOfLine(line: string): (r: Option<string>)
    requires Contains(line, PromptMarker)
    ensures r.Some? ==> |r.value| <= |line| - |PromptMarker|
  {
    var promptStart := IndexOf(line, PromptMarker).value + |PromptMarker|;
    match IndexOf(line, UidMarker)
    case Some(uidStart) =>
      if uidStart < promptStart then None
      else Some(Trim(line[promptStart..uidStart]))
    case None => Some(Trim(line[promptStart..]))
  }

  /** `readFunctionUIDs` on one line containing `# UID:`: the trimmed text after the first `# UID:`. */
  function UidOfLine(line: string): (r: string)
    requires Contains(line, UidMarker)
    ensures |r| <= |line| - |UidMarker|
  {
    Trim(line[IndexOf(line, UidMarker).value + |UidMarker|..])
  }

  function DefinitionsOf(lines: seq<string>): (r: seq<string>)
    ensures |r| <= |lines|
    ensures forall k :: 0 <= k < |r| ==> StartsWith(r[k], "def ") && '#' !in r[k]
    decreases |lines|
  {
    if lines == [] then []
    else
      match DefinitionOfLine(lines[0])
      case None => DefinitionsOf(lines[1..])
      case Some(d) => [d] + DefinitionsOf(lines[1..])
  }

  /** The prompt reader's contribution of one line: nothing for a line
      without `# Prompt:`, `None` when the line makes it throw. */
  function PromptEntry(line: string): (r: Option<seq<string>>)
    ensures r.Some? ==> |r.value| <= 1
  {
    if !Contains(line, PromptMarker) then Some([])
    else
      match PromptOfLine(line)
      case None => None
      case Some(p) => Some([p])
  }

  /** Concatenation of two reader results; a throw in either part is a throw. */
  function Then(x: Option<seq<string>>, y: Option<seq<string>>): (r: Option<seq<string>>)
    ensures r.Some? <==> x.Some? && y.Some?
    ensures r.Some? ==> r.value == x.value + y.value
  {
    if x.Some? && y.Some? then Some(x.value + y.value) else None
  }

  function PromptsOf(lines: seq<string>): (r: Option<seq<string>>)
    ensures r.Some? ==> |r.value| <= |lines|
    decreases |lines|
  {
    if lines == [] then Some([]) else Then(PromptEntry(lines[0]), PromptsOf(lines[1..]))
  }

  function UidsOf(lines: seq<string>): (r: seq<string>)
    ensures |r| <= |lines|
    decreases |lines|
  {
    if lines == [] then []
    else if Contains(lines[0], UidMarker) then [UidOfLine(lines[0])] + UidsOf(lines[1..])
    else UidsOf(lines[1..])
  }

  /** `readFunctionDefinitions(project)`. */
  function ReadDefinitions(disk: Disk): (r: seq<string>)
    ensures disk.library.None? ==> r == []
  {
    DefinitionsOf(Lines(disk))
  }

  /** `readFunctionPrompts(project)`; `None` when a line makes it throw. */
  function ReadPrompts(disk: Disk): (r: Option<seq<string>>)
    ensures disk.library.None? ==> r == Some([])
  {
    PromptsOf(Lines(disk))
  }

  /** `readFunctionUIDs(project)`. */
  function ReadUids(disk: Disk): (r: seq<string>)
    ensures disk.library.None? ==> r == []
  {
    UidsOf(Lines(disk))
  }

  // ---------------------------------------------------------------------
  // Reading back what was written
  // ---------------------------------------------------------------------

  /** The head `# ` + def + ` ` holds no marker: its only '#' is the first
      character, and the character after `# ` is the 'd' of `def`. */
  lemma HeadHasNoMarker(def: string, m: string)
    requires StartsWith(def, "def ") && '#' !in def
    requires |m| >= 3 && m[0] == '#' && m[2] != 'd'
    ensures !Contains("# " + def + " ", m)
  {
    var p := "# " + def + " ";
    assert p + "" == p;
    assert p[2] == 'd';
    assert forall k :: 0 < k < |p| ==> p[k] != '#' by {
      assert forall k :: 2 <= k < |p| - 1 ==> p[k] == def[k - 2];
    }
    assert !OccursAt(p, m, 0) by {
      if |m| <= |p| {
        assert p[0..|m|][2] == 'd';
      }
    }
    NotContainsGuarded(p, "", m);
  }

  /** The prompt part ` # Prompt: ` + prompt + ` ` holds no `# UID:` when the prompt holds none. */
  lemma PromptPartHasNoUid(sp: string)
    requires !Contains(sp, UidMarker)
    ensures !Contains("# Prompt: " + sp + " ", UidMarker)
  {
    var tag := "# Prompt: ";
    assert !OccursAt(tag + sp, UidMarker, 0) by {
      assert (tag + sp)[2] == 'P';
    }
    NotContainsGuarded(tag, sp, UidMarker);
    assert tag + sp + " " == (tag + sp) + [' '];
    NotContainsSnoc(tag + sp, ' ', UidMarker);
  }

  /** Where the markers sit in a header line written for a definition that
      starts with `def ` and holds no '#', with a stored prompt free of `# UID:`. */
  lemma HeaderLayout(def: string, sp: string, uid: string)
    requires StartsWith(def, "def ") && '#' !in def && !Contains(sp, UidMarker)
    ensures var a := "# " + def + " ";
            var b := "# Prompt: " + sp + " ";
            var h := HeaderLine(def, sp, uid);
            && h == a + b + ("# UID: " + uid)
            && IndexOf(h, PromptMarker) == Some(|a|)
            && IndexOf(h, UidMarker) == Some(|a| + |b|)
            && CharIndexFrom(h, '#', 2) == Some(|a|)
  {
    var a := "# " + def + " ";
    var b := "# Prompt: " + sp + " ";
    var c := "# UID: " + uid;
    HeaderParts(def, sp, uid);
    PromptMarkerAt(def, b + c);
    UidMarkerAt(def, sp, c);
    HashAfterHead(def, b + c);
  }

  lemma HeaderParts(def: string, sp: string, uid: string)
    ensures HeaderLine(def, sp, uid) == ("# " + def + " ") + ("# Prompt: " + sp + " ") + ("# UID: " + uid)
    ensures HeaderLine(def, sp, uid) == ("# " + def + " ") + (("# Prompt: " + sp + " ") + ("# UID: " + uid))
  {
  }

  /** The prompt marker comes right after the head. */
  lemma PromptMarkerAt(def: string, rest: string)
    requires StartsWith(def, "def ") && '#' !in def && StartsWith(rest, PromptMarker)
    ensures IndexOf(("# " + def + " ") + rest, PromptMarker) == Some(|def| + 3)
  {
    WriterMarkers();
    HeadHasNoMarker(def, PromptMarker);
    IndexOfConcat("# " + def + " ", rest, PromptMarker);
  }

  /** The uid marker comes right after the prompt part. */
  lemma UidMarkerAt(def: string, sp: string, c: string)
    requires StartsWith(def, "def ") && '#' !in def && !Contains(sp, UidMarker) && StartsWith(c, UidMarker)
    ensures var a := "# " + def + " ";
            var b := "# Prompt: " + sp + " ";
            IndexOf(a + b + c, UidMarker) == Some(|a| + |b|)
  {
    WriterMarkers();
    var a := "# " + def + " ";
    var b := "# Prompt: " + sp + " ";
    HeadHasNoMarker(def, UidMarker);
    PromptPartHasNoUid(sp);
    NotContainsAppend(a, b, UidMarker);
    IndexOfConcat(a + b, c, UidMarker);
  }

  lemma HashAfterHead(def: string, rest: string)
    requires '#' !in def && |rest| > 0 && rest[0] == '#'
    ensures CharIndexFrom("# " + def + " " + rest, '#', 2) == Some(|def| + 3)
  {
    var a := "# " + def + " ";
    assert a[2..] == def + " ";
    CharIndexAfter(a, rest, '#', 2);
  }

  /** Each reader gives back its field of a freshly written header: the
      definition with the space before ` # Prompt:`, and the trimmed prompt
      and uid. */
  lemma HeaderRoundTrip(def: string, sp: string, uid: string)
    requires StartsWith(def, "def ") && '#' !in def && !Contains(sp, UidMarker)
    ensures var h := HeaderLine(def, sp, uid);
            && DefinitionOfLine(h) == Some(def + " ")
            && Contains(h, PromptMarker) && PromptOfLine(h) == Some(Trim(sp))
            && Contains(h, UidMarker) && UidOfLine(h) == Trim(uid)
  {
    var b := "# Prompt: " + sp + " ";
    var c := "# UID: " + uid;
    HeaderParts(def, sp, uid);
    HeadDefinitionRead(def, b + c);
    PromptFieldRead(def, sp, uid);
    UidFieldRead(def, sp, uid);
  }

  /** The definition reader takes the head up to the `#` that follows it. */
  lemma HeadDefinitionRead(def: string, rest: string)
    requires StartsWith(def, "def ") && '#' !in def && |rest| > 0 && rest[0] == '#'
    ensures DefinitionOfLine(("# " + def + " ") + rest) == Some(def + " ")
  {
    var a := "# " + def + " ";
    var h := a + rest;
    assert h[..6] == DefPrefix by {
      assert h[..6] == "# " + def[..4];
    }
    HashAfterHead(def, rest);
    assert h[2..|a|] == def + " ";
  }

  /** The prompt reader takes the padded prompt between the two markers. */
  lemma PromptFieldRead(def: string, sp: string, uid: string)
    requires StartsWith(def, "def ") && '#' !in def && !Contains(sp, UidMarker)
    ensures Contains(HeaderLine(def, sp, uid), PromptMarker)
    ensures PromptOfLine(HeaderLine(def, sp, uid)) == Some(Trim(sp))
  {
    HeaderLayout(def, sp, uid);
    var a := "# " + def + " ";
    var c := "# UID: " + uid;
    assert "# Prompt: " + sp + " " == PromptMarker + (" " + sp + " ");
    assert HeaderLine(def, sp, uid) == a + (PromptMarker + (" " + sp + " ")) + c;
    PromptBetweenMarkers(a, sp, c);
  }

  /** With the first prompt marker right after `a` and the first uid marker
      right after the padded prompt, the reader takes the prompt trimmed. */
  lemma PromptBetweenMarkers(a: string, sp: string, c: string)
    requires var h := a + (PromptMarker + (" " + sp + " ")) + c;
             IndexOf(h, PromptMarker) == Some(|a|) &&
             IndexOf(h, UidMarker) == Some(|a| + |PromptMarker| + |sp| + 2)
    ensures Contains(a + (PromptMarker + (" " + sp + " ")) + c, PromptMarker)
    ensures PromptOfLine(a + (PromptMarker + (" " + sp + " ")) + c) == Some(Trim(sp))
  {
    var h := a + (PromptMarker + (" " + sp + " ")) + c;
    assert h[|a| + |PromptMarker|..|a| + |PromptMarker| + |sp| + 2] == " " + sp + " ";
    TrimPadded(sp);
  }

  /** The uid reader takes the padded uid after its marker. */
  lemma UidFieldRead(def: string, sp: string, uid: string)
    requires StartsWith(def, "def ") && '#' !in def && !Contains(sp, UidMarker)
    ensures Contains(HeaderLine(def, sp, uid), UidMarker)
    ensures UidOfLine(HeaderLine(def, sp, uid)) == Trim(uid)
  {
    HeaderLayout(def, sp, uid);
    var x := ("# " + def + " ") + ("# Prompt: " + sp + " ");
    assert "# UID: " + uid == UidMarker + (" " + uid);
    assert HeaderLine(def, sp, uid) == x + (UidMarker + (" " + uid));
    UidAfterMarker(x, uid);
  }

  /** Whatever comes before the first uid marker, the reader takes the rest trimmed. */
  lemma UidAfterMarker(x: string, uid: string)
    requires IndexOf(x + (UidMarker + (" " + uid)), UidMarker) == Some(|x|)
    ensures Contains(x + (UidMarker + (" " + uid)), UidMarker)
    ensures UidOfLine(x + (UidMarker + (" " + uid))) == Trim(uid)
  {
    var h := x + (UidMarker + (" " + uid));
    assert h[|x| + |UidMarker|..] == " " + uid;
    TrimPaddedLeft(uid);
  }

  /** None of the wrapper lines is picked up by a reader when the name holds no '#'. */
  lemma WrapperUnmarked(n: string)
    requires '#' !in n
    ensures forall k :: 0 <= k < 4 ==> Unmarked(WrapperLines(n)[k])
  {
    WriterMarkers();
    var w := WrapperLines(n);
    forall k | 0 <= k < 4 ensures Unmarked(w[k]) {
      assert '#' !in w[k];
      NoFirstCharNoContains(w[k], PromptMarker);
      NoFirstCharNoContains(w[k], UidMarker);
      assert !StartsWith(w[k], DefPrefix) by {
        if |w[k]| >= |DefPrefix| {
          assert w[k][..6][0] == w[k][0] != '#';
        }
      }
    }
  }

  lemma {:induction false} DefinitionsOfConcat(a: seq<string>, b: seq<string>)
    ensures DefinitionsOf(a + b) == DefinitionsOf(a) + DefinitionsOf(b)
    decreases |a|
  {
    if a == [] {
      assert a + b == b;
    } else {
      assert (a + b)[0] == a[0];
      assert (a + b)[1..] == a[1..] + b;
      DefinitionsOfConcat(a[1..], b);
    }
  }

  lemma {:induction false} UidsOfConcat(a: seq<string>, b: seq<string>)
    ensures UidsOf(a + b) == UidsOf(a) + UidsOf(b)
    decreases |a|
  {
    if a == [] {
      assert a + b == b;
    } else {
      assert (a + b)[0] == a[0];
      assert (a + b)[1..] == a[1..] + b;
      UidsOfConcat(a[1..], b);
    }
  }

  /** The prompt reader succeeds on a concatenation exactly when it succeeds
      on both parts, and then reads both parts in order. */
  lemma {:induction false} PromptsOfConcat(a: seq<string>, b: seq<string>)
    ensures PromptsOf(a + b) == Then(PromptsOf(a), PromptsOf(b))
    decreases |a|
  {
    if a == [] {
      assert a + b == b;
      var y: seq<string> := [];
      assert PromptsOf(b).Some? ==> y + PromptsOf(b).value == PromptsOf(b).value;
    } else {
      assert (a + b)[0] == a[0];
      assert (a + b)[1..] == a[1..] + b;
      PromptsOfConcat(a[1..], b);
      var e := PromptEntry(a[0]);
      assert PromptsOf(a + b) == Then(e, PromptsOf(a[1..] + b));
      assert PromptsOf(a) == Then(e, PromptsOf(a[1..]));
      ThenAssociative(e, PromptsOf(a[1..]), PromptsOf(b));
    }
  }

  lemma ThenAssociative(x: Option<seq<string>>, y: Option<seq<string>>, z: Option<seq<string>>)
    ensures Then(x, Then(y, z)) == Then(Then(x, y), z)
  {
    if x.Some? && y.Some? && z.Some? {
      assert x.value + (y.value + z.value) == (x.value + y.value) + z.value;
    }
  }

  /** Appending a complete record adds exactly one entry to each reader's
      list, and the entry is the field that was written. A failing wrapper
      append leaves the header alone, which reads the same. A failing
      header append leaves everything the readers see unchanged. All of
      this is on top of the library as it was, except when the function is
      named after the library module and an SDK is present: then the old
      records are gone and only the new one reads back. */
  lemma WriteRoundTrip(disk: Disk, def: string, prompt: string, uid: string, compile: CompileStep, fault: AppendFault)
    requires StartsWith(def, "def ") && '#' !in def && !Contains(StripPrompt(prompt), UidMarker)
    requires ExtractFunctionName(def).Some? && !compile.ScriptExtractionFails?
    ensures var r := WriteToLibrary(disk, def, prompt, uid, compile, fault);
            fault.HeaderAppendFails? ==> Lines(r) == KeptLines(disk, def, compile)
    ensures var r := WriteToLibrary(disk, def, prompt, uid, compile, fault);
            !fault.HeaderAppendFails? && !Clobbers(def, compile) ==>
              && ReadDefinitions(r) == ReadDefinitions(disk) + [def + " "]
              && ReadUids(r) == ReadUids(disk) + [Trim(uid)]
              && ReadPrompts(r) == Then(ReadPrompts(disk), Some([Trim(StripPrompt(prompt))]))
    ensures var r := WriteToLibrary(disk, def, prompt, uid, compile, fault);
            !fault.HeaderAppendFails? && Clobbers(def, compile) ==>
              && ReadDefinitions(r) == [def + " "]
              && ReadUids(r) == [Trim(uid)]
              && ReadPrompts(r) == Some([Trim(StripPrompt(prompt))])
  {
    var sp := StripPrompt(prompt);
    var name := ExtractFunctionName(def).value;
    var before := KeptLines(disk, def, compile);
    if !fault.HeaderAppendFails? {
      var added := RecordRead(def, sp, uid, name, fault.NoAppendFault?);
      AppendedLines(disk, def, prompt, uid, compile, fault);
      if Clobbers(def, compile) {
        assert before + added == added;
      } else {
        DefinitionsOfConcat(before, added);
        UidsOfConcat(before, added);
        PromptsOfConcat(before, added);
      }
    }
  }

  /** The lines after a write whose header append succeeds: the kept lines
      (all the old ones unless the compile step clobbered the library), the
      header, and the wrapper unless its append fails. */
  lemma AppendedLines(disk: Disk, def: string, prompt: string, uid: string, compile: CompileStep, fault: AppendFault)
    requires ExtractFunctionName(def).Some? && !compile.ScriptExtractionFails? && !fault.HeaderAppendFails?
    ensures Lines(WriteToLibrary(disk, def, prompt, uid, compile, fault)) ==
            KeptLines(disk, def, compile) + ([HeaderLine(def, StripPrompt(prompt), uid)] +
                           (if fault.NoAppendFault? then WrapperLines(ExtractFunctionName(def).value) else []))
  {
  }

  /** A function named after the library module, written with an SDK
      present, destroys every record already in the library: the old
      definitions do not read back after the write. */
  lemma WriteClobbersLibrary(disk: Disk, def: string, prompt: string, uid: string, produced: bool)
    requires StartsWith(def, "def ") && '#' !in def && !Contains(StripPrompt(prompt), UidMarker)
    requires ExtractFunctionName(def) == Some(LibraryModule) && ReadDefinitions(disk) != []
    ensures var r := WriteToLibrary(disk, def, prompt, uid, Compiled(produced), NoAppendFault);
            ReadDefinitions(r) == [def + " "] && ReadDefinitions(r) != ReadDefinitions(disk) + [def + " "]
  {
    WriteRoundTrip(disk, def, prompt, uid, Compiled(produced), NoAppendFault);
  }

  /** Under the intended write every earlier record still reads back, and
      the new record's fields follow them, whatever the function's name. */
  lemma IntendedWriteKeepsRecords(disk: Disk, def: string, prompt: string, uid: string,
                                  compile: CompileStep, fault: AppendFault)
    requires StartsWith(def, "def ") && '#' !in def && !Contains(StripPrompt(prompt), UidMarker)
    requires ExtractFunctionName(def).Some? && !compile.ScriptExtractionFails? && !fault.HeaderAppendFails?
    ensures var r := WriteToLibraryIntended(disk, def, prompt, uid, compile, fault);
            && ReadDefinitions(r) == ReadDefinitions(disk) + [def + " "]
            && ReadUids(r) == ReadUids(disk) + [Trim(uid)]
            && ReadPrompts(r) == Then(ReadPrompts(disk), Some([Trim(StripPrompt(prompt))]))
  {
    var sp := StripPrompt(prompt);
    var name := ExtractFunctionName(def).value;
    var before := Lines(disk);
    var added := RecordRead(def, sp, uid, name, fault.NoAppendFault?);
    assert Lines(WriteToLibraryIntended(disk, def, prompt, uid, compile, fault)) == before + added;
    DefinitionsOfConcat(before, added);
    UidsOfConcat(before, added);
    PromptsOfConcat(before, added);
  }

  /** The readers on one header line that each of them picks up. */
  lemma FullHeaderRead(h: string, d: string, p: string, u: string)
    requires DefinitionOfLine(h) == Some(d)
    requires Contains(h, PromptMarker) && PromptOfLine(h) == Some(p)
    requires Contains(h, UidMarker) && UidOfLine(h) == u
    ensures DefinitionsOf([h]) == [d] && UidsOf([h]) == [u] && PromptsOf([h]) == Some([p])
  {
    var none: seq<string> := [];
    assert [h][1..] == none;
    assert PromptEntry(h) == Some([p]);
    assert PromptsOf(none) == Some(none);
    assert [p] + none == [p];
  }

  /** The readers on the appended lines alone: one entry each. */
  lemma RecordRead(def: string, sp: string, uid: string, name: string, withWrapper: bool) returns (added: seq<string>)
    requires StartsWith(def, "def ") && '#' !in def && !Contains(sp, UidMarker)
    requires ExtractFunctionName(def) == Some(name)
    ensures added == [HeaderLine(def, sp, uid)] + (if withWrapper then WrapperLines(name) else [])
    ensures DefinitionsOf(added) == [def + " "]
    ensures UidsOf(added) == [Trim(uid)]
    ensures PromptsOf(added) == Some([Trim(sp)])
  {
    var header := HeaderLine(def, sp, uid);
    HeaderRoundTrip(def, sp, uid);
    var single := [header];
    FullHeaderRead(header, def + " ", Trim(sp), Trim(uid));
    var tail: seq<string> := if withWrapper then WrapperLines(name) else [];
    added := single + tail;
    if withWrapper {
      ExtractKeepsOut(def, '#');
      WrapperUnmarked(name);
    }
    UnmarkedInvisible(tail);
    DefinitionsOfConcat(single, tail);
    UidsOfConcat(single, tail);
    PromptsOfConcat(single, tail);
  }

  // ---------------------------------------------------------------------
  // Index alignment of the three readers
  // ---------------------------------------------------------------------

  /** A header every reader picks up and the prompt reader can cut. */
  predicate FullHeader(line: string) {
    && StartsWith(line, DefPrefix)
    && Contains(line, PromptMarker) && Contains(line, UidMarker)
    && PromptOfLine(line).Some?
  }

  /** A line no reader picks up. */
  predicate Unmarked(line: string) {
    !StartsWith(line, DefPrefix) && !Contains(line, PromptMarker) && !Contains(line, UidMarker)
  }

  /** Every line is either a full header or invisible to all three readers. */
  predicate Aligned(lines: seq<string>) {
    forall k :: 0 <= k < |lines| ==> FullHeader(lines[k]) || Unmarked(lines[k])
  }

  lemma {:induction false} UnmarkedInvisible(lines: seq<string>)
    requires forall k :: 0 <= k < |lines| ==> Unmarked(lines[k])
    ensures DefinitionsOf(lines) == [] && UidsOf(lines) == [] && PromptsOf(lines) == Some([])
    decreases |lines|
  {
    if lines != [] {
      UnmarkedInvisible(lines[1..]);
    }
  }

  /** The full header lines, in file order. */
  function HeadersOf(lines: seq<string>): (r: seq<string>)
    ensures forall i :: 0 <= i < |r| ==> FullHeader(r[i]) && r[i] in lines
    decreases |lines|
  {
    if lines == [] then []
    else if FullHeader(lines[0]) then [lines[0]] + HeadersOf(lines[1..])
    else HeadersOf(lines[1..])
  }

  /** Entry i of every reader comes from the i-th header line. */
  predicate ReadsHeaders(headers: seq<string>, defs: seq<string>, prompts: seq<string>, uids: seq<string>) {
    && |defs| == |headers| && |prompts| == |headers| && |uids| == |headers|
    && forall i :: 0 <= i < |headers| ==> ReadsHeader(headers[i], defs[i], prompts[i], uids[i])
  }

  /** The definition, prompt and uid readers take `d`, `p` and `u` from `h`. */
  predicate ReadsHeader(h: string, d: string, p: string, u: string) {
    && DefinitionOfLine(h) == Some(d)
    && PromptEntry(h) == Some([p])
    && Contains(h, UidMarker) && UidOfLine(h) == u
  }

  /** Prepending a header to lists that read the rest keeps them aligned. */
  lemma ReadsHeadersCons(h: string, headers: seq<string>, d: string, defs: seq<string>,
                         p: string, prompts: seq<string>, u: string, uids: seq<string>)
    requires ReadsHeader(h, d, p, u) && ReadsHeaders(headers, defs, prompts, uids)
    ensures ReadsHeaders([h] + headers, [d] + defs, [p] + prompts, [u] + uids)
  {
    PointwiseCons(ReadsHeader, h, headers, d, defs, p, prompts, u, uids);
  }

  /** A relation that holds entry by entry still does after prepending
      one more related entry to each list. */
  lemma PointwiseCons<A>(rel: (A, A, A, A) -> bool, h: A, hs: seq<A>, d: A, ds: seq<A>,
                         p: A, ps: seq<A>, u: A, us: seq<A>)
    requires |ds| == |hs| && |ps| == |hs| && |us| == |hs|
    requires rel(h, d, p, u) && forall i :: 0 <= i < |hs| ==> rel(hs[i], ds[i], ps[i], us[i])
    ensures forall i :: 0 <= i < |hs| + 1 ==> rel(([h] + hs)[i], ([d] + ds)[i], ([p] + ps)[i], ([u] + us)[i])
  {
    forall i | 1 <= i < |hs| + 1 ensures rel(([h] + hs)[i], ([d] + ds)[i], ([p] + ps)[i], ([u] + us)[i]) {
      assert ([h] + hs)[i] == hs[i - 1] && ([d] + ds)[i] == ds[i - 1];
      assert ([p] + ps)[i] == ps[i - 1] && ([u] + us)[i] == us[i - 1];
    }
  }

  /** On aligned lines the three readers produce lists of equal length, and
      entry i of each is read from the same line: the i-th header. */
  lemma {:induction false} AlignedReaders(lines: seq<string>)
    requires Aligned(lines)
    ensures PromptsOf(lines).Some?
    ensures |DefinitionsOf(lines)| == |PromptsOf(lines).value| == |UidsOf(lines)|
    ensures ReadsHeaders(HeadersOf(lines), DefinitionsOf(lines), PromptsOf(lines).value, UidsOf(lines))
    decreases |lines|
  {
    if lines != [] {
      var rest := lines[1..];
      AlignedTail(lines);
      AlignedReaders(rest);
      var h := lines[0];
      if FullHeader(h) {
        HeaderReadsItself(h);
        ReadsHeadersCons(h, HeadersOf(rest), DefinitionOfLine(h).value, DefinitionsOf(rest),
                         PromptOfLine(h).value, PromptsOf(rest).value, UidOfLine(h), UidsOf(rest));
      }
    }
  }

  lemma AlignedTail(lines: seq<string>)
    requires lines != [] && Aligned(lines)
    ensures Aligned(lines[1..])
  {
    var rest := lines[1..];
    forall k | 0 <= k < |rest| ensures FullHeader(rest[k]) || Unmarked(rest[k]) {
      assert rest[k] == lines[k + 1];
    }
  }

  /** A full header supplies one entry to each reader. */
  lemma HeaderReadsItself(h: string)
    requires FullHeader(h)
    ensures ReadsHeader(h, DefinitionOfLine(h).value, PromptOfLine(h).value, UidOfLine(h))
  {
  }

  /** Without alignment the lists drift apart: a prompt comment on a line
      that is not a `# def ` header is read as a prompt but as no definition. */
  lemma StrayPromptMisaligns(line: string)
    requires !StartsWith(line, DefPrefix) && Contains(line, PromptMarker) && PromptOfLine(line).Some?
    ensures DefinitionsOf([line]) == [] && PromptsOf([line]) == Some([PromptOfLine(line).value])
  {
    var none: seq<string> := [];
    assert [line][1..] == none;
    assert PromptsOf(none) == Some(none);
    assert [PromptOfLine(line).value] + none == [PromptOfLine(line).value];
  }

  /** Likewise a `# def ` header without `# UID:` is read as a definition but as no uid. */
  lemma HeaderWithoutUidMisaligns(line: string)
    requires StartsWith(line, DefPrefix) && !Contains(line, UidMarker)
    ensures |DefinitionsOf([line])| == 1 && UidsOf([line]) == []
  {
    assert [line][1..] == [];
  }

  /** Aligned pieces make an aligned whole. */
  lemma AlignedConcat(a: seq<string>, b: seq<string>)
    requires Aligned(a) && Aligned(b)
    ensures Aligned(a + b)
  {
    forall k | 0 <= k < |a + b| ensures FullHeader((a + b)[k]) || Unmarked((a + b)[k]) {
      if k < |a| {
        assert (a + b)[k] == a[k];
      } else {
        assert (a + b)[k] == b[k - |a|];
      }
    }
  }

  /** A written header is picked up by every reader. */
  lemma HeaderIsFull(def: string, sp: string, uid: string)
    requires StartsWith(def, "def ") && '#' !in def && !Contains(sp, UidMarker)
    ensures FullHeader(HeaderLine(def, sp, uid))
  {
    HeaderParts(def, sp, uid);
    HeadDefinitionRead(def, ("# Prompt: " + sp + " ") + ("# UID: " + uid));
    PromptFieldRead(def, sp, uid);
    UidFieldRead(def, sp, uid);
  }

  /** The appended lines on their own are aligned. */
  lemma AddedAligned(def: string, sp: string, uid: string, name: string, withWrapper: bool)
    requires StartsWith(def, "def ") && '#' !in def && !Contains(sp, UidMarker) && '#' !in name
    ensures Aligned([HeaderLine(def, sp, uid)] + (if withWrapper then WrapperLines(name) else []))
  {
    var header := [HeaderLine(def, sp, uid)];
    HeaderIsFull(def, sp, uid);
    assert Aligned(header);
    var tail: seq<string> := if withWrapper then WrapperLines(name) else [];
    if withWrapper {
      WrapperUnmarked(name);
    }
    assert Aligned(tail);
    AlignedConcat(header, tail);
  }

  /** Writing a record keeps a library aligned, whichever append fails. */
  lemma WriteKeepsAligned(disk: Disk, def: string, prompt: string, uid: string,
                          compile: CompileStep, fault: AppendFault)
    requires Aligned(Lines(disk))
    requires StartsWith(def, "def ") && '#' !in def && !Contains(StripPrompt(prompt), UidMarker)
    ensures Aligned(Lines(WriteToLibrary(disk, def, prompt, uid, compile, fault)))
  {
    if ExtractFunctionName(def).Some? && !compile.ScriptExtractionFails? {
      if fault.HeaderAppendFails? {
        assert Aligned(KeptLines(disk, def, compile));
      } else {
        var name := ExtractFunctionName(def).value;
        AppendedLines(disk, def, prompt, uid, compile, fault);
        ExtractKeepsOut(def, '#');
        AddedAligned(def, StripPrompt(prompt), uid, name, fault.NoAppendFault?);
        AlignedConcat(KeptLines(disk, def, compile), [HeaderLine(def, StripPrompt(prompt), uid)] +
                                                     (if fault.NoAppendFault? then WrapperLines(name) else []));
      }
    }
  }
}

=== FILE: java_strings.dfy ===
/** The few pieces of java.lang.String that the plugin relies on, over
    `seq<char>`: `trim`, `startsWith`, `indexOf`, `contains`, single-character
    `replace`, and `split` with a literal separator or with the regex `\s+`. */
module JavaStrings {
  import opened Base

  /** `String.trim` strips every character at or below U+0020 from both ends. */
  predicate IsTrimmable(c: char) {
    c <= ' '
  }

  /** The characters of the regex class `\s`: space, tab, line feed,
      vertical tab, form feed and carriage return. */
  predicate IsRegexSpace(c: char) {
    c == ' ' || c == '\t' || c == '\n' || c == '\U{000B}' || c == '\U{000C}' || c == '\r'
  }

  predicate StartsWith(s: string, p: string) {
    |p| <= |s| && s[..|p|] == p
  }

  /** `p` occurs in `s` starting at index `i`. */
  predicate OccursAt(s: string, p: string, i: int) {
    0 <= i && i + |p| <= |s| && s[i..i + |p|] == p
  }

  /** `String.indexOf(p, from)`: the first occurrence at or after `from`;
      `None` stands for Java's -1. */
  function IndexFrom(s: string, p: string, from: nat): (r: Option<nat>)
    ensures r.Some? ==> from <= r.value && OccursAt(s, p, r.value)
    ensures r.Some? ==> forall j :: from <= j < r.value ==> !OccursAt(s, p, j)
    ensures r.None? ==> forall j :: from <= j ==> !OccursAt(s, p, j)
    decreases |s| - from
  {
    if from + |p| > |s| then None
    else if s[from..from + |p|] == p then Some(from)
    else IndexFrom(s, p, from + 1)
  }

  /** `String.indexOf(p)`. */
  function IndexOf(s: string, p: string): Option<nat> {
    IndexFrom(s, p, 0)
  }

  /** `String.contains(p)`. */
  predicate Contains(s: string, p: string) {
    IndexOf(s, p).Some?
  }

  lemma ContainsIff(s: string, p: string)
    ensures Contains(s, p) <==> exists i :: OccursAt(s, p, i)
  {
    if !Contains(s, p) {
      forall i ensures !OccursAt(s, p, i) {
        if i >= 0 { assert !OccursAt(s, p, i); }
      }
    }
  }

  lemma NotContains(s: string, p: string, i: int)
    requires !Contains(s, p)
    ensures !OccursAt(s, p, i)
  {
    ContainsIff(s, p);
  }

  lemma OccursGivesContains(s: string, p: string, i: int)
    requires OccursAt(s, p, i)
    ensures Contains(s, p)
  {
    ContainsIff(s, p);
  }

  /** A text contains every piece it is built from. */
  lemma ContainsInMiddle(a: string, p: string, b: string)
    ensures Contains(a + p + b, p)
  {
    assert OccursAt(a + p + b, p, |a|) by {
      assert (a + p + b)[|a|..|a| + |p|] == p;
    }
    OccursGivesContains(a + p + b, p, |a|);
  }

  /** An occurrence in one half of a concatenation is an occurrence in the whole. */
  lemma OccursInConcat(x: string, y: string, p: string, j: int)
    ensures j >= |x| ==> (OccursAt(x + y, p, j) <==> OccursAt(y, p, j - |x|))
    ensures j + |p| <= |x| ==> (OccursAt(x + y, p, j) <==> OccursAt(x, p, j))
  {
    if j >= |x| && j + |p| <= |x| + |y| {
      assert (x + y)[j..j + |p|] == y[j - |x|..j - |x| + |p|];
    }
    if 0 <= j && j + |p| <= |x| {
      assert (x + y)[j..j + |p|] == x[j..j + |p|];
    }
  }

  /** A separator whose first character does not recur in it cannot overlap
      itself; all the comment markers of the plugin ("# Start", "# End",
      "# Prompt:", "# UID:") and every one-character separator are like this. */
  predicate FirstUnique(sep: string) {
    |sep| > 0 && forall k :: 0 < k < |sep| ==> sep[k] != sep[0]
  }

  /** A string without the first character of `p` cannot contain `p`. */
  lemma NoFirstCharNoContains(s: string, p: string)
    requires |p| > 0 && p[0] !in s
    ensures !Contains(s, p)
  {
    forall i | 0 <= i && i + |p| <= |s| ensures !OccursAt(s, p, i) {
      assert s[i..i + |p|][0] == s[i];
    }
    ContainsIff(s, p);
  }

  /** When `y` begins with the first character of a self-non-overlapping
      separator and `x` does not contain it, no occurrence starts inside `x`. */
  lemma NoOccurrenceBefore(x: string, y: string, sep: string)
    requires FirstUnique(sep) && !Contains(x, sep)
    requires |y| > 0 && y[0] == sep[0]
    ensures forall j :: j < |x| ==> !OccursAt(x + y, sep, j)
  {
    forall j | j < |x| ensures !OccursAt(x + y, sep, j) {
      if j + |sep| <= |x| {
        OccursInConcat(x, y, sep, j);
        NotContains(x, sep, j);
      } else if 0 <= j {
        var t := |x| - j;
        assert 0 < t < |sep| && sep[t] != sep[0];
        assert (x + y)[j + t] == y[0];
      }
    }
  }

  /** The first occurrence of `sep` in `x + sep + ...` is right after `x`. */
  lemma IndexOfConcat(x: string, y: string, sep: string)
    requires FirstUnique(sep) && !Contains(x, sep) && StartsWith(y, sep)
    ensures IndexOf(x + y, sep) == Some(|x|)
  {
    NoOccurrenceBefore(x, y, sep);
    OccursInConcat(x, y, sep, |x|);
    assert y[0..|sep|] == sep;
    assert OccursAt(x + y, sep, |x|);
  }

  /** Same situation, but `y` only begins with the separator's first character. */
  lemma IndexOfNotBefore(x: string, y: string, sep: string)
    requires FirstUnique(sep) && !Contains(x, sep)
    requires |y| > 0 && y[0] == sep[0]
    ensures IndexOf(x + y, sep).Some? ==> IndexOf(x + y, sep).value >= |x|
  {
    NoOccurrenceBefore(x, y, sep);
  }

  /** A one-character pattern occurs exactly when the character does. */
  lemma ContainsChar(s: string, c: char)
    ensures Contains(s, [c]) <==> c in s
  {
    ContainsIff(s, [c]);
    if c in s {
      var i :| 0 <= i < |s| && s[i] == c;
      assert OccursAt(s, [c], i);
    } else {
      forall i ensures !OccursAt(s, [c], i) {
        if 0 <= i < |s| {
          assert s[i..i + 1][0] == s[i];
        }
      }
    }
  }

  /** The first occurrence at or after `from` is determined by its characterisation. */
  lemma IndexFromIs(s: string, p: string, from: nat, i: nat)
    requires from <= i && OccursAt(s, p, i)
    requires forall j :: from <= j < i ==> !OccursAt(s, p, j)
    ensures IndexFrom(s, p, from) == Some(i)
  {
  }

  /** Gluing on a piece that starts like the separator creates no new occurrence. */
  lemma NotContainsAppend(a: string, b: string, sep: string)
    requires FirstUnique(sep) && !Contains(a, sep) && !Contains(b, sep)
    requires |b| > 0 && b[0] == sep[0]
    ensures !Contains(a + b, sep)
  {
    NoOccurrenceBefore(a, b, sep);
    forall j ensures !OccursAt(a + b, sep, j) {
      if j >= |a| {
        OccursInConcat(a, b, sep, j);
        NotContains(b, sep, j - |a|);
      }
    }
    ContainsIff(a + b, sep);
  }

  /** Appending a character that cannot end the separator creates no occurrence. */
  lemma NotContainsSnoc(a: string, c: char, sep: string)
    requires |sep| > 0 && !Contains(a, sep) && c != sep[|sep| - 1]
    ensures !Contains(a + [c], sep)
  {
    forall j ensures !OccursAt(a + [c], sep, j) {
      if 0 <= j && j + |sep| <= |a| {
        OccursInConcat(a, [c], sep, j);
        NotContains(a, sep, j);
      } else if 0 <= j && j + |sep| == |a| + 1 {
        assert (a + [c])[j..j + |sep|][|sep| - 1] == c;
      }
    }
    ContainsIff(a + [c], sep);
  }

  /** A prefix whose only possible start of the separator is its first
      character, and which does not start the separator there, creates no
      occurrence in front of a separator-free text. */
  lemma NotContainsGuarded(p: string, s: string, sep: string)
    requires |sep| > 0 && |p| > 0 && !Contains(s, sep) && !OccursAt(p + s, sep, 0)
    requires forall k :: 0 < k < |p| ==> p[k] != sep[0]
    ensures !Contains(p + s, sep)
  {
    forall j ensures !OccursAt(p + s, sep, j) {
      if j >= |p| {
        OccursInConcat(p, s, sep, j);
        NotContains(s, sep, j - |p|);
      } else if 0 < j && j + |sep| <= |p + s| {
        assert (p + s)[j..j + |sep|][0] == p[j];
      }
    }
    ContainsIff(p + s, sep);
  }

  /** A pattern with a character the text lacks does not occur in it. */
  lemma MissingCharNoContains(s: string, p: string, i: nat)
    requires i < |p| && p[i] !in s
    ensures !Contains(s, p)
  {
    forall j ensures !OccursAt(s, p, j) {
      if 0 <= j && j + |p| <= |s| {
        assert s[j..j + |p|][i] == s[j + i];
      }
    }
    ContainsIff(s, p);
  }

  /** The text before the first occurrence of `sep`, or all of `s`. */
  function Before(s: string, sep: string): string {
    match IndexOf(s, sep)
    case None => s
    case Some(i) => s[..i]
  }

  /** Prefixes of `s` that end before the first occurrence do not contain it. */
  lemma PrefixBeforeFirst(s: string, sep: string, i: nat)
    requires |sep| > 0 && IndexOf(s, sep) == Some(i)
    ensures !Contains(s[..i], sep)
  {
    if Contains(s[..i], sep) {
      var j := IndexOf(s[..i], sep).value;
      assert s[..i][j..j + |sep|] == s[j..j + |sep|];
      assert OccursAt(s, sep, j);
    }
  }

  /** `String.join(sep, parts)`. */
  function Join(parts: seq<string>, sep: string): string
    decreases |parts|
  {
    if |parts| == 0 then ""
    else if |parts| == 1 then parts[0]
    else parts[0] + sep + Join(parts[1..], sep)
  }

  /** Every piece between consecutive leftmost non-overlapping occurrences of
      a literal separator, including empty pieces at both ends. This is what a
      Java regex split with a literal pattern finds before it discards
      trailing empty pieces. */
  function Segments(s: string, sep: string): (r: seq<string>)
    requires |sep| > 0
    ensures |r| >= 1 && r[0] == Before(s, sep)
    ensures forall k :: 0 <= k < |r| ==> !Contains(r[k], sep)
    ensures Join(r, sep) == s
    decreases |s|
  {
    match IndexOf(s, sep)
    case None => [s]
    case Some(i) =>
      PrefixBeforeFirst(s, sep, i);
      var rest := Segments(s[i + |sep|..], sep);
      var r := [s[..i]] + rest;
      assert r[1..] == rest;
      assert s == s[..i] + sep + s[i + |sep|..] by {
        assert s[i..i + |sep|] == sep;
      }
      r
  }

  /** Every character of a piece comes from the split string. */
  lemma {:induction false} SegmentsChars(s: string, sep: string)
    requires |sep| > 0
    ensures forall k, i :: 0 <= k < |Segments(s, sep)| && 0 <= i < |Segments(s, sep)[k]| ==> Segments(s, sep)[k][i] in s
    decreases |s|
  {
    var r := Segments(s, sep);
    match IndexOf(s, sep)
    case None =>
    case Some(i) =>
      var rest := Segments(s[i + |sep|..], sep);
      assert r == [s[..i]] + rest;
      SegmentsChars(s[i + |sep|..], sep);
      forall k, j | 0 <= k < |r| && 0 <= j < |r[k]| ensures r[k][j] in s {
        if k == 0 {
          assert r[k][j] == s[j];
        } else {
          assert r[k] == rest[k - 1];
          SuffixChar(s, i + |sep|, r[k][j]);
        }
      }
  }

  /** Joining the segments back with the separator is the inverse of
      cutting: when no part contains a self-non-overlapping separator,
      the segments of the joined text are the parts again. */
  lemma {:induction false} SegmentsOfJoin(parts: seq<string>, sep: string)
    requires FirstUnique(sep) && |parts| >= 1
    requires forall k :: 0 <= k < |parts| ==> !Contains(parts[k], sep)
    ensures Segments(Join(parts, sep), sep) == parts
    decreases |parts|
  {
    if |parts| == 1 {
    } else {
      var head := parts[0];
      var rest := Join(parts[1..], sep);
      var s := head + (sep + rest);
      assert Join(parts, sep) == s;
      IndexOfConcat(head, sep + rest, sep);
      assert s[..|head|] == head;
      assert s[|head| + |sep|..] == rest;
      assert Segments(s, sep) == [head] + Segments(rest, sep);
      SegmentsOfJoin(parts[1..], sep);
      assert parts == [head] + parts[1..];
    }
  }

  /** Java's `split` discards the empty strings at the end of the result. */
  function DropTrailingEmpty(x: seq<string>): (r: seq<string>)
    ensures |r| <= |x| && r == x[..|r|]
    ensures |r| > 0 ==> r[|r| - 1] != ""
    ensures forall k :: |r| <= k < |x| ==> x[k] == ""
    decreases |x|
  {
    if |x| > 0 && x[|x| - 1] == "" then DropTrailingEmpty(x[..|x| - 1]) else x
  }

  /** `s.split(sep)` for a literal separator: a leading empty piece is kept,
      trailing empty pieces are dropped, and a string without any match comes
      back as the one-element array `[s]` (so `"".split(sep)` has length 1). */
  function Split(s: string, sep: string): (r: seq<string>)
    requires |sep| > 0
    ensures |r| <= |Segments(s, sep)| && r == Segments(s, sep)[..|r|]
    ensures forall k :: |r| <= k < |Segments(s, sep)| ==> Segments(s, sep)[k] == ""
    ensures !Contains(s, sep) ==> r == [s]
    ensures Contains(s, sep) && |r| > 0 ==> r[|r| - 1] != ""
  {
    if !Contains(s, sep) then [s] else DropTrailingEmpty(Segments(s, sep))
  }

  /** Every piece of a text made only of separator characters is empty. */
  lemma {:induction false} SegmentsOfSeparators(s: string, c: char)
    requires forall k :: 0 <= k < |s| ==> s[k] == c
    ensures forall k :: 0 <= k < |Segments(s, [c])| ==> Segments(s, [c])[k] == ""
    decreases |s|
  {
    if s != "" {
      assert OccursAt(s, [c], 0);
      IndexFromIs(s, [c], 0, 0);
      SegmentsOfSeparators(s[1..], c);
      assert Segments(s, [c]) == [""] + Segments(s[1..], [c]);
    }
  }

  /** Joining empty pieces leaves only separator characters. */
  lemma {:induction false} JoinOfEmpty(parts: seq<string>, c: char)
    requires forall k :: 0 <= k < |parts| ==> parts[k] == ""
    ensures forall k :: 0 <= k < |Join(parts, [c])| ==> Join(parts, [c])[k] == c
    decreases |parts|
  {
    if |parts| > 1 {
      JoinOfEmpty(parts[1..], c);
      assert Join(parts, [c]) == [c] + Join(parts[1..], [c]);
    }
  }

  lemma {:induction false} DropAllEmpty(x: seq<string>)
    requires forall k :: 0 <= k < |x| ==> x[k] == ""
    ensures DropTrailingEmpty(x) == []
    decreases |x|
  {
    if |x| > 0 {
      DropAllEmpty(x[..|x| - 1]);
    }
  }

  /** `s.split(c)` has no element exactly when `s` is a non-empty run of
      `c`: indexing its first element then throws. */
  lemma SplitToNothing(s: string, c: char)
    ensures |Split(s, [c])| == 0 <==> s != "" && forall k :: 0 <= k < |s| ==> s[k] == c
  {
    var segs := Segments(s, [c]);
    if s != "" && forall k :: 0 <= k < |s| ==> s[k] == c {
      SegmentsOfSeparators(s, c);
      assert OccursAt(s, [c], 0);
      OccursGivesContains(s, [c], 0);
      DropAllEmpty(segs);
    }
    if |Split(s, [c])| == 0 {
      JoinOfEmpty(segs, c);
    }
  }

  /** A split keeps its first piece whenever that piece is not empty. */
  lemma SplitFirst(s: string, sep: string)
    requires |sep| > 0 && Before(s, sep) != ""
    ensures |Split(s, sep)| >= 1 && Split(s, sep)[0] == Before(s, sep)
  {
  }

  /** `Trim` removes the trimmable prefix. */
  function TrimStart(s: string): (r: string)
    ensures |r| <= |s| && r == s[|s| - |r|..]
    ensures forall k :: 0 <= k < |s| - |r| ==> IsTrimmable(s[k])
    ensures r == "" || !IsTrimmable(r[0])
    decreases |s|
  {
    if |s| > 0 && IsTrimmable(s[0]) then TrimStart(s[1..]) else s
  }

  /** `Trim` removes the trimmable suffix. */
  function TrimEnd(s: string): (r: string)
    ensures |r| <= |s| && r == s[..|r|]
    ensures forall k :: |r| <= k < |s| ==> IsTrimmable(s[k])
    ensures r == "" || !IsTrimmable(r[|r| - 1])
    decreases |s|
  {
    if |s| > 0 && IsTrimmable(s[|s| - 1]) then TrimEnd(s[..|s| - 1]) else s
  }

  /** `String.trim`: the slice of `s` left after dropping trimmable
      characters at both ends. */
  function Trim(s: string): (r: string)
    ensures |r| <= |s|
    ensures r == "" || (!IsTrimmable(r[0]) && !IsTrimmable(r[|r| - 1]))
  {
    TrimEnd(TrimStart(s))
  }

  lemma {:induction false} TrimStartConcat(a: string, b: string)
    ensures TrimStart(a + b) == if TrimStart(a) == "" then TrimStart(b) else TrimStart(a) + b
    decreases |a|
  {
    if a == "" {
      assert a + b == b;
    } else if IsTrimmable(a[0]) {
      assert (a + b)[1..] == a[1..] + b;
      TrimStartConcat(a[1..], b);
    }
  }

  /** Trimming ignores one extra space on each side. */
  lemma TrimPadded(x: string)
    ensures Trim(" " + x + " ") == Trim(x)
  {
    assert " " + x + " " == " " + (x + " ");
    TrimStartSpace(x + " ");
    TrimStartConcat(x, " ");
    assert TrimStart(" ") == "" by {
      TrimStartSpace("");
    }
    var y := TrimStart(x);
    if y != "" {
      TrimEndSpace(y);
    }
  }

  /** A leading space is trimmed away. */
  lemma TrimStartSpace(x: string)
    ensures TrimStart(" " + x) == TrimStart(x)
  {
    assert (" " + x)[1..] == x;
  }

  /** A trailing space is trimmed away. */
  lemma TrimEndSpace(y: string)
    ensures TrimEnd(y + " ") == TrimEnd(y)
  {
    assert (y + " ")[..|y|] == y;
  }

  /** Trimming ignores one extra space in front. */
  lemma TrimPaddedLeft(x: string)
    ensures Trim(" " + x) == Trim(x)
  {
    TrimStartSpace(x);
  }

  /** `Trim` of a string that holds a non-trimmable character is not empty. */
  lemma TrimKeepsVisible(s: string, k: nat)
    requires k < |s| && !IsTrimmable(s[k])
    ensures Trim(s) != ""
  {
    var a := TrimStart(s);
    assert k >= |s| - |a|;
    assert a[k - (|s| - |a|)] == s[k];
  }

  /** Trimming strips any run of control characters and spaces on both
      sides of a text whose own ends are visible. */
  lemma TrimAround(a: string, x: string, b: string)
    requires forall k :: 0 <= k < |a| ==> IsTrimmable(a[k])
    requires forall k :: 0 <= k < |b| ==> IsTrimmable(b[k])
    requires x != "" && !IsTrimmable(x[0]) && !IsTrimmable(x[|x| - 1])
    ensures Trim(a + x + b) == x
  {
    assert a + x + b == a + (x + b);
    TrimStartDropsRun(a, x + b);
    TrimEndDropsRun(x, b);
  }

  /** `TrimStart` drops a leading run of trimmable characters up to a visible one. */
  lemma {:induction false} TrimStartDropsRun(a: string, y: string)
    requires forall k :: 0 <= k < |a| ==> IsTrimmable(a[k])
    requires y != "" && !IsTrimmable(y[0])
    ensures TrimStart(a + y) == y
    decreases |a|
  {
    if a != "" {
      assert (a + y)[1..] == a[1..] + y;
      TrimStartDropsRun(a[1..], y);
    } else {
      assert a + y == y;
    }
  }

  /** `TrimEnd` drops a trailing run of trimmable characters after a visible one. */
  lemma {:induction false} TrimEndDropsRun(x: string, b: string)
    requires forall k :: 0 <= k < |b| ==> IsTrimmable(b[k])
    requires x != "" && !IsTrimmable(x[|x| - 1])
    ensures TrimEnd(x + b) == x
    decreases |b|
  {
    if b != "" {
      var c := b[..|b| - 1];
      assert (x + b)[..|x + b| - 1] == x + c;
      TrimEndDropsRun(x, c);
    } else {
      assert x + b == x;
    }
  }

  /** A string that neither begins nor ends with a trimmable character is its own trim. */
  lemma TrimOfTrimmed(s: string)
    requires s == "" || (!IsTrimmable(s[0]) && !IsTrimmable(s[|s| - 1]))
    ensures Trim(s) == s
  {
  }

  /** Position of the first `\s` character at or after `from`. */
  function FirstSpaceFrom(s: string, from: nat): (r: Option<nat>)
    ensures r.Some? ==> from <= r.value < |s| && IsRegexSpace(s[r.value])
    ensures r.Some? ==> forall k :: from <= k < r.value ==> !IsRegexSpace(s[k])
    ensures r.None? ==> forall k :: from <= k < |s| ==> !IsRegexSpace(s[k])
    decreases |s| - from
  {
    if from >= |s| then None
    else if IsRegexSpace(s[from]) then Some(from)
    else FirstSpaceFrom(s, from + 1)
  }

  /** End of the maximal run of `\s` characters that begins at `i`. */
  function SpaceRunEnd(s: string, i: nat): (j: nat)
    requires i <= |s|
    ensures i <= j <= |s|
    ensures forall k :: i <= k < j ==> IsRegexSpace(s[k])
    ensures j == |s| || !IsRegexSpace(s[j])
    decreases |s| - i
  {
    if i < |s| && IsRegexSpace(s[i]) then SpaceRunEnd(s, i + 1) else i
  }

  predicate NoSpace(s: string) {
    forall k :: 0 <= k < |s| ==> !IsRegexSpace(s[k])
  }

  lemma SuffixChar(s: string, j: nat, c: char)
    requires j <= |s| && c in s[j..]
    ensures c in s
  {
    var p :| 0 <= p < |s[j..]| && s[j..][p] == c;
    assert s[j + p] == c;
  }

  /** The pieces between the leftmost-longest matches of `\s+`, empty pieces included. */
  function SpaceSegments(s: string): (r: seq<string>)
    ensures |r| >= 1
    ensures forall k :: 0 <= k < |r| ==> NoSpace(r[k])
    ensures r[0] == match FirstSpaceFrom(s, 0) case None => s case Some(i) => s[..i]
    decreases |s|
  {
    match FirstSpaceFrom(s, 0)
    case None => [s]
    case Some(i) =>
      var j := SpaceRunEnd(s, i);
      [s[..i]] + SpaceSegments(s[j..])
  }

  /** Every character of a `\s+` piece comes from the split string. */
  lemma {:induction false} SpaceSegmentsChars(s: string)
    ensures forall k, i :: 0 <= k < |SpaceSegments(s)| && 0 <= i < |SpaceSegments(s)[k]| ==> SpaceSegments(s)[k][i] in s
    decreases |s|
  {
    match FirstSpaceFrom(s, 0)
    case None =>
    case Some(i) =>
      var j := SpaceRunEnd(s, i);
      SpaceSegmentsChars(s[j..]);
      PiecesFromParts(s, i, j, SpaceSegments(s[j..]));
  }

  /** The pieces `[s[..i]] + rest`, with every character of `rest` in `s[j..]`, come from `s`. */
  lemma PiecesFromParts(s: string, i: nat, j: nat, rest: seq<string>)
    requires i <= j <= |s|
    requires forall k, q :: 0 <= k < |rest| && 0 <= q < |rest[k]| ==> rest[k][q] in s[j..]
    ensures forall k, q :: 0 <= k < |[s[..i]] + rest| && 0 <= q < |([s[..i]] + rest)[k]| ==> ([s[..i]] + rest)[k][q] in s
  {
    var r := [s[..i]] + rest;
    forall k, q | 0 <= k < |r| && 0 <= q < |r[k]| ensures r[k][q] in s {
      if k == 0 {
        assert r[k][q] == s[q];
      } else {
        assert r[k] == rest[k - 1];
        SuffixChar(s, j, r[k][q]);
      }
    }
  }

  /** A word, one space and a text that starts visibly: the word is the first piece. */
  lemma SpaceSegmentsAfterWord(w: string, tail: string)
    requires NoSpace(w) && |tail| > 0 && !IsRegexSpace(tail[0])
    ensures SpaceSegments(w + " " + tail) == [w] + SpaceSegments(tail)
  {
    var d := w + " " + tail;
    assert forall k :: 0 <= k < |w| ==> d[k] == w[k];
    assert FirstSpaceFrom(d, 0) == Some(|w|) by {
      FirstSpaceSkips(d, 0, |w|);
    }
    assert d[|w| + 1] == tail[0];
    assert SpaceRunEnd(d, |w|) == |w| + 1 by {
      assert SpaceRunEnd(d, |w| + 1) == |w| + 1;
    }
    assert d[..|w|] == w;
    assert d[|w| + 1..] == tail;
  }

  /** The search for a space skips a space-free stretch. */
  lemma {:induction false} FirstSpaceSkips(s: string, from: nat, to: nat)
    requires from <= to <= |s|
    requires forall k :: from <= k < to ==> !IsRegexSpace(s[k])
    ensures FirstSpaceFrom(s, from) == FirstSpaceFrom(s, to)
    decreases (to as int) - (from as int)
  {
    if from < to {
      FirstSpaceSkips(s, from + 1, to);
    }
  }

  /** The first `\s+` piece of a text that starts with a space-free
      prefix begins with that prefix. */
  lemma FirstPieceKeepsPrefix(s: string, p: string)
    requires |p| <= |s| && s[..|p|] == p && NoSpace(p)
    ensures |SpaceSegments(s)[0]| >= |p| && SpaceSegments(s)[0][..|p|] == p
  {
    forall k | 0 <= k < |p| ensures !IsRegexSpace(s[k]) {
      assert s[k] == p[k];
    }
    FirstSpaceSkips(s, 0, |p|);
    match FirstSpaceFrom(s, |p|)
    case None =>
    case Some(i) => assert s[..i][..|p|] == s[..|p|];
  }

  /** `s.indexOf(c, from)` for a single character. */
  function CharIndexFrom(s: string, c: char, from: nat): (r: Option<nat>)
    ensures r.Some? ==> from <= r.value < |s| && s[r.value] == c
    ensures r.Some? ==> forall k :: from <= k < r.value ==> s[k] != c
    ensures r.None? ==> forall k :: from <= k < |s| ==> s[k] != c
    decreases |s| - from
  {
    if from >= |s| then None
    else if s[from] == c then Some(from)
    else CharIndexFrom(s, c, from + 1)
  }

  /** The first `c` at or after `from` is determined by its characterisation. */
  lemma {:induction false} CharIndexFromIs(s: string, c: char, from: nat, i: nat)
    requires from <= i < |s| && s[i] == c
    requires forall k :: from <= k < i ==> s[k] != c
    ensures CharIndexFrom(s, c, from) == Some(i)
    decreases i - from
  {
    if from < i {
      CharIndexFromIs(s, c, from + 1, i);
    }
  }

  /** The first `c` from `from` in `x + rest` is the head of `rest` when the
      part of `x` from `from` holds none. */
  lemma CharIndexAfter(x: string, rest: string, c: char, from: nat)
    requires from <= |x| && c !in x[from..] && |rest| > 0 && rest[0] == c
    ensures CharIndexFrom(x + rest, c, from) == Some(|x|)
  {
    var s := x + rest;
    forall k | from <= k < |x| ensures s[k] != c {
      assert s[k] == x[from..][k - from];
    }
    CharIndexFromIs(s, c, from, |x|);
  }

  /** `s.split("\\s+")`. */
  function SplitSpaces(s: string): (r: seq<string>)
    ensures forall k :: 0 <= k < |r| ==> NoSpace(r[k])
    ensures |r| <= |SpaceSegments(s)| && r == SpaceSegments(s)[..|r|]
    ensures forall k :: |r| <= k < |SpaceSegments(s)| ==> SpaceSegments(s)[k] == ""
    ensures FirstSpaceFrom(s, 0).Some? && |r| > 0 ==> r[|r| - 1] != ""
    ensures FirstSpaceFrom(s, 0).None? ==> r == [s]
  {
    if FirstSpaceFrom(s, 0).None? then [s] else DropTrailingEmpty(SpaceSegments(s))
  }

  /** `String.replace` with a one-character target: every `c` becomes `t`. */
  function ReplaceChar(s: string, c: char, t: string): (r: string)
    ensures c !in t ==> c !in r
    ensures c !in s ==> r == s
    decreases |s|
  {
    if s == "" then ""
    else (if s[0] == c then t else [s[0]]) + ReplaceChar(s[1..], c, t)
  }

  /** A character in neither the text nor the replacement stays absent. */
  lemma {:induction false} ReplaceCharKeepsOut(s: string, c: char, t: string, d: char)
    requires d !in s && d !in t
    ensures d !in ReplaceChar(s, c, t)
    decreases |s|
  {
    if s != "" {
      ReplaceCharKeepsOut(s[1..], c, t, d);
    }
  }

  /** Replacing by a text of length at most one never lengthens. */
  lemma {:induction false} ReplaceCharLength(s: string, c: char, t: string)
    requires |t| <= 1
    ensures |ReplaceChar(s, c, t)| <= |s|
    decreases |s|
  {
    if s != "" {
      ReplaceCharLength(s[1..], c, t);
    }
  }

  lemma {:induction false} ReplaceCharConcat(a: string, b: string, c: char, t: string)
    ensures ReplaceChar(a + b, c, t) == ReplaceChar(a, c, t) + ReplaceChar(b, c, t)
    decreases |a|
  {
    if a == "" {
      assert a + b == b;
    } else {
      assert (a + b)[1..] == a[1..] + b;
      ReplaceCharConcat(a[1..], b, c, t);
    }
  }

  /** Number of occurrences of the character `c` in `s`. */
  function Count(s: string, c: char): nat
    decreases |s|
  {
    if s == "" then 0 else (if s[0] == c then 1 else 0) + Count(s[1..], c)
  }
}

=== FILE: library.dfy ===
/** The project directory as the plugin sees it: the generated functions
    library (a text file of records, modelled line by line) and the set of
    function names that have a compiled `.pyc` module next to it. */
module Library {
  import opened Base

  /** `library` is `None` when the file does not exist (or cannot be opened). */
  datatype Disk = Disk(library: Option<seq<string>>, compiled: set<string>)

  /** The lines `Files.lines` delivers; a missing or unopenable file gives
      none, as each reader's `IOException` handler returns an empty list. */
  function Lines(disk: Disk): (r: seq<string>)
    ensures disk.library.None? ==> r == []
  {
    Present(disk.library)
  }

  /** The lines of a file that may be absent. */
  function Present(file: Option<seq<string>>): seq<string> {
    match file
    case None => []
    case Some(ls) => ls
  }
}

=== FILE: path_manager.dfy ===
/** `BlackBoxFunctions.PathManager`: where the library directory lives and
    the two rules that make it importable, the `PYTHONPATH` append for run
    configurations and the duplicate-free addition of an SDK class root. */
module PathManager {
  import opened Base
  import opened JavaStrings

  const PluginDirName: string := ".blackbox_functions"
  const PythonPathKey: string := "PYTHONPATH"

  /** `Paths.get(base, name).toString()` with the Unix separator: an empty
      base gives the name alone and a trailing separator is not doubled. */
  function JoinPath(base: string, name: string): (r: string)
    requires name != ""
    ensures |r| >= |name|
    ensures |r| > |name| ==> r[|r| - |name| - 1] == '/'
    ensures r[..|r| - |name|] == (if base == "" || base[|base| - 1] == '/' then base else base + "/")
    ensures r[|r| - |name|..] == name
  {
    if base == "" || base[|base| - 1] == '/' then base + name else base + "/" + name
  }

  /** `getPluginDirPath(project)`: a project without a base directory makes
      it throw `IllegalStateException`. */
  function PluginDirPath(basePath: Option<string>): (r: Result<string>)
    ensures r.Thrown? <==> basePath.None?
    ensures r.Ok? ==> r.value != ""
    ensures r.Ok? ==> StartsWith(r.value, basePath.value) && Contains(r.value, PluginDirName)
  {
    match basePath
    case None => Thrown("Project base directory not found for project")
    case Some(base) =>
      var p := JoinPath(base, PluginDirName);
      assert OccursAt(p, PluginDirName, |p| - |PluginDirName|);
      OccursGivesContains(p, PluginDirName, |p| - |PluginDirName|);
      Ok(p)
  }

  /** A run configuration: only the Python kind carries an environment. */
  datatype RunConfig =
    | PythonRun(basePath: Option<string>, envs: map<string, string>)
    | OtherRun(kind: string)

  /** `envs.getOrDefault("PYTHONPATH", "")`. */
  function CurrentPythonPath(envs: map<string, string>): string {
    if PythonPathKey in envs then envs[PythonPathKey] else ""
  }

  /** `updatePythonPath(settings)`: a Python run configuration gets the
      plugin directory appended to its `PYTHONPATH` with the platform's
      path separator, unless the current value already contains it as a
      substring. */
  function UpdatePythonPath(c: RunConfig, pathSeparator: string): (r: Result<RunConfig>)
    ensures c.OtherRun? ==> r == Ok(c)
    ensures c.PythonRun? ==> (r.Thrown? <==> c.basePath.None?)
    ensures r.Ok? && c.PythonRun? ==>
              r.value.PythonRun? && r.value.basePath == c.basePath &&
              Contains(CurrentPythonPath(r.value.envs), PluginDirPath(c.basePath).value) &&
              (forall k :: k != PythonPathKey ==> (k in r.value.envs <==> k in c.envs)) &&
              (forall k :: k != PythonPathKey && k in c.envs ==> r.value.envs[k] == c.envs[k])
    ensures r.Ok? && c.PythonRun? && !Contains(CurrentPythonPath(c.envs), PluginDirPath(c.basePath).value) ==>
              r.value.envs == c.envs[PythonPathKey := CurrentPythonPath(c.envs) + pathSeparator + PluginDirPath(c.basePath).value]
    ensures r.Ok? && c.PythonRun? && Contains(CurrentPythonPath(c.envs), PluginDirPath(c.basePath).value) ==>
              r.value == c
  {
    match c
    case OtherRun(_) => Ok(c)
    case PythonRun(basePath, envs) =>
      match PluginDirPath(basePath)
      case Thrown(message) => Thrown(message)
      case Ok(path) =>
        var current := CurrentPythonPath(envs);
        if Contains(current, path) then Ok(c)
        else
          var updated := current + pathSeparator + path;
          assert OccursAt(updated, path, |current + pathSeparator|);
          OccursGivesContains(updated, path, |current + pathSeparator|);
          Ok(PythonRun(basePath, envs[PythonPathKey := updated]))
  }

  /** After one update the path is present, so a second update changes nothing. */
  lemma UpdateIdempotent(c: RunConfig, pathSeparator: string)
    requires UpdatePythonPath(c, pathSeparator).Ok?
    ensures UpdatePythonPath(UpdatePythonPath(c, pathSeparator).value, pathSeparator) == UpdatePythonPath(c, pathSeparator)
  {
  }

  /** Without a `PYTHONPATH` entry the new value starts with the separator. */
  lemma AbsentPathLeadingSeparator(c: RunConfig, pathSeparator: string)
    requires c.PythonRun? && c.basePath.Some? && PythonPathKey !in c.envs
    ensures var r := UpdatePythonPath(c, pathSeparator);
            r.Ok? && r.value.envs[PythonPathKey] == pathSeparator + PluginDirPath(c.basePath).value
  {
    var path := PluginDirPath(c.basePath).value;
    EmptyHoldsNothing(path);
    assert "" + pathSeparator + path == pathSeparator + path;
  }

  /** The empty value contains no non-empty path. */
  lemma EmptyHoldsNothing(path: string)
    requires path != ""
    ensures !Contains("", path)
  {
    MissingCharNoContains("", path, 0);
  }

  /** A value without the path gets separator and path appended. */
  lemma UpdateAppends(c: RunConfig, pathSeparator: string)
    requires c.PythonRun? && c.basePath.Some?
    requires !Contains(CurrentPythonPath(c.envs), PluginDirPath(c.basePath).value)
    ensures var updated := CurrentPythonPath(c.envs) + pathSeparator + PluginDirPath(c.basePath).value;
            UpdatePythonPath(c, pathSeparator) == Ok(PythonRun(c.basePath, c.envs[PythonPathKey := updated]))
  {
  }

  /** An existing value is kept in front of the appended path. */
  lemma UpdateKeepsExistingValue(c: RunConfig, pathSeparator: string)
    requires c.PythonRun? && UpdatePythonPath(c, pathSeparator).Ok?
    ensures StartsWith(CurrentPythonPath(UpdatePythonPath(c, pathSeparator).value.envs), CurrentPythonPath(c.envs))
  {
    var path := PluginDirPath(c.basePath).value;
    var current := CurrentPythonPath(c.envs);
    if !Contains(current, path) {
      var updated := current + pathSeparator + path;
      UpdateAppends(c, pathSeparator);
      assert updated[..|current|] == current;
    }
  }

  /** No root occurs twice. */
  predicate Distinct(roots: seq<string>) {
    forall i, j :: 0 <= i < j < |roots| ==> roots[i] != roots[j]
  }

  /** The search loop of `addPluginDirToPythonPath` over the SDK's class
      roots, stopping at the first root whose path equals `path`. */
  method FindRoot(roots: seq<string>, path: string) returns (found: bool)
    ensures found <==> path in roots
  {
    found := false;
    var i := 0;
    while i < |roots|
      invariant 0 <= i <= |roots|
      invariant !found ==> path !in roots[..i]
      invariant found ==> path in roots
    {
      if roots[i] == path {
        found := true;
        break;
      }
      i := i + 1;
    }
    assert !found ==> roots[..i] == roots;
  }

  /** The roots after the search: `path` is added at the end only when no
      root already has it. */
  function AddRoot(roots: seq<string>, path: string): (r: seq<string>)
    ensures path in r
    ensures forall x :: x in r <==> x in roots || x == path
    ensures Distinct(roots) ==> Distinct(r)
    ensures |roots| <= |r| <= |roots| + 1 && r[..|roots|] == roots
  {
    if path in roots then roots else roots + [path]
  }

  /** Adding the same root again changes nothing. */
  lemma AddRootIdempotent(roots: seq<string>, path: string)
    ensures AddRoot(AddRoot(roots, path), path) == AddRoot(roots, path)
  {
  }

  /** `addPluginDirToPythonPath(project)` on the class roots of the project
      SDK (`None` when the project has none, which changes nothing).
      `resolve` stands for the VFS lookup of the directory, `None` when no
      virtual file can be found or created; the roots are then committed
      unchanged. A missing base path throws inside the write action. */
  function AddPluginDirToSdk(sdkRoots: Option<seq<string>>, basePath: Option<string>,
                             resolve: string -> Option<string>): (r: Result<Option<seq<string>>>)
    ensures sdkRoots.None? ==> r == Ok(None)
    ensures sdkRoots.Some? ==> (r.Thrown? <==> basePath.None?)
    ensures r.Ok? && sdkRoots.Some? ==> r.value.Some? && sdkRoots.value <= r.value.value
    ensures r.Ok? && sdkRoots.Some? && Distinct(sdkRoots.value) ==> Distinct(r.value.value)
    ensures r.Ok? && sdkRoots.Some? && resolve(PluginDirPath(basePath).value).Some? ==>
              resolve(PluginDirPath(basePath).value).value in r.value.value
    ensures r.Ok? && sdkRoots.Some? && resolve(PluginDirPath(basePath).value).None? ==>
              r.value.value == sdkRoots.value
    ensures r.Ok? && sdkRoots.Some? && resolve(PluginDirPath(basePath).value).Some? ==>
              r.value.value == AddRoot(sdkRoots.value, resolve(PluginDirPath(basePath).value).value)
    ensures r.Ok? && sdkRoots.Some? ==>
              forall x :: x in r.value.value ==> x in sdkRoots.value || Some(x) == resolve(PluginDirPath(basePath).value)
  {
    match sdkRoots
    case None => Ok(None)
    case Some(roots) =>
      match PluginDirPath(basePath)
      case Thrown(message) => Thrown(message)
      case Ok(dir) =>
        match resolve(dir)
        case None => Ok(Some(roots))
        case Some(file) => Ok(Some(AddRoot(roots, file)))
  }

  /** Registering the directory twice gives the roots of registering it once. */
  lemma RegisterTwiceSameRoots(sdkRoots: seq<string>, basePath: Option<string>, resolve: string -> Option<string>)
    requires AddPluginDirToSdk(Some(sdkRoots), basePath, resolve).Ok?
    ensures var once := AddPluginDirToSdk(Some(sdkRoots), basePath, resolve).value;
            AddPluginDirToSdk(once, basePath, resolve) == Ok(once)
  {
  }
}

=== FILE: prompt_logging.dfy ===
/** The JSON string escaping that `PromptLogging` applies to the session id,
    the record uid and the free-text payload of every log request. */
module PromptLogging {
  import opened JavaStrings
  import opened Base

  /** `escapeJson`: three `String.replace` passes in the source's order:
      backslashes are doubled first, then quotes and line feeds get a
      backslash in front. */
  function EscapeJson(input: string): (r: string)
    ensures '\n' !in r
    ensures '\\' !in input && '"' !in input && '\n' !in input ==> r == input
  {
    var backslashes := ReplaceChar(input, '\\', "\\\\");
    var quotes := ReplaceChar(backslashes, '"', "\\\"");
    ReplaceChar(quotes, '\n', "\\n")
  }

  /** How one character is written out by a single left-to-right escaper. */
  function EscapeChar(c: char): string {
    if c == '\\' then "\\\\"
    else if c == '"' then "\\\""
    else if c == '\n' then "\\n"
    else [c]
  }

  /** Reference escaper: one pass, one character at a time. */
  function EscapeReference(s: string): string
    decreases |s|
  {
    if s == "" then "" else EscapeChar(s[0]) + EscapeReference(s[1..])
  }

  /** The three passes behave like the one-pass escaper: the backslashes that
      the second and third pass introduce are never doubled again. */
  lemma {:induction false} EscapeMatchesReference(s: string)
    ensures EscapeJson(s) == EscapeReference(s)
    decreases |s|
  {
    if s != "" {
      var c := s[0];
      var rest := s[1..];
      assert s == [c] + rest;
      ReplaceCharConcat([c], rest, '\\', "\\\\");
      var p1 := ReplaceChar([c], '\\', "\\\\");
      var q1 := ReplaceChar(rest, '\\', "\\\\");
      ReplaceCharConcat(p1, q1, '"', "\\\"");
      var p2 := ReplaceChar(p1, '"', "\\\"");
      var q2 := ReplaceChar(q1, '"', "\\\"");
      ReplaceCharConcat(p2, q2, '\n', "\\n");
      assert [c][1..] == "";
      if c == '\\' {
        assert p1 == "\\\\";
        assert p2 == p1;
      } else if c == '"' {
        assert p1 == [c];
        assert p2 == "\\\"";
      } else if c == '\n' {
        assert p1 == [c];
        assert p2 == [c];
        assert ReplaceChar(p2, '\n', "\\n") == "\\n";
      } else {
        assert p1 == [c];
        assert p2 == [c];
      }
      EscapeMatchesReference(rest);
    }
  }

  /** Every backslash, quote and line feed costs exactly one extra character. */
  lemma {:induction false} EscapeLength(s: string)
    ensures |EscapeJson(s)| == |s| + Count(s, '\\') + Count(s, '"') + Count(s, '\n')
  {
    EscapeMatchesReference(s);
    ReferenceLength(s);
  }

  lemma {:induction false} ReferenceLength(s: string)
    ensures |EscapeReference(s)| == |s| + Count(s, '\\') + Count(s, '"') + Count(s, '\n')
    decreases |s|
  {
    if s != "" {
      ReferenceLength(s[1..]);
    }
  }

  /** Left-to-right decoder of the escaped form: `\\` gives a backslash,
      `\"` a quote and `\n` a line feed; any other backslash pair is malformed. */
  function Unescape(s: string): Option<string>
    decreases |s|
  {
    if s == "" then Some("")
    else if s[0] == '\\' then
      if |s| >= 2 && (s[1] == '\\' || s[1] == '"' || s[1] == 'n') then
        match Unescape(s[2..])
        case None => None
        case Some(t) => Some([if s[1] == 'n' then '\n' else s[1]] + t)
      else None
    else
      match Unescape(s[1..])
      case None => None
      case Some(t) => Some([s[0]] + t)
  }

  lemma {:induction false} UnescapeReference(s: string)
    ensures Unescape(EscapeReference(s)) == Some(s)
    decreases |s|
  {
    if s != "" {
      var tail := EscapeReference(s[1..]);
      var e := EscapeChar(s[0]) + tail;
      UnescapeReference(s[1..]);
      if s[0] == '\\' || s[0] == '"' || s[0] == '\n' {
        assert e[2..] == tail;
      } else {
        assert e[1..] == tail;
      }
      assert s == [s[0]] + s[1..];
    }
  }

  /** Decoding the escaped text gives the input back. */
  lemma UnescapeInvertsEscape(s: string)
    ensures Unescape(EscapeJson(s)) == Some(s)
  {
    EscapeMatchesReference(s);
    UnescapeReference(s);
  }

  /** Hence two different payloads never produce the same escaped text. */
  lemma EscapeInjective(a: string, b: string)
    requires EscapeJson(a) == EscapeJson(b)
    ensures a == b
  {
    UnescapeInvertsEscape(a);
    UnescapeInvertsEscape(b);
  }
}

=== FILE: response_parser.dfy ===
/** How both `OpenAIClient` classes cut the generated function out of the
    model's reply: the code sits between the `# Start` and `# End` comment
    sentinels, and the definition is the first line of that code containing
    `def`. Also the fixed instruction text sent with every prompt. */
module ResponseParser {
  import opened Base
  import opened JavaStrings

  const StartMarker: string := "# Start"
  const EndMarker: string := "# End"
  const DefKeyword: string := "def"
  const LineBreak: string := "\n"
  const InvalidPromptPrefix: string := "InvalidPrompt:"
  const NoFunctionMessage: string := "No function found with # Start and # End comments"
  const NoDefinitionMessage: string := "Unable to find the function definition"

  /** `BlackBoxFunctions.OpenAIClient.ProcessedChoice`. */
  datatype ProcessedChoice = ProcessedChoice(def: string, code: string, raw: string, uid: string)

  /** `PyTutor.OpenAIClient.ProcessedChoice`, which has no uid. */
  datatype PlainChoice = PlainChoice(def: string, code: string, raw: string)

  /** A choice carries a function exactly when its definition is not empty. */
  predicate Found(c: ProcessedChoice) {
    c.def != ""
  }

  function FirstDefinitionFrom(lines: seq<string>, from: nat): (r: Option<nat>)
    ensures r.Some? ==> from <= r.value < |lines| && Contains(lines[r.value], DefKeyword)
    ensures r.Some? ==> forall k :: from <= k < r.value ==> !Contains(lines[k], DefKeyword)
    ensures r.None? ==> forall k :: from <= k < |lines| ==> !Contains(lines[k], DefKeyword)
    decreases |lines| - from
  {
    if from >= |lines| then None
    else if Contains(lines[from], DefKeyword) then Some(from)
    else FirstDefinitionFrom(lines, from + 1)
  }

  /** Index of the first line holding the substring `def`, as the source's
      `for` loop with `break` finds it. */
  function FirstDefinitionIndex(lines: seq<string>): Option<nat> {
    FirstDefinitionFrom(lines, 0)
  }

  lemma EmptyHasNoDefinition()
    ensures !Contains("", DefKeyword)
    ensures Segments("", LineBreak) == [""]
    ensures Split("", LineBreak) == [""]
  {
  }

  /** A line that contains `def` still contains a visible character after trimming. */
  lemma DefinitionLineVisible(line: string)
    requires Contains(line, DefKeyword)
    ensures Trim(line) != ""
  {
    var i := IndexOf(line, DefKeyword).value;
    assert line[i] == line[i..i + 3][0] == 'd';
    TrimKeepsVisible(line, i);
  }

  /** The first half of `getFunctionFromGPT`: the piece after the first
      `# Start`, cut at the first `# End`, trimmed. `None` is the source's
      early return with the "no function found" message, taken when the
      split on the start marker has fewer than two pieces or the split of
      that piece on the end marker is empty. */
  function CodeContent(gptRes: string): Option<string> {
    var parts := Split(gptRes, StartMarker);
    if |parts| < 2 then None
    else
      var codeParts := Split(parts[1], EndMarker);
      if |codeParts| == 0 then None
      else Some(Trim(codeParts[0]))
  }

  /** The second half: the first '\n'-line of the code containing `def`, trimmed. */
  function DefinitionIn(code: string): (r: Option<string>)
    ensures r.Some? ==> r.value != "" && code != ""
  {
    var lines := Split(code, LineBreak);
    match FirstDefinitionIndex(lines)
    case None => None
    case Some(i) =>
      DefinitionLineVisible(lines[i]);
      EmptyHasNoDefinition();
      Some(Trim(lines[i]))
  }

  /** `getFunctionFromGPT(gptRes, uid)` of the BlackBoxFunctions client. */
  function GetFunctionFromGPT(gptRes: string, uid: string): (r: ProcessedChoice)
    ensures r.uid == uid
    ensures r.def == "" <==> r.code == ""
    ensures !Found(r) ==> r.raw == NoFunctionMessage || r.raw == NoDefinitionMessage
    ensures Found(r) ==> r.raw == gptRes
    ensures !Contains(gptRes, StartMarker) ==> r == ProcessedChoice("", "", NoFunctionMessage, uid)
  {
    match CodeContent(gptRes)
    case None => ProcessedChoice("", "", NoFunctionMessage, uid)
    case Some(codeContent) =>
      match DefinitionIn(codeContent)
      case None => ProcessedChoice("", "", NoDefinitionMessage, uid)
      case Some(codeDef) => ProcessedChoice(codeDef, codeContent, gptRes, uid)
  }

  /** `getFunctionFromGPT(gptRes)` of the PyTutor client: the same two steps
      without a uid. */
  function GetFunctionFromGPTPlain(gptRes: string): (r: PlainChoice)
    ensures r.def == "" <==> r.code == ""
    ensures r.def == "" ==> r.raw == NoFunctionMessage || r.raw == NoDefinitionMessage
    ensures r.def != "" ==> r.raw == gptRes
  {
    match CodeContent(gptRes)
    case None => PlainChoice("", "", NoFunctionMessage)
    case Some(codeContent) =>
      match DefinitionIn(codeContent)
      case None => PlainChoice("", "", NoDefinitionMessage)
      case Some(codeDef) => PlainChoice(codeDef, codeContent, gptRes)
  }

  /** The two clients parse identically; the BlackBoxFunctions one only adds the uid. */
  lemma PlainAgreesWithTracked(gptRes: string, uid: string)
    ensures var t := GetFunctionFromGPT(gptRes, uid);
            GetFunctionFromGPTPlain(gptRes) == PlainChoice(t.def, t.code, t.raw)
  {
    match CodeContent(gptRes) {
      case None =>
      case Some(code) =>
        match DefinitionIn(code) {
          case None =>
          case Some(_) =>
        }
    }
  }

  /** The BlackBoxFunctions `sendPromptToOpenAI` post-processing of a reply:
      a reply that the model marked as an invalid prompt is passed on as the
      raw text without being parsed. */
  function ProcessResponse(rawResponse: string, uid: string): (r: ProcessedChoice)
    ensures r.uid == uid
    ensures r.def == "" <==> r.code == ""
    ensures StartsWith(rawResponse, InvalidPromptPrefix) ==> r == ProcessedChoice("", "", rawResponse, uid)
    ensures Found(r) ==> r.raw == rawResponse && !StartsWith(rawResponse, InvalidPromptPrefix)
  {
    if StartsWith(rawResponse, InvalidPromptPrefix) then ProcessedChoice("", "", rawResponse, uid)
    else GetFunctionFromGPT(rawResponse, uid)
  }

  /** Reference reading of the sentinel contract, written with `indexOf`
      instead of `split`: the text after the first start marker, cut at the
      next start marker and then at the first end marker, trimmed. */
  function CodeBlock(text: string): Option<string> {
    match IndexOf(text, StartMarker)
    case None => None
    case Some(p) => Some(Trim(Before(Before(text[p + |StartMarker|..], StartMarker), EndMarker)))
  }

  /** Reference definition line: the first `def` line of the block, trimmed. */
  function DefinitionLine(code: string): Option<string> {
    match FirstDefinitionIndex(Segments(code, LineBreak))
    case None => None
    case Some(i) => Some(Trim(Segments(code, LineBreak)[i]))
  }

  /** Dropping trailing empty lines never changes which line is the first `def` line. */
  lemma FirstDefinitionOfPrefix(a: seq<string>, b: seq<string>)
    requires |a| <= |b| && a == b[..|a|]
    requires forall k :: |a| <= k < |b| ==> b[k] == ""
    ensures FirstDefinitionIndex(a) == FirstDefinitionIndex(b)
  {
    EmptyHasNoDefinition();
    var x := FirstDefinitionIndex(a);
    var y := FirstDefinitionIndex(b);
    if x.Some? {
      assert a[x.value] == b[x.value];
      assert forall k :: 0 <= k < x.value ==> a[k] == b[k];
    } else {
      assert forall k :: 0 <= k < |a| ==> a[k] == b[k];
    }
  }

  lemma DefinitionLineOfEmpty()
    ensures DefinitionLine("") == None
  {
    EmptyHasNoDefinition();
  }

  /** Where the `split`-based code extraction succeeds it agrees with the
      reference reading; where it fails, the reference reading has no block
      or an empty one. */
  lemma CodeContentMatchesBlock(text: string)
    ensures CodeContent(text).Some? ==> CodeContent(text) == CodeBlock(text)
    ensures CodeContent(text).None? ==> CodeBlock(text).None? || CodeBlock(text) == Some("")
  {
    match IndexOf(text, StartMarker)
    case None =>
    case Some(p) =>
      var after := text[p + |StartMarker|..];
      var all := Segments(text, StartMarker);
      assert all == [text[..p]] + Segments(after, StartMarker);
      var seg := Before(after, StartMarker);
      assert all[1] == seg;
      var parts := Split(text, StartMarker);
      if |parts| >= 2 {
        assert parts[1] == seg;
        var codeParts := Split(seg, EndMarker);
        if |codeParts| == 0 {
          assert Segments(seg, EndMarker)[0] == "";
        } else {
          assert codeParts[0] == Before(seg, EndMarker);
        }
      } else {
        assert seg == "";
      }
  }

  /** Splitting with Java's rules and cutting into raw segments find the same definition line. */
  lemma DefinitionInMatchesLine(code: string)
    ensures DefinitionIn(code) == DefinitionLine(code)
  {
    FirstDefinitionOfPrefix(Split(code, LineBreak), Segments(code, LineBreak));
  }

  /** The `split`-based parser finds a function exactly when the reference
      reading finds a code block with a `def` line, and then returns that
      block and that line. */
  lemma ParseMatchesCodeBlock(text: string, uid: string)
    ensures var r := GetFunctionFromGPT(text, uid);
            && (Found(r) <==> CodeBlock(text).Some? && DefinitionLine(CodeBlock(text).value).Some?)
            && (Found(r) ==> Some(r.code) == CodeBlock(text) && Some(r.def) == DefinitionLine(r.code))
  {
    CodeContentMatchesBlock(text);
    DefinitionLineOfEmpty();
    if CodeContent(text).Some? {
      DefinitionInMatchesLine(CodeContent(text).value);
    }
  }

  /** Both sentinels start with `#`, which recurs in neither, so neither
      sentinel can overlap itself; the same holds for the line break. */
  lemma Markers()
    ensures FirstUnique(StartMarker) && FirstUnique(EndMarker) && FirstUnique(LineBreak)
    ensures StartMarker[0] == '#' && EndMarker[0] == '#'
  {
  }

  /** A start marker with nothing after it is reported as a missing function. */
  lemma MarkerAtEnd(pre: string, uid: string)
    requires !Contains(pre, StartMarker)
    ensures GetFunctionFromGPT(pre + StartMarker, uid) == ProcessedChoice("", "", NoFunctionMessage, uid)
  {
    Markers();
    var text := pre + StartMarker;
    IndexOfConcat(pre, StartMarker, StartMarker);
    assert text[|pre| + |StartMarker|..] == "";
    assert Segments(text, StartMarker) == [pre] + Segments("", StartMarker);
  }

  /** A reply laid out as the instructions ask: noise, start marker, a body
      free of `#`, end marker, anything. The code block is the trimmed body,
      whatever follows the end marker. A missing end marker is tolerated: see
      `NoEndMarker`. */
  lemma DelimitedCodeBlock(pre: string, body: string, post: string)
    requires !Contains(pre, StartMarker) && '#' !in body
    ensures CodeBlock(pre + StartMarker + body + EndMarker + post) == Some(Trim(body))
  {
    Markers();
    var after := body + (EndMarker + post);
    assert pre + StartMarker + body + EndMarker + post == pre + (StartMarker + after);
    AfterFirstStart(pre, after);
    var w := StartCutKeepsEnd(body, post);
    NoFirstCharNoContains(body, EndMarker);
    IndexOfConcat(body, EndMarker + w, EndMarker);
    assert (body + (EndMarker + w))[..|body|] == body;
  }

  /** The text after the first start marker, when the noise before it holds none. */
  lemma AfterFirstStart(pre: string, after: string)
    requires !Contains(pre, StartMarker)
    ensures IndexOf(pre + (StartMarker + after), StartMarker) == Some(|pre|)
    ensures (pre + (StartMarker + after))[|pre| + |StartMarker|..] == after
  {
    Markers();
    IndexOfConcat(pre, StartMarker + after, StartMarker);
  }

  /** Cutting a `#`-free body followed by the end marker at the next start
      marker keeps the body and the end marker. */
  lemma StartCutKeepsEnd(body: string, post: string) returns (w: string)
    requires '#' !in body
    ensures Before(body + (EndMarker + post), StartMarker) == body + (EndMarker + w)
  {
    Markers();
    var tail := EndMarker + post;
    var after := body + tail;
    NoFirstCharNoContains(body, StartMarker);
    NoOccurrenceBefore(body, tail, StartMarker);
    EndMarkerHoldsNoStart(body, post);
    if IndexOf(after, StartMarker).Some? {
      var q := IndexOf(after, StartMarker).value;
      assert q >= |body| + |EndMarker|;
      w := post[..q - |body| - |EndMarker|];
      assert after[..q] == body + (EndMarker + w);
    } else {
      w := post;
    }
  }

  /** No start marker begins inside the end marker. */
  lemma EndMarkerHoldsNoStart(body: string, post: string)
    ensures forall j :: |body| <= j < |body| + |EndMarker| ==> !OccursAt(body + (EndMarker + post), StartMarker, j)
  {
    var tail := EndMarker + post;
    var after := body + tail;
    forall j | |body| <= j < |body| + |EndMarker| ensures !OccursAt(after, StartMarker, j) {
      var t := j - |body|;
      assert after[j] == tail[t] == EndMarker[t];
      if j + |StartMarker| <= |after| {
        var window := after[j..j + |StartMarker|];
        if t == 0 {
          assert window[2] == tail[2] == 'E';
        } else {
          assert window[0] == EndMarker[t] != '#';
        }
      }
    }
  }

  /** Without any end marker the code block runs to the end of the reply. */
  lemma NoEndMarker(pre: string, body: string)
    requires !Contains(pre, StartMarker) && '#' !in body
    ensures CodeBlock(pre + StartMarker + body) == Some(Trim(body))
  {
    Markers();
    var text := pre + StartMarker + body;
    assert text == pre + (StartMarker + body);
    IndexOfConcat(pre, StartMarker + body, StartMarker);
    assert text[|pre| + |StartMarker|..] == body;
    NoFirstCharNoContains(body, StartMarker);
    NoFirstCharNoContains(body, EndMarker);
    assert Before(body, StartMarker) == body;
    assert Before(body, EndMarker) == body;
  }

  /** The worked example of a reply: noise, a two-line function between the
      markers, more noise. The definition is the first code line and the code
      is everything between the markers without the surrounding line breaks. */
  lemma MultiplyExample(uid: string)
    ensures var first := "def mul(a,b):";
            var code := first + "\n    return a*b";
            var text := "noise " + StartMarker + "\n" + code + "\n" + EndMarker + "\nmore noise";
            GetFunctionFromGPT(text, uid) == ProcessedChoice(first, code, text, uid)
  {
    var first := "def mul(a,b):";
    var code := first + "\n    return a*b";
    var text := "noise " + StartMarker + "\n" + code + "\n" + EndMarker + "\nmore noise";
    MultiplyBlock(code, text);
    MultiplyDefinition(first, code);
    ParseMatchesCodeBlock(text, uid);
  }

  lemma MultiplyBlock(code: string, text: string)
    requires code == "def mul(a,b):" + "\n    return a*b"
    requires text == "noise " + StartMarker + "\n" + code + "\n" + EndMarker + "\nmore noise"
    ensures CodeBlock(text) == Some(code)
  {
    Markers();
    var body := "\n" + code + "\n";
    assert text == "noise " + StartMarker + body + EndMarker + "\nmore noise";
    NoFirstCharNoContains("noise ", StartMarker);
    MultiplyBody(code);
    DelimitedCodeBlock("noise ", body, "\nmore noise");
    TrimAround("\n", code, "\n");
  }

  lemma MultiplyBody(code: string)
    requires code == "def mul(a,b):" + "\n    return a*b"
    ensures '#' !in "\n" + code + "\n"
    ensures code[0] == 'd' && code[|code| - 1] == 'b'
  {
  }

  lemma MultiplyDefinition(first: string, code: string)
    requires first == "def mul(a,b):" && code == first + "\n    return a*b"
    ensures DefinitionLine(code) == Some(first)
  {
    Markers();
    var second := "\n    return a*b";
    NoFirstCharNoContains(first, LineBreak);
    IndexOfConcat(first, second, LineBreak);
    assert code[..|first|] == first;
    var lines := Segments(code, LineBreak);
    assert lines[0] == first;
    assert OccursAt(first, DefKeyword, 0);
    OccursGivesContains(first, DefKeyword, 0);
    TrimOfTrimmed(first);
  }

  // The instruction lines of `generateInstructions`, each one Java literal
  // written as a concatenation of short pieces.
  const InstructionHead: string := "Write a Python function" + " with the following" + " specifications:"
  const StartInstruction: string := "- Directly above the" + " function definition," + " write the following" + " comment: " + StartMarker
  const EndInstruction: string := "- At the very end of" + " the function, write" + " the following comment: " + EndMarker
  const OnlyCodeInstruction: string := "- Provide only the" + " function definition" + " and the code inside" + " the function, without" + " any additional" + " explanations or text."

  /** The five lines of `generateInstructions`; the user's text is the second. */
  function InstructionLines(text: string): seq<string> {
    [InstructionHead, "- " + text, StartInstruction, EndInstruction, OnlyCodeInstruction]
  }

  /** `generateInstructions(text)`: the five lines joined with line feeds.
      For a one-line prompt the lines can be read back off the result. */
  function GenerateInstructions(text: string): (r: string)
    ensures '\n' !in text ==> Segments(r, LineBreak) == InstructionLines(text)
  {
    var lines := InstructionLines(text);
    if '\n' !in text then
      InstructionLinesSingle(text);
      SegmentsOfJoin(lines, LineBreak);
      Join(lines, LineBreak)
    else
      Join(lines, LineBreak)
  }

  lemma InstructionLinesSingle(text: string)
    requires '\n' !in text
    ensures forall k :: 0 <= k < 5 ==> !Contains(InstructionLines(text)[k], LineBreak)
  {
    var lines := InstructionLines(text);
    Markers();
    HeadSingle();
    NoFirstCharNoContains("- " + text, LineBreak);
    StartInstructionSingle();
    EndInstructionSingle();
    OnlyCodeSingle();
    assert lines[0] == InstructionHead && lines[1] == "- " + text && lines[2] == StartInstruction;
    assert lines[3] == EndInstruction && lines[4] == OnlyCodeInstruction;
  }

  lemma HeadSingle()
    ensures !Contains(InstructionHead, LineBreak)
  {
    assert '\n' !in InstructionHead;
    NoFirstCharNoContains(InstructionHead, LineBreak);
  }

  lemma StartInstructionSingle()
    ensures !Contains(StartInstruction, LineBreak)
  {
    assert '\n' !in StartInstruction;
    NoFirstCharNoContains(StartInstruction, LineBreak);
  }

  lemma EndInstructionSingle()
    ensures !Contains(EndInstruction, LineBreak)
  {
    assert '\n' !in EndInstruction;
    NoFirstCharNoContains(EndInstruction, LineBreak);
  }

  lemma OnlyCodeSingle()
    ensures !Contains(OnlyCodeInstruction, LineBreak)
  {
    assert '\n' !in OnlyCodeInstruction;
    NoFirstCharNoContains(OnlyCodeInstruction, LineBreak);
  }
}
